=== FILE: README.md ===
# Coffee Factory ERP — a Dafny model of its business rules

This project models the business core of a small ERP for a coffee factory.
The ERP is a Django application covering these areas:

- **Inventory:** materials, products and stock movements.
- **Production:** recipes, production orders and material reservation.
- **Sales:** customers, sales orders and line items.
- **Suppliers.**
- **Finance:** accounts receivable and payable, and payroll.
- **Accounts:** users and employees.

The model covers the model-level computations of each app, the validation rules of its forms and of its REST serializers, the API error envelope, and four template tags and filters.

Each Django model becomes an immutable datatype. Each method or property becomes a pure function, or in one place a method with a loop. These functions return `Result`/`Outcome` values where the Python code raises. The error values are:

- `ValueError`, `TypeError` and `ArithmeticError` for the Python exceptions;
- `NonFieldError` and `FieldError(field, message)` for Django/DRF `ValidationError`s.

Each error carries the source's message text. The model makes these substitutions:

- `Decimal` becomes exact `real`. `format_currency` works on integer cents.
- Dates and datetimes become `int` day numbers or instants. "Today" and "now" are parameters.
- Every ORM lookup becomes a sequence: a stock ledger of movements, an order's items, a recipe's items, a customer's orders.

Files, one module each:

- `wrappers.dfy`: `Option`, `Result`, `Outcome` and the `Error` kinds.
- `text.dfy`: the string operations the source uses. These are `strip`, `upper`/`lower`, `split`/`join` and digit extraction.
- `core_models.dfy`: `BaseModel` and `AuditModel` (core/models.py).
- `accounts.dfy`: `User` and `Employee` (accounts/models.py).
- `party.dfy` and `suppliers.dfy`: address rendering and display names, shared by `Supplier` and `Customer`.
- `inventory.dfy`: `Material`, `Product` and `StockMovement` (inventory/models.py).
- `production.dfy`: `Recipe`, `RecipeItem`, `ProductionOrder` and `ProductionOrderItem` (production/models.py).
- `sales.dfy`: `SalesOrderItem`, `SalesOrder` and `Customer` (sales/models.py).
- `financial.dfy`: `AccountsReceivable`/`AccountsPayable` and `Payroll` (financial/models.py).
- `forms_core.dfy`, `forms_inventory.dfy`, `forms_production.dfy`, `forms_sales.dfy`, `forms_suppliers.dfy` and `forms_financial.dfy`: the `clean`/`clean_<field>` methods of each app's forms.
- `serializers.dfy`: the `validate`/`validate_<field>` methods of api/serializers.py.
- `api_errors.dfy`: the error envelope of api/exceptions.py.
- `coffee_tags.dfy`: the `percentage_of`, `default_if_none_or_zero`, `color_by_status` and `format_currency` filters.

## Model

| member | source | states |
|---|---|---|
| CoreModels.NewBase | core/models.py:11-33 | A fresh record has its UUID primary key already set and is active. |
| CoreModels.BaseLabel | core/models.py:39-40 | The label is the class name, then the id in parentheses, and nothing else. |
| CoreModels.AuditSave | core/models.py:80-87 | Without a user nothing changes. With a user, `updated_by` becomes that user. `created_by` is set only when there is no primary key yet. |
| CoreModels.NewAudit | core/models.py:11-21 | An unsaved audited record already has a primary key, because the UUID default fills it at construction, and has no audit users. |
| CoreModels.NewRecordNeverGetsCreator | core/models.py:80-87 | As written, saving a new record with a user never records its creator: `created_by` stays empty. |
| CoreModels.AuditSaveCorrected | core/models.py:80-87 | The same rule keyed on "being added" instead of "has no pk": a new record gets both audit fields, an existing one only `updated_by`. |
| CoreModels.CorrectedCreatorIsFirstSaver | core/models.py:80-87 | With the corrected rule, the first saver is the creator and later saves never change it. |
| CoreModels.AuditSaveIdempotent | core/models.py:80-87 | Saving twice with the same user equals saving once. |
| Accounts.FullName | accounts/models.py:58-61 | The result is the username, or a non-empty stripped string equal to "first last" stripped. |
| Accounts.FullNameBoth | accounts/models.py:58-61 | With both names set (and stripped), the full name is "first last". |
| Accounts.FullNameFallback | accounts/models.py:58-61 | With blank first and last names, the full name falls back to the username. |
| Accounts.FullNameFirstOnly | accounts/models.py:58-61 | With only a first name, the full name is that name, with no trailing space. |
| Accounts.FullNameExample | tests/test_accounts.py:30-40 | John Doe's full name is "John Doe", as the test's expected label assumes. |
| Accounts.ShortName | accounts/models.py:63-65 | The short name is the first name when set, else the username. |
| Accounts.UserLabel | accounts/models.py:55-56 | The user label is the full name followed by " (email)". |
| Accounts.EmployeeLabel | accounts/models.py:146-147 | The employee label is "employee_id - full name (department)". |
| Accounts.EmployeeSave | accounts/models.py:149-154 | After saving, the user is marked as an employee and nothing else about the user changes. The user is written back exactly when the flag was off. |
| Accounts.EmployeeSaveIdempotent | accounts/models.py:149-154 | A second save changes nothing and does not write the user again. |
| Party.AddressParts | suppliers/models.py:189-212 | Every part is non-empty. There are no parts exactly when street, neighbourhood, city and postal code are all blank. |
| Party.FullAddress | suppliers/models.py:189-212 | The rendering is "" with no parts, starts with the first present part, is exactly that part when it is alone, and starts with the street line when a street is set. |
| Party.FullAddressEmpty | suppliers/models.py:189-212 | The full address is "" exactly when street, neighbourhood, city and postal code are blank. |
| Party.NumberNeedsStreet | suppliers/models.py:193-199 | Without a street, number and complement have no effect on the rendering. |
| Party.StateNeedsCity | suppliers/models.py:204-207 | Without a city, the state has no effect on the rendering. |
| Party.FullAddressComplete | suppliers/models.py:189-212 | A fully filled address renders as "street, n - c - neighbourhood - city/UF - CEP: x". |
| Party.DisplayName | suppliers/models.py:214-216 | The display name is the trade name when set, otherwise the legal name. |
| Party.CodeLabel | suppliers/models.py:184-186 | The label starts with the code, followed by " - " and the display name. |
| Suppliers.SupplierDisplayName | suppliers/models.py:214-216 | A supplier's display name is its trade name when set, else its name. |
| Suppliers.SupplierLabel | suppliers/models.py:184-186 | A supplier's label is its code, " - ", then its display name. |
| Suppliers.SupplierFullAddress | suppliers/models.py:189-212 | A supplier's address renders empty exactly when its four main parts are blank. |
| Inventory.CurrentStock | inventory/models.py:163-167 | Stock is 0 when no movement concerns the item. It is non-negative (or non-positive) when all the item's movements are. |
| Inventory.CurrentStockAppend | inventory/models.py:163-167 | The stock over two ledgers is the sum of the stocks over each. |
| Inventory.RecordMovement | inventory/models.py:163-167 | Recording a movement adds its signed quantity to its own item's stock and leaves every other item's stock unchanged. |
| Inventory.StockValue | inventory/models.py:170-172 | The stock value is the current stock priced per unit: for non-zero stock, value ÷ stock is the unit cost, and zero stock or zero cost gives 0. At unit cost 1 it is the stock itself; it is non-negative for non-negative stock and cost. |
| Inventory.MaterialStockValue | inventory/models.py:170-172 | A material's stock value divided by its non-zero stock is its unit cost; zero stock gives 0, and it is non-negative when stock and cost are. |
| Inventory.ProductStockValue | inventory/models.py:294-296 | A product's stock value divided by its non-zero stock is its unit cost; zero stock gives 0, and it is non-negative when stock and cost are. |
| Inventory.ProductStockSaleValue | inventory/models.py:299-301 | A product's sale value divided by its non-zero stock is its sale price; zero stock gives 0, and it is non-negative when stock and price are. |
| Inventory.SaleValueMargin | inventory/models.py:294-301 | Sale value minus cost value is the stock times the per-unit gap between sale price and cost. |
| Inventory.LowStockStaysLow | inventory/models.py:174-176 | A low-stock item stays low after any outgoing (non-positive) movement. The bound is inclusive. |
| Inventory.LowStockAfterMovement | inventory/models.py:174-176 | After a movement of the item, it is low exactly when old stock plus the signed quantity is at most the minimum; a movement of another item does not change whether it is low. With no movements it is low exactly for a non-negative minimum. The product's `is_low_stock` at 310-312 is the same test. |
| Inventory.ProfitMargin | inventory/models.py:304-308 | The margin is 0 for a non-positive cost. Otherwise cost × (1 + margin/100) equals the sale price, and the margin is positive exactly when the price exceeds the cost. |
| Inventory.Clean | inventory/models.py:422-436 | Rejects neither or both of material and product, each with its own message. An accepted movement keeps its absolute quantity: 'out' becomes ≤ 0, 'in' ≥ 0, and adjustment and transfer are untouched. |
| Inventory.CleanIdempotent | inventory/models.py:432-436 | Cleaning a cleaned movement changes nothing. |
| Inventory.Save | inventory/models.py:438-446 | Saving fails exactly when `clean` fails. A non-zero (truthy) total cost is never overwritten. A missing one becomes the absolute quantity times the unit cost, only when the unit cost is truthy. |
| Inventory.SavedMovementEffect | inventory/models.py:438-446 | A saved movement always concerns an item and changes that item's stock by its signed quantity. A saved 'out' movement never raises the stock; a saved 'in' movement never lowers it. |
| Inventory.Item | inventory/models.py:449-452 | The item is the material when set, else the product, and the movement concerns it. It is absent only when neither is set. |
| Inventory.ItemType | inventory/models.py:454-456 | The type is "material" exactly when a material is set, else "product". |
| Inventory.ItemTypeAgrees | inventory/models.py:449-456 | For a clean movement, `item_type` names the kind of `item`. |
| Production.ItemTotalCost | production/models.py:155-157 | An item's cost divided by its non-zero quantity is the material's unit cost; zero quantity or zero unit cost gives 0, and it is non-negative when both are. The same formula is `RecipeItemSerializer.get_total_cost`. |
| Production.ItemCostScales | production/models.py:155-157 | One unit costs the unit cost, and k times the quantity costs k times as much. |
| Production.TotalMaterialCost | production/models.py:93-99 | The recipe cost is 0 for no items, and non-negative when every item's cost is. |
| Production.TotalMaterialCostSnoc | production/models.py:93-99 | Adding an item at the end adds exactly its quantity × its material's unit cost. |
| Production.TotalMaterialCostCons | production/models.py:93-99 | Adding an item at the front adds exactly its quantity × its material's unit cost. |
| Production.TotalMaterialCostAppend | production/models.py:93-99 | Adding items to a recipe adds exactly their costs. |
| Production.CostPerUnit | production/models.py:101-105 | With a positive yield, cost per unit × yield equals the material cost. It is 0 for a non-positive yield. |
| Production.InstructionsList | production/models.py:108-112 | The steps are non-empty and stripped. Empty instructions give no steps. |
| Production.InstructionsAreNonBlankLines | production/models.py:108-112 | The guard for empty instructions gives the same steps as splitting, stripping and filtering the empty text, so the steps are always the stripped non-blank lines. |
| Production.InstructionsOneLine | production/models.py:108-112 | A text without line breaks gives its stripped text as the one step, or no step when it is blank. |
| Production.InstructionsLines | production/models.py:108-112 | Adding a line appends its stripped text when not blank and leaves the earlier steps as they are. With `InstructionsOneLine` the steps are exactly the stripped non-blank lines, in order. |
| Production.InstructionsRoundTrip | production/models.py:108-112 | Writing steps one per line and listing the instructions gives back the same steps. |
| Production.CompletionPercentage | production/models.py:283-287 | The percentage never exceeds 100 and is 0 without a positive plan. Below the plan it is produced/planned × 100; at or above the plan it is exactly 100. |
| Production.Multiplier | production/models.py:298-309 | The scale factor times the yield is the planned quantity. A zero yield raises a decimal division error. |
| Production.Need | production/models.py:298-309 | The need is item quantity × multiplier against the current stock. Its shortage is ≥ 0, and 0 exactly when the stock covers the need. |
| Production.MaterialsNeeded | production/models.py:298-309 | There is one line per recipe item, in order, and it fails only for a zero yield. Each line is that item's `Need`: its material, need × yield = item quantity × planned quantity, `available_stock` is the material's current stock, and the shortage is max(0, need − stock), so it is 0 exactly when the stock covers the need. |
| Production.CanStartProduction | production/models.py:311-316 | Fails only for a zero yield. Otherwise production can start exactly when, for every recipe item, item quantity × planned/yield is at most the material's current stock. |
| Production.NoShortageMeansCovered | production/models.py:303-316 | "No line has a shortage" is the same as "every line's stock covers its need" and as "every material's current stock covers its scaled item quantity". |
| Production.NeedCovered | production/models.py:311-316 | When production can start, each material's stock covers its scaled need. |
| Production.ReserveMovement | production/models.py:318-340 | The reservation movement for an item is what saving an 'out' movement of the scaled need produces. It concerns that material and takes away |need|. |
| Production.ReserveMaterials | production/models.py:318-340 | Reservation succeeds exactly when production can start, and otherwise raises "Insufficient materials to start production" and creates nothing. On success there is one saved 'out' movement per recipe item, in recipe order. |
| Production.ReservedStock | production/models.py:318-340 | The reservation movements take exactly |need| of each recipe material. |
| Production.ReservationEffect | production/models.py:318-340 | After reservation, each recipe material's stock is its old stock minus its |need|. With non-negative needs it stays ≥ 0. |
| Production.CompleteProduction | production/models.py:342-369 | Completion sets the produced quantity to the actual quantity (default: planned) and the status to completed. It keeps an existing end date, else sets it to now, and changes nothing else. It also yields the saved 'in' movement of the recipe's product at cost per unit. |
| Production.CompletionEffect | production/models.py:342-369 | Completion adds the produced quantity to the product's stock, and the completed order is never overdue. |
| Production.TotalPlannedCost | production/models.py:416-418 | The planned cost divided by a non-zero planned quantity is the unit cost; zero quantity gives 0, and it is non-negative for non-negative quantity and unit cost. |
| Production.TotalActualCost | production/models.py:421-423 | The actual cost divided by a non-zero consumed quantity is the unit cost; zero consumption gives 0, and it is non-negative for non-negative consumption and unit cost. |
| Production.OrderItemCosts | production/models.py:416-423 | One unit planned or consumed costs the unit cost. Consuming k times the plan costs k times the planned cost, consuming exactly the plan costs the planned cost, and a zero unit cost makes both 0. |
| Production.VarianceQuantity | production/models.py:426-428 | The variance is positive exactly when more was consumed than planned, and planned + variance = consumed. |
| Production.VarianceCost | production/models.py:431-433 | The cost variance is unit cost × quantity variance. At a positive unit cost it is positive exactly on over-consumption. |
| Sales.ItemSave | sales/models.py:548-557 | Only discount and total change. The discount is recomputed as qty × price × pct/100 only for a positive percentage, otherwise kept. Total + discount = gross. |
| Sales.ItemSaveIdempotent | sales/models.py:548-557 | Saving a saved line again changes nothing. |
| Sales.ItemTotalWithinGross | sales/models.py:548-557 | With a discount percentage in (0, 100], the total lies between 0 and the gross amount. |
| Sales.ItemSaveExample | tests/test_models.py:224-231 | Five units at 15.00 with no discount total 75.00. |
| Sales.PendingQuantity | sales/models.py:544-546 | The pending quantity is max(0, quantity − delivered). |
| Sales.SumTotalPrices | sales/models.py:415-418 | The subtotal of no items is 0, and it is non-negative when every line total is. |
| Sales.SumTotalPricesAppend | sales/models.py:415-418 | Adding lines adds exactly their totals to the subtotal. |
| Sales.CalculateTotals | sales/models.py:415-434 | The subtotal is the sum of line totals. Discount and tax are recomputed only for positive percentages, and tax is charged on the discounted net. Total = net + tax + shipping. No other field changes. |
| Sales.CalculateTotalsIdempotent | sales/models.py:415-434 | Recalculating recalculated totals changes nothing. |
| Sales.TotalClosedForm | sales/models.py:420-432 | With both percentages set, total = subtotal × (1 − d/100) × (1 + t/100) + shipping. |
| Sales.SaveLineThenTotals | sales/models.py:548-557 | After a line is saved and totals re-run, the subtotal is the other lines plus the line's gross less its discount. |
| Sales.PendingAmount | sales/models.py:394-396 | The pending amount is max(0, total − paid). |
| Sales.FinishedNeverOverdue | sales/models.py:399-404 | Delivered, paid and cancelled orders are never overdue, whatever the date. |
| Sales.CanBeProduced | sales/models.py:436-441 | True exactly when every item's product stock covers its quantity. It is vacuously true with no items. |
| Sales.CurrentDebt | sales/models.py:221-228 | The debt is 0 when no order is confirmed or partially paid, and non-negative when those totals are. |
| Sales.CurrentDebtAppend | sales/models.py:221-228 | A new order adds its total to the debt exactly when it is confirmed or partially paid. |
| Sales.AvailableCredit | sales/models.py:230-234 | Available credit is 0 without a limit or with a zero limit, else max(0, limit − debt). It is never negative. |
| Sales.FreshCustomerHasFullCredit | tests/test_models.py:192-195 | A customer with a positive limit and no orders has the whole limit available. |
| Sales.NewOrderNeverRaisesCredit | sales/models.py:221-234 | Adding an order with a non-negative total never raises the available credit. |
| Sales.CustomerLabel | sales/models.py:190-193 | A customer's label is its code, " - ", then its display name. |
| Sales.CustomerFullAddress | sales/models.py:195-218 | A customer's address renders empty exactly when its four main parts are blank, as for suppliers. |
| Financial.Balance | financial/models.py:148-150 | The balance is max(0, original − paid). It ignores interest, fine and discount and is never negative. |
| Financial.TotalAmount | financial/models.py:152-155 | Total − original = interest + fine − discount. Its partners `TotalAmountAdjustments` and `PlainAccountTotal` state how each adjustment moves it. |
| Financial.TotalAmountAdjustments | financial/models.py:148-155 | Raising interest or fine by x raises the total by x, and raising the discount by x lowers it by x. The balance does not move in any of the three cases. |
| Financial.PlainAccountTotal | financial/models.py:148-155 | Without interest, fine or discount, the total is the original amount and the balance is the total less what was paid. |
| Financial.OverdueWindow | financial/models.py:157-161 | An account is never overdue on or before its due date, nor when its status is other than pending or partially paid (a stored 'overdue' status included). Once overdue it stays overdue on later days; an open account is overdue exactly after its due date. |
| Financial.SettlingPaymentEndsOverdue | financial/models.py:157-207 | With the corrected payment, a successful payment that reaches the total leaves the account not overdue on any day. |
| Financial.DaysOverdue | financial/models.py:163-167 | The count is positive exactly when the account is open and past due. It is then today − due date, and otherwise 0. |
| Financial.MakePayment | financial/models.py:169-207 | As written: non-positive amounts and overpayment are refused with their messages. Every payment that passes both guards raises a `TypeError` at the payment-row insert, because the payment models have no `created_by` field. |
| Financial.PaymentNeverSucceeds | financial/models.py:169-188 | As written, no payment succeeds. The `TypeError` arises for exactly the payments the corrected method accepts, and every other refusal is the same as the corrected method's. |
| Financial.MakePaymentCorrected | financial/models.py:169-207 | Without the `created_by` keyword: refuses non-positive amounts and overpayment with their messages. On success paid grows by exactly the amount and never exceeds the total. Status becomes paid (with a payment date) exactly when paid reaches the total, otherwise partially paid. The method is overwritten; the reference only if given. The payment row carries amount, date, method and reference. |
| Financial.PayInFull | financial/models.py:169-207 | With the corrected payment, paying the remaining amount settles the account, dated today. |
| Financial.PayAll | financial/models.py:169-207 | With the corrected payment, a run of successful payments never changes the total or exceeds it. |
| Financial.PayAllAccumulates | financial/models.py:169-207 | With the corrected payment, after a run of successful payments paid grows by exactly their sum. |
| Financial.CalculateGrossSalary | financial/models.py:700-711 | The gross salary is base + overtime + bonus + commission + other earnings, each unset one counting 0. It is stored in the payroll, which changes in no other field, and returned. Its partners are `GrossSalaryPerEarning` and `GrossSalaryIgnoresDeductions`. |
| Financial.GrossSalaryPerEarning | financial/models.py:700-711 | Setting any one of the five earnings to x adds exactly x to the gross salary compared with leaving it unset; with x = 0 an unset earning weighs the same as 0. |
| Financial.GrossSalaryIgnoresDeductions | financial/models.py:700-711 | Payrolls with the same earnings have the same gross salary whatever their deductions, and with no earnings set it is 0. |
| Financial.CalculateDeductions | financial/models.py:713-727 | The total deductions are the eight deductions summed, each unset one counting 0. They are stored in the payroll, which changes in no other field, and returned. Its partners are `DeductionsPerItem` and `DeductionsIgnoreEarnings`. |
| Financial.DeductionsPerItem | financial/models.py:713-727 | Setting any one of the eight deductions to x adds exactly x to the total deductions compared with leaving it unset. |
| Financial.DeductionsIgnoreEarnings | financial/models.py:713-727 | Payrolls with the same deductions have the same total deductions whatever their earnings, and with none set it is 0. |
| Financial.CalculateNetSalary | financial/models.py:729-734 | Net = recomputed gross − recomputed deductions. Exactly those three fields change. |
| Financial.NetSalaryMoves | financial/models.py:700-734 | A bonus of x raises the net salary by x, and union dues of x lower it by x. |
| Financial.NetSalaryTreatsNoneAsZero | financial/models.py:700-734 | An unset amount and an explicit 0 give the same net salary. |
| Financial.NetSalaryIdempotent | financial/models.py:729-734 | Recomputing the net salary of a computed payroll changes nothing. |
| Financial.CalculateOvertime | financial/models.py:736-747 | Without a truthy rate, the rate defaults to base/220 (a missing base salary raises). Overtime becomes hours × rate × multiplier only for positive hours and a truthy rate, otherwise it is kept. |
| Financial.DefaultOvertime | financial/models.py:736-747 | With the default rate and multiplier, overtime × 220 = hours × base × 1.5. |
| CoreForms.CleanQuery | core/forms.py:112-116 | Returns the stripped query. Rejects it exactly when it is non-empty and shorter than 2 characters. The same rule appears at sales/forms.py:578-582 and 638-642 and at suppliers/forms.py:234-238. |
| CoreForms.CleanQueryIdempotent | core/forms.py:112-116 | A cleaned query cleans to itself. |
| CoreForms.DateRangeClean | core/forms.py:137-149 | Rejects start > end and end > today, each with its own message. Both checks apply only when both dates are given. |
| CoreForms.FilterStatusChoices | core/forms.py:169-175 | The choices are ('', 'Todos') followed by the given ones, or the default list when none are given. |
| CoreForms.BulkActionChoices | core/forms.py:213-219 | Given choices replace the defaults; otherwise the defaults stay. |
| Text.SplitSnoc | core/forms.py:228 | `str.split` of a string, a separator and a separator-free tail gives the string's own pieces followed by the tail. |
| Text.NonBlankSnoc | core/forms.py:228 | Adding one more piece to the list comprehension's input appends that piece's stripped text when it is not blank and nothing otherwise; the results for earlier pieces keep their text and their order. |
| Text.SplitNonBlankSnoc | core/forms.py:228 | Splitting, stripping and filtering a string without the separator gives its stripped text unless it is blank. One more separated piece appends its stripped text unless it is blank. |
| CoreForms.ParseIds | core/forms.py:221-233 | The parsed ids are non-empty and stripped. |
| CoreForms.ParseIdsOnePiece | core/forms.py:228 | A field without commas gives its stripped text as the one id, or no id when it is blank. |
| CoreForms.ParseIdsPieces | core/forms.py:228 | Adding a comma-separated piece appends its stripped text when not blank and leaves the earlier ids as they are. With `ParseIdsOnePiece` the ids are exactly the stripped non-blank pieces, in order. |
| CoreForms.ParseIdsDropsBlank | core/forms.py:228 | Two ids around a blank piece, as in "1, ,2", parse to exactly those two ids, in order. |
| CoreForms.SelectedIds | core/forms.py:221-233 | Empty input is rejected with the "select at least one" message, and input with no ids left with the "invalid" message. Otherwise the result is `ParseIds` of the input: the stripped non-blank pieces, in order (see `ParseIdsPieces`). |
| CoreForms.CleanSelectedItems | core/forms.py:221-233 | As `SelectedIds` for `selected_items`, with the bulk-action messages. |
| CoreForms.SelectedIdsRoundTrip | core/forms.py:221-233 | Joining clean ids with ',' and cleaning them gives back the same ids. |
| CoreForms.OnlySeparatorsAreInvalid | core/forms.py:221-233 | " , " is rejected as invalid, not as empty. |
| CoreForms.Extension | core/forms.py:263 | The extension always starts with '.'. |
| CoreForms.ExtensionAfterLastDot | core/forms.py:263 | The extension is '.' followed by the lower-cased text after the last dot, whatever comes before it. A name without a dot is its own extension. |
| CoreForms.CleanFile | core/forms.py:254-269 | A missing file passes. Otherwise the file passes exactly when it is at most 5 MiB and its last-dot extension, lower-cased, is .csv, .xlsx or .xls. Size is checked first, and each failure has its message. suppliers/forms.py:308-323 is identical. |
| CoreForms.CleanFileByLastExtension | core/forms.py:254-269 | Within the size limit, a named upload passes exactly when the lower-cased text after its last dot is csv, xlsx or xls. |
| CoreForms.CsvAccepted | core/forms.py:254-269 | Any small "x.csv" upload is accepted unchanged. |
| CoreForms.DotlessNameTakenAsExtension | core/forms.py:263-264 | A file named "csv", with no dot, passes, because the whole name is taken as the extension. |
| InventoryForms.WalkUpSound | inventory/forms.py:56-62 | The parent walk reports a cycle only when the category is reached along the chosen parent's chain of parents. It reports the end of the chain only when the category is never reached. |
| InventoryForms.CategoryClean | inventory/forms.py:48-64 | Rejects a category as its own parent with its message, and accepts an empty parent. Any other rejection is the circular-reference error, and then the category is among the parent's ancestors; an accepted parent never has the category among its ancestors. |
| InventoryForms.TwoCycleRejected | inventory/forms.py:56-62 | Choosing one's own child as parent is rejected. |
| InventoryForms.RootParentAccepted | inventory/forms.py:48-64 | A parent that has no parent of its own is accepted. |
| InventoryForms.ParentChoices | inventory/forms.py:38-46 | The offered parents are exactly the known categories other than the category itself and its direct children. |
| InventoryForms.OfferedParentNotSelf | inventory/forms.py:38-64 | No offered parent triggers the self-parent error. |
| InventoryForms.StockLevelsClean | inventory/forms.py:137-149 | Rejects minimum ≥ maximum, only when both are truthy. ProductForm at inventory/forms.py:220-232 is identical. |
| InventoryForms.ZeroMinimumSkipsCheck | inventory/forms.py:143-147 | A zero minimum is never checked against the maximum. |
| InventoryForms.StockMovementFormClean | inventory/forms.py:283-311 | Requires exactly one of material and product, each failure with its own message. The stock check runs only for type 'exit' with a truthy quantity above the current stock. |
| InventoryForms.StockCheckNeverFires | inventory/forms.py:298-309 | As written, no real movement type (in, out, adjustment, transfer) ever reaches the stock check. |
| InventoryForms.StockMovementFormCleanCorrected | inventory/forms.py:283-311 | With the check keyed on 'out', an outgoing quantity above the current stock is rejected. |
| InventoryForms.CorrectedOutKeepsStock | inventory/forms.py:298-309 | A positive 'out' quantity that passes the corrected form keeps its material's stock ≥ 0 once saved. |
| InventoryForms.StockAdjustmentClean | inventory/forms.py:477-491 | Only a 'decrease' with a material is checked, against the current stock. A missing quantity makes the comparison raise TypeError. |
| InventoryForms.InventoryReportClean | inventory/forms.py:539-548 | Rejects end < start; equal or missing dates pass. |
| InventoryForms.MaterialTransferClean | inventory/forms.py:593-602 | Rejects two non-empty locations that are equal ignoring case. |
| InventoryForms.MaterialTransferProperties | inventory/forms.py:593-602 | The check is symmetric, and rejects a location paired with itself or with its upper-case form. |
| ProductionForms.ProductionOrderClean | production/forms.py:166-184 | Rejects start > end on `planned_end_date`. Rejects a past start only when the instance has no pk. Missing dates pass. |
| ProductionForms.NewOrderPastStartAccepted | production/forms.py:178-182 | As written, a new order's past start is accepted, because its UUID pk is already set. |
| ProductionForms.ProductionOrderCleanCorrected | production/forms.py:166-184 | Keyed on "being added", a new order's past start is rejected. |
| ProductionForms.CorrectedRejectsPastStart | production/forms.py:178-182 | The corrected form rejects a new order starting in the past and still accepts an existing one. |
| ProductionForms.ProductionReportClean | production/forms.py:403-412 | Rejects end < start; equal dates pass. |
| ProductionForms.BulkProductionOrderErrors | production/forms.py:424-471 | As written: there are no errors exactly when quantity is at least the float 0.001 (so strictly above the decimal 0.001), orders are in 1..50, interval is in 1..168 and the start is not in the past. The quantity error appears exactly below the float bound, and the past-start error exactly for a past start. |
| ProductionForms.SmallestQuantityRejected | production/forms.py:424-432 | As written, 0.001 itself is refused. Among quantities with three decimal places, the form accepts exactly those from 0.002 up. |
| ProductionForms.BulkProductionOrderErrorsCorrected | production/forms.py:424-471 | With the bound read as the decimal 0.001, quantity ≥ 0.001 passes; the other fields are checked as before. |
| ProductionForms.CorrectedAcceptsMinimumQuantity | production/forms.py:424-432 | The corrected form accepts 0.001 and exactly the thousandths from 0.001 up. It differs from the form as written only for quantities from the decimal 0.001 up to the float 0.001. |
| ProductionForms.RecipeComparisonClean | production/forms.py:492-501 | Rejects comparing a recipe with itself. |
| SalesForms.CustomerCleanCnpjCpf | sales/forms.py:89-103 | Empty input gives None. Otherwise the result is the digits only, which must number 11 for an individual and 14 for a company. Other types are unchecked. |
| SalesForms.CustomerCleanCnpjCpfIdempotent | sales/forms.py:89-103 | A cleaned document cleans to itself. |
| SalesForms.SalesOrderClean | sales/forms.py:180-190 | Rejects a delivery date before today; today passes. |
| SalesForms.SalesDateRangeClean | sales/forms.py:451-460 | Rejects end < start; equal dates pass. SalesOrderSearchForm at sales/forms.py:644-653 is identical. |
| SalesForms.CleanSelectedOrders | sales/forms.py:521-533 | Empty input is rejected with the empty message, and input with no ids left with the invalid message. Otherwise the result is `ParseIds` of the input: the stripped non-blank pieces, in order (see `CoreForms.ParseIdsPieces`). |
| SalesForms.SelectedOrdersRoundTrip | sales/forms.py:521-533 | Joining clean order ids with ',' and cleaning them gives back the same ids. |
| SalesForms.CleanState | sales/forms.py:584-588 | The state is stripped and upper-cased. It is accepted exactly when empty or 2 characters long. |
| SalesForms.CleanStateIdempotent | sales/forms.py:584-588 | A cleaned state cleans to itself. |
| SupplierForms.SupplierCleanCnpjCpf | suppliers/forms.py:116-133 | The stripped input is kept with its formatting. Its digits must number 14 for a company and 11 for an individual; blank input and other types pass. |
| SupplierForms.CleanPostalCode | suppliers/forms.py:143-152 | Blank gives "". Otherwise the input is accepted exactly with 8 digits and returned as "DDDDD-DDD" with the same digits. |
| SupplierForms.FormatCepDigits | suppliers/forms.py:150-151 | Formatting a CEP keeps its digits. |
| SupplierForms.CleanPostalCodeIdempotent | suppliers/forms.py:143-152 | A formatted CEP cleans to itself. |
| SupplierForms.CleanPhoneField | suppliers/forms.py:154-161 | A phone is accepted exactly when blank or with 10–11 digits, and is returned stripped. |
| SupplierForms.CleanPhone | suppliers/forms.py:154-161 | `phone`: the 10–11 digit rule with its message. |
| SupplierForms.CleanMobile | suppliers/forms.py:163-170 | `mobile`: the 10–11 digit rule with its message. |
| SupplierForms.CleanContactPhone | suppliers/forms.py:172-179 | `contact_phone`: the 10–11 digit rule with its message. |
| SupplierForms.CleanContactFormPhone | suppliers/forms.py:361-368 | The contact form's phone: the same rule with its own message. |
| SupplierForms.CleanPhoneFieldIdempotent | suppliers/forms.py:154-161 | A cleaned phone cleans to itself. |
| SupplierForms.CleanCreditLimit | suppliers/forms.py:181-185 | Rejects negatives and accepts None and 0. |
| FinancialForms.ReceivableClean | financial/forms.py:69-80 | Rejects due < issue on `due_date`. |
| FinancialForms.PayableClean | financial/forms.py:134-145 | Rejects due < invoice on `due_date`. |
| FinancialForms.FinancialReportClean | financial/forms.py:258-269 | Rejects end < start on `end_date`. |
| FinancialForms.FinancialFormsLenient | financial/forms.py:69-80 | In all three forms, equal dates pass and a missing date skips the check. |
| Serializers.ValidatePositive | api/serializers.py:110-114 | Accepts exactly positive values with the field's message. The same check covers sale price (137-141), recipe-item and order quantity (171-175, 224-228, 274-278, 338-342), yield (246-250), unit price (344-348), original amounts (412-416, 444-448) and base salary (479-483). |
| Serializers.PositiveFieldNamesDistinct | api/serializers.py:110-114 | Each positive check reports under its own field. |
| Serializers.ValidateNonNegative | api/serializers.py:116-120 | Accepts exactly non-negative minimum stock. The overtime-hours check at 485-489 is the same. |
| Serializers.PositiveVersusNonNegative | api/serializers.py:110-120 | The two checks differ exactly at 0. |
| Serializers.ValidateTruthyNonNegative | api/serializers.py:195-199 | `value and value < 0`: None and non-negatives pass. |
| Serializers.SupplierValidateCreditLimit | api/serializers.py:195-199 | The supplier credit limit rejects only negatives. |
| Serializers.PayableValidatePaidAmount | api/serializers.py:418-422 | The paid amount rejects only negatives. |
| Serializers.SupplierCreditLimitAgreesWithForm | api/serializers.py:195-199 | The serializer and the supplier form accept the same credit limits. |
| Serializers.CustomerValidateCreditLimit | api/serializers.py:313-317 | As written: a null limit raises TypeError. Otherwise only negatives are rejected. |
| Serializers.NullCustomerCreditLimitRaises | api/serializers.py:313-317 | A null customer limit raises, where the supplier's passes. |
| Serializers.CustomerValidateCreditLimitCorrected | api/serializers.py:313-317 | With a null guard, None passes and only negatives are rejected. |
| Serializers.CorrectedCustomerCreditLimitAgrees | api/serializers.py:313-317 | The corrected check equals the supplier's, and equals the original on every non-null value. |
| Serializers.ValidateDiscountPercentage | api/serializers.py:372-376 | Accepts exactly [0, 100], both ends inclusive. |
| Serializers.SalesOrderValidate | api/serializers.py:378-386 | Rejects order date > delivery date when both are given. |
| Serializers.ValidateReferenceMonth | api/serializers.py:491-498 | Accepts exactly dates on day 1. |
| Serializers.StockMovementValidate | api/serializers.py:158-169 | Requires exactly one of material and product, each failure with its message. |
| Serializers.StockMovementValidateAgreesWithClean | api/serializers.py:158-169 | The serializer accepts exactly the movements `StockMovement.clean` accepts. |
| Serializers.ProductionOrderFields | api/serializers.py:260-267 | The serializer's fields include the planned dates but not `start_date`/`end_date`. |
| Serializers.ProductionOrderValidate | api/serializers.py:280-288 | As written: rejects only when `start_date` > `end_date`, keys the serializer never produces. |
| Serializers.ProductionOrderValidateNeverFails | api/serializers.py:280-288 | On any data the serializer can produce, validation passes. |
| Serializers.ProductionOrderValidateCorrected | api/serializers.py:280-288 | Reading the planned dates, validation rejects a start after the end. |
| Serializers.CorrectedProductionOrderValidate | api/serializers.py:280-288 | The corrected check rejects reversed planned dates on data the serializer does produce. |
| ApiErrors.ErrorCode | api/exceptions.py:54-70 | Listed statuses get their own code, and every other status gets 'unknown_error'. |
| ApiErrors.StatusOfCode | api/exceptions.py:54-70 | The inverse lookup returns only listed statuses. |
| ApiErrors.ErrorCodeRoundTrip | api/exceptions.py:54-70 | Each listed status is recovered from its code. |
| ApiErrors.StatusOfCodeRoundTrip | api/exceptions.py:54-70 | Each recognised code is the code of the status it names. |
| ApiErrors.ErrorCodeInjective | api/exceptions.py:54-70 | Distinct listed statuses have distinct codes. |
| ApiErrors.ErrorCodeExamples | api/exceptions.py:54-70 | 400, 404 and 503 give their codes; 418 and 501 give 'unknown_error'. |
| ApiErrors.ErrorMessage | api/exceptions.py:73-101 | Each of 400, 401, 403, 404, 405, 409, 422 and 429 has its own fixed Portuguese text, and every status from 500 up gets the generic server-error text. Any other status takes the dict's 'detail', then 'message', else "Erro desconhecido". |
| ApiErrors.FixedMessagesDistinct | api/exceptions.py:73-101 | Two different fixed statuses never share a text, and none of them uses the server-error text. |
| ApiErrors.FixedMessagesIgnoreBody | api/exceptions.py:75-92 | For fixed-message statuses the response body does not matter. |
| ApiErrors.NotAcceptableUsesDetail | api/exceptions.py:93-101 | A 406 uses the body's detail, and a list body gets "Erro desconhecido". |
| ApiErrors.FormatErrorDetails | api/exceptions.py:104-115 | A dict loses exactly 'detail' and 'message', keeping every other entry. A list becomes {'errors': list}; anything else becomes {'raw': str}. |
| ApiErrors.FormatErrorDetailsIdempotent | api/exceptions.py:104-115 | Formatting formatted details changes nothing. |
| ApiErrors.FormatErrorDetailsLosesOnlyTwoKeys | api/exceptions.py:104-115 | Every other key of an error dict reaches the response unchanged. |
| ApiErrors.Envelope | api/exceptions.py:41-47 | The body is {'error': …} with exactly code, message and details, each from its own function. |
| ApiErrors.ValidationEnvelope | api/exceptions.py:41-47 | A 400 with field errors carries 'validation_error' and the field errors unchanged. |
| CoffeeTags.PercentageOf | core/templatetags/coffee_tags.py:95-100 | Never above 100, and 0 for a non-positive total. Otherwise it is value/total × 100 below the total, and exactly 100 at or above it. |
| CoffeeTags.PercentageOfMonotone | core/templatetags/coffee_tags.py:95-100 | A larger value never gives a smaller percentage. |
| CoffeeTags.DefaultIfNoneOrZero | core/templatetags/coffee_tags.py:103-108 | The default replaces exactly None and 0. |
| CoffeeTags.DefaultIfNoneOrZeroIdempotent | core/templatetags/coffee_tags.py:103-108 | Applying the filter twice equals applying it once. |
| CoffeeTags.Hue | core/templatetags/coffee_tags.py:132-144 | Unknown statuses get the pending palette (yellow). |
| CoffeeTags.ColorByStatus | core/templatetags/coffee_tags.py:132-144 | Each known type yields a class with its prefix (text-, bg-, border-), and unknown types yield "". |
| CoffeeTags.UnknownStatusIsPending | core/templatetags/coffee_tags.py:132-144 | Every unknown status renders as 'pending'. |
| CoffeeTags.ColorExamples | core/templatetags/coffee_tags.py:132-144 | The active, cancelled and in-progress classes, and '' for an unknown type. |
| CoffeeTags.PlainAmount | core/templatetags/coffee_tags.py:156 | `{:,.2f}` on cents has a '.' three from the end and a leading '-' exactly for negatives. |
| CoffeeTags.GroupSeparators | core/templatetags/coffee_tags.py:156 | Thousands grouping puts the separator at every fourth place from the right and nowhere else, adding one separator per full group above the first. |
| CoffeeTags.UnsignedAmountLayout | core/templatetags/coffee_tags.py:156 | Left of the decimal point, a ',' sits exactly at every fourth place counting leftwards from the '.', and every other character is a digit. |
| CoffeeTags.PlainAmountParses | core/templatetags/coffee_tags.py:156 | Reading the digits and sign back from the rendering gives the cents. |
| CoffeeTags.ReplaceThroughX | core/templatetags/coffee_tags.py:154 | The three replaces through 'X' swap ',' and '.'. |
| CoffeeTags.FormatCurrency | core/templatetags/coffee_tags.py:147-156 | None gives "R$ 0,00". BRL gives "R$ " and the swapped rendering; other currencies the plain one. |
| CoffeeTags.FormatCurrencyRoundTrip | core/templatetags/coffee_tags.py:147-156 | Every rendered amount reads back as the cents it came from, in both styles. |
| CoffeeTags.BrlDecimalComma | core/templatetags/coffee_tags.py:154 | BRL amounts have a decimal comma three from the end. |
| CoffeeTags.PlainAmountExample | core/templatetags/coffee_tags.py:156 | 1234.56 renders as "1,234.56". |
| CoffeeTags.SwapExample | core/templatetags/coffee_tags.py:154 | "1,234.56" swaps to "1.234,56". |
| CoffeeTags.FormatCurrencyExamples | core/templatetags/coffee_tags.py:147-156 | "R$ 1.234,56", "1,234.56", and "R$ 0,00" for None. |

## Left out

- Views, URL configuration, admin, settings and the seeding scripts: HTTP and ORM plumbing, with no business rule of their own.
- `Payroll.auto_calculate_taxes` and `process_payroll`: floating-point tax brackets mixed with `Decimal`.
- Template tags `progress_bar`, `to_json`, `safe_url`, `breadcrumb_item`, `dynamic_chart` and `system_config`: float conversion, JSON and URL wrappers, or cache lookups.
- Database uniqueness checks of suppliers and accounts (`clean_code`, `clean_email`, the CNPJ duplicate query) and all of accounts/forms.py: they query the database or call Django's authentication.
- Caching (core/system_config.py) and the context processors: per-request database queries.
- `SalesOrder.create_production_orders`: ORM writes only.
- `Customer.current_debt`'s query is replaced by the customer's list of orders.
- Declarative Django field validators (`max_digits`, `decimal_places`, `MinValueValidator`, `max_length`) and Decimal quantisation: amounts are exact reals. `format_currency` takes integer cents, so its 2-place rounding of arbitrary decimals is not modelled.
- `BulkProductionOrderErrors`: the field bounds are Django's declarative `min_value`/`max_value` validators, reported under the validator's code rather than its rendered message text. The `decimal_places=3` limit on the quantity is not modelled, so quantities with more places are checked only against the bound.
- Python string semantics are ASCII-only:
  - `str.strip` whitespace is ASCII plus the few Latin-1 separators;
  - `upper`/`lower` fold only ASCII letters;
  - `\d` and `isdigit` accept only '0'–'9'.
- `str()` of arbitrary API error bodies is a parameter `show`. JSON objects are maps, so key order is not modelled.
- `SalesOrderItem.save` calls `order.calculate_totals()` and saves the order. The model keeps the two steps separate and connects them in `Sales.SaveLineThenTotals`.
- The `ProductionOrderSerializer` has no `quantity` field (api/serializers.py:260-267), so its `validate_quantity` and `get_total_cost` are never invoked. Only the shared positive check is modelled.
- `SalesOrderSerializer.validate`: `order_date` is `auto_now_add` and read-only, so in practice it never reaches the serializer's data. The model takes both dates as optional inputs. The comparison of a datetime with a date is not modelled.
- `ProductionOrder.is_overdue` and `SalesOrder.is_overdue` are stated as predicates, so their meaning appears in `Sales.FinishedNeverOverdue` and `Production.CompletionEffect` rather than in their own contracts.
- `InventoryForms.CategoryClean`: the parent walk runs for new and existing categories alike, since every category has its UUID key from construction on. When the stored parent chain already contains a cycle that does not pass through the edited category, the Python loop never ends. The model reports that case as a third verdict instead of diverging.
- `Inventory.StockValue`: the value is characterised per unit of the current stock, and `Inventory.RecordMovement` states how a movement changes that stock. A single lemma giving the value after a movement as the old value plus quantity × cost is not stated.
- Saving to the database, `update_fields`, timestamps (`created_at`, `updated_at`) and `payment_date` clocks: each "now" is a parameter.
- `Financial.MakePaymentCorrected` records the payment row as a returned `Payment` value instead of an ORM insert. The insert in the source fails (see Findings), so the row carries only the columns the payment models have. The exact `TypeError` text of Django's model constructor differs between Django versions and between the receivable and payable classes. The model uses one fixed text.
- `PayInFull`, `PayAll`, `PayAllAccumulates` and `SettlingPaymentEndsOverdue` are stated about `Financial.MakePaymentCorrected`. As written no payment succeeds (`Financial.PaymentNeverSucceeds`), so in the source these runs end at the first `TypeError`.

## Findings

| source | as written | input that shows it | evidently intended | confidence | as-written member | corrected member |
|---|---|---|---|---|---|---|
| inventory/forms.py:298-309 | The stock check runs only when `movement_type == 'exit'`, but the movement types are 'in', 'out', 'adjustment' and 'transfer' (inventory/models.py:318-323). | An 'out' movement of 10 units of a material with 2 in stock passes the form. | The check is keyed on 'out', so outgoing quantities above the current stock are rejected. | not executed | InventoryForms.StockCheckNeverFires | InventoryForms.CorrectedOutKeepsStock |
| api/serializers.py:280-288 | `validate` compares `data['start_date']` with `data['end_date']`, but the serializer's fields are `planned_start_date`/`planned_end_date` (260-267). | planned_start_date = day 10, planned_end_date = day 5 is accepted. | Compare the planned dates and reject a start after the end. | not executed | Serializers.ProductionOrderValidateNeverFails | Serializers.CorrectedProductionOrderValidate |
| api/serializers.py:313-317 | `validate_credit_limit` evaluates `value < 0` even when the nullable limit is None. | `credit_limit: null` raises TypeError instead of being accepted. | Accept None, as the supplier serializer does (195-199). | not executed | Serializers.NullCustomerCreditLimitRaises | Serializers.CorrectedCustomerCreditLimitAgrees |
| core/models.py:80-87 | `created_by` is set only when `not self.pk`, but the UUID primary key has a default, so every instance already has a pk. | `save(user=u)` on a newly constructed audited record leaves `created_by` empty. | Set the creator when the record is being added (`self._state.adding`). | not executed | CoreModels.NewRecordNeverGetsCreator | CoreModels.CorrectedCreatorIsFirstSaver |
| production/forms.py:178-182 | The past-start check runs only when `not self.instance.pk`, which is never true for a UUID-keyed order. | A new order planned to start yesterday is accepted. | Apply the check to orders being added. | not executed | ProductionForms.NewOrderPastStartAccepted | ProductionForms.CorrectedRejectsPastStart |
| financial/models.py:181-188 | `make_payment` creates the payment row with `created_by=self.updated_by`, but `AccountsReceivablePayment` (209-247) and `AccountsPayablePayment` (459-497) are plain `BaseModel`s with no `created_by` field. The payable version at 431-438 does the same. | Paying 10.00 on an account with total 100.00 and nothing paid raises TypeError; paid amount and status stay unchanged. | Create the row without `created_by`, or give the payment models audit fields, so that the payment is recorded and the account updated. | not executed | Financial.PaymentNeverSucceeds | Financial.PayInFull |
| production/forms.py:424-432 | `quantity_per_order` declares `min_value=0.001` as a Python float, and the validator compares the `Decimal` value against it exactly. The float lies just above 1/1000. | quantity_per_order = 0.001, the value the widget's `min` attribute advertises, is rejected. | Accept 0.001, for example with `min_value=Decimal('0.001')`. | not executed | ProductionForms.SmallestQuantityRejected | ProductionForms.CorrectedAcceptsMinimumQuantity |

=== FILE: accounts.dfy ===
/** Name rendering of `User` and the employee flag kept by `Employee.save`
    (accounts/models.py). */
module Accounts {
  import opened Text

  datatype User = User(
    username: string,
    email: string,
    firstName: string,
    lastName: string,
    isEmployee: bool)

  datatype Employee = Employee(
    employeeId: string,
    user: User,
    department: string)

  /** `get_full_name`: "first last" with surrounding whitespace removed, or
      the username when that leaves nothing. */
  function FullName(u: User): (r: string)
    ensures r == u.username || (r != "" && IsStripped(r))
    ensures r != u.username ==> Strip(u.firstName + " " + u.lastName) == r
  {
    var full := u.firstName + " " + u.lastName;
    StripSpec(full);
    if Strip(full) != "" then Strip(full) else u.username
  }

  /** A first and last name without surrounding blanks render as "first last". */
  lemma FullNameBoth(u: User)
    requires u.firstName != "" && IsStripped(u.firstName)
    requires u.lastName != "" && IsStripped(u.lastName)
    ensures FullName(u) == u.firstName + " " + u.lastName
  {
    var full := u.firstName + " " + u.lastName;
    assert full[0] == u.firstName[0];
    assert full[|full| - 1] == u.lastName[|u.lastName| - 1];
    StripStripped(full);
  }

  /** A blank name (only whitespace, or nothing) falls back to the username. */
  lemma FullNameFallback(u: User)
    requires AllSpace(u.firstName) && AllSpace(u.lastName)
    ensures FullName(u) == u.username
  {
    assert AllSpace(" ");
    AllSpaceAppend(u.firstName, " ");
    AllSpaceAppend(u.firstName + " ", u.lastName);
    StripEmpty(u.firstName + " " + u.lastName);
  }

  /** Only the first name given: the full name is the first name, with no
      trailing space left over. */
  lemma FullNameFirstOnly(u: User)
    requires u.firstName != "" && IsStripped(u.firstName) && u.lastName == ""
    ensures FullName(u) == u.firstName
  {
    var full := u.firstName + " " + u.lastName;
    assert full == u.firstName + " ";
    assert TrimStart(full) == full;
    assert full[..|full| - 1] == u.firstName;
    assert TrimEnd(full) == TrimEnd(u.firstName);
    TrimEndNoop(u.firstName);
  }

  /** `get_short_name`: the first name, or the username when it is empty. */
  function ShortName(u: User): (r: string)
    ensures u.firstName != "" ==> r == u.firstName
    ensures u.firstName == "" ==> r == u.username
  {
    if u.firstName != "" then u.firstName else u.username
  }

  /** `User.__str__`: "full name (email)". */
  function UserLabel(u: User): (r: string)
    ensures |r| == |FullName(u)| + |u.email| + 3
    ensures r[..|FullName(u)|] == FullName(u)
    ensures r[|FullName(u)|..] == " (" + u.email + ")"
  {
    var name := FullName(u);
    var tail := " (" + u.email + ")";
    assert (name + tail)[..|name|] == name;
    assert (name + tail)[|name|..] == tail;
    name + tail
  }

  /** `Employee.__str__`: "employee id - full name (department)". */
  function EmployeeLabel(e: Employee): (r: string)
    ensures |r| > |e.employeeId| && r[..|e.employeeId|] == e.employeeId
    ensures r[|e.employeeId|..] == " - " + FullName(e.user) + " (" + e.department + ")"
  {
    var tail := " - " + FullName(e.user) + " (" + e.department + ")";
    assert (e.employeeId + tail)[..|e.employeeId|] == e.employeeId;
    assert (e.employeeId + tail)[|e.employeeId|..] == tail;
    e.employeeId + tail
  }

  /** `Employee.save`: the linked user ends up flagged as an employee; the
      second component says whether the user record had to be written. */
  function EmployeeSave(e: Employee): (r: (Employee, bool))
    ensures r.0.user.isEmployee
    ensures r.0.user == e.user.(isEmployee := true)
    ensures r.0.employeeId == e.employeeId && r.0.department == e.department
    ensures r.1 <==> !e.user.isEmployee
  {
    if !e.user.isEmployee then (e.(user := e.user.(isEmployee := true)), true)
    else (e, false)
  }

  /** Saving twice changes nothing more and writes the user only once. */
  lemma EmployeeSaveIdempotent(e: Employee)
    ensures EmployeeSave(EmployeeSave(e).0).0 == EmployeeSave(e).0
    ensures !EmployeeSave(EmployeeSave(e).0).1
  {
  }

  /** "John" and "Doe" render as "John Doe". */
  lemma FullNameExample()
    ensures FullName(User("testuser2", "test2@example.com", "John", "Doe", false)) == "John Doe"
  {
    var u := User("testuser2", "test2@example.com", "John", "Doe", false);
    assert IsStripped(u.firstName) && IsStripped(u.lastName);
    FullNameBoth(u);
  }
}

=== FILE: api_errors.dfy ===
/** The error shaping of api/exceptions.py: every DRF error response is
    rewritten into `{"error": {"code", "message", "details"}}`. The response
    body is a JSON-like value; `str()` of a non-string value is a parameter
    (`show`), since its rendering is Python's repr. */
module ApiErrors {
  import opened Wrappers

  /** A DRF response body. Python dicts keep insertion order; a map does not
      (see README, "Left out"). */
  datatype Json =
    | JNull
    | JBool(b: bool)
    | JNum(n: int)
    | JStr(s: string)
    | JList(items: seq<Json>)
    | JObject(fields: map<string, Json>)

  // ---------------------------------------------------------------------
  // Status codes

  /** The statuses the `error_codes` table of `get_error_code` knows. */
  const KnownStatuses: set<int> := {400, 401, 403, 404, 405, 406, 409, 422, 429, 500, 502, 503}

  /** `get_error_code`: the table's code, or "unknown_error". */
  function ErrorCode(status: int): (r: string)
    ensures status in KnownStatuses <==> r != "unknown_error"
  {
    match status
    case 400 => "validation_error"
    case 401 => "authentication_required"
    case 403 => "permission_denied"
    case 404 => "not_found"
    case 405 => "method_not_allowed"
    case 406 => "not_acceptable"
    case 409 => "conflict"
    case 422 => "unprocessable_entity"
    case 429 => "too_many_requests"
    case 500 => "internal_server_error"
    case 502 => "bad_gateway"
    case 503 => "service_unavailable"
    case _ => "unknown_error"
  }

  /** The table read backwards: the status a code stands for. */
  function StatusOfCode(code: string): (r: Option<int>)
    ensures r.Some? ==> r.value in KnownStatuses
  {
    match code
    case "validation_error" => Some(400)
    case "authentication_required" => Some(401)
    case "permission_denied" => Some(403)
    case "not_found" => Some(404)
    case "method_not_allowed" => Some(405)
    case "not_acceptable" => Some(406)
    case "conflict" => Some(409)
    case "unprocessable_entity" => Some(422)
    case "too_many_requests" => Some(429)
    case "internal_server_error" => Some(500)
    case "bad_gateway" => Some(502)
    case "service_unavailable" => Some(503)
    case _ => None
  }

  /** Each known status's code leads back to it, and every code that names
      a status is that status's code; so distinct statuses get distinct codes. */
  lemma ErrorCodeRoundTrip(status: int)
    requires status in KnownStatuses
    ensures StatusOfCode(ErrorCode(status)) == Some(status)
  {
  }

  lemma StatusOfCodeRoundTrip(code: string, status: int)
    requires StatusOfCode(code) == Some(status)
    ensures ErrorCode(status) == code
  {
  }

  lemma ErrorCodeInjective(a: int, b: int)
    requires a in KnownStatuses && b in KnownStatuses
    ensures ErrorCode(a) == ErrorCode(b) ==> a == b
  {
    ErrorCodeRoundTrip(a);
    ErrorCodeRoundTrip(b);
  }

  lemma ErrorCodeExamples()
    ensures ErrorCode(400) == "validation_error"
    ensures ErrorCode(404) == "not_found"
    ensures ErrorCode(503) == "service_unavailable"
    ensures ErrorCode(418) == "unknown_error"
    ensures ErrorCode(501) == "unknown_error"
  {
  }

  // ---------------------------------------------------------------------
  // Messages

  /** Python's `str(x)`: a string is itself; anything else is rendered by `show`. */
  function PyStr(j: Json, show: Json -> string): (r: string)
    ensures j.JStr? ==> r == j.s
  {
    if j.JStr? then j.s else show(j)
  }

  /** The statuses `get_error_message` has a fixed text for (plus every
      status from 500 up). */
  const FixedMessageStatuses: set<int> := {400, 401, 403, 404, 405, 409, 422, 429}

  /** `get_error_message`. */
  function ErrorMessage(status: int, data: Json, show: Json -> string): (r: string)
    ensures status >= 500 ==> r == "Erro interno do servidor"
    ensures status == 400 ==> r == "Dados inválidos fornecidos"
    ensures status == 401 ==> r == "Autenticação necessária"
    ensures status == 403 ==> r == "Permissão negada"
    ensures status == 404 ==> r == "Recurso não encontrado"
    ensures status == 405 ==> r == "Método não permitido"
    ensures status == 409 ==> r == "Conflito de dados"
    ensures status == 422 ==> r == "Entidade não processável"
    ensures status == 429 ==> r == "Muitas requisições"
    ensures status !in FixedMessageStatuses && status < 500 ==>
      r == (if data.JObject? && "detail" in data.fields then PyStr(data.fields["detail"], show)
            else if data.JObject? && "message" in data.fields then PyStr(data.fields["message"], show)
            else "Erro desconhecido")
  {
    if status == 400 then "Dados inválidos fornecidos"
    else if status == 401 then "Autenticação necessária"
    else if status == 403 then "Permissão negada"
    else if status == 404 then "Recurso não encontrado"
    else if status == 405 then "Método não permitido"
    else if status == 409 then "Conflito de dados"
    else if status == 422 then "Entidade não processável"
    else if status == 429 then "Muitas requisições"
    else if status >= 500 then "Erro interno do servidor"
    else if data.JObject? then
      if "detail" in data.fields then PyStr(data.fields["detail"], show)
      else if "message" in data.fields then PyStr(data.fields["message"], show)
      else "Erro desconhecido"
    else "Erro desconhecido"
  }

  /** Each fixed status has a text of its own, and none of them is the
      server-error text. */
  lemma FixedMessagesDistinct(s1: int, s2: int, data: Json, show: Json -> string)
    requires s1 in FixedMessageStatuses && s2 in FixedMessageStatuses && s1 != s2
    ensures ErrorMessage(s1, data, show) != ErrorMessage(s2, data, show)
    ensures ErrorMessage(s1, data, show) != "Erro interno do servidor"
  {
  }

  /** For the fixed statuses and for server errors the body does not matter. */
  lemma FixedMessagesIgnoreBody(status: int, a: Json, b: Json, show: Json -> string)
    requires status in FixedMessageStatuses || status >= 500
    ensures ErrorMessage(status, a, show) == ErrorMessage(status, b, show)
  {
  }

  /** 406 is the one known status without a fixed message: a "detail" string
      is passed through. */
  lemma NotAcceptableUsesDetail(detail: string, show: Json -> string)
    ensures ErrorMessage(406, JObject(map["detail" := JStr(detail)]), show) == detail
    ensures ErrorMessage(406, JList([]), show) == "Erro desconhecido"
  {
  }

  // ---------------------------------------------------------------------
  // Details and envelope

  /** `format_error_details`: a dict loses "detail" and "message"; a list
      is wrapped under "errors"; anything else is rendered under "raw". */
  function FormatErrorDetails(data: Json, show: Json -> string): (r: Json)
    ensures r.JObject?
    ensures data.JObject? ==> r.fields.Keys == data.fields.Keys - {"detail", "message"}
    ensures data.JObject? ==> forall k :: k in r.fields ==> r.fields[k] == data.fields[k]
    ensures data.JList? ==> r.fields == map["errors" := data]
    ensures !data.JObject? && !data.JList? ==> r.fields == map["raw" := JStr(PyStr(data, show))]
  {
    match data
    case JObject(fields) => JObject(fields - {"detail", "message"})
    case JList(_) => JObject(map["errors" := data])
    case _ => JObject(map["raw" := JStr(PyStr(data, show))])
  }

  /** Formatting already formatted dict details changes nothing. */
  lemma FormatErrorDetailsIdempotent(data: Json, show: Json -> string)
    requires data.JObject?
    ensures FormatErrorDetails(FormatErrorDetails(data, show), show) == FormatErrorDetails(data, show)
  {
    var r := FormatErrorDetails(data, show);
    assert r.fields - {"detail", "message"} == r.fields;
  }

  /** A dict is recovered from its details and the two dropped keys. */
  lemma FormatErrorDetailsLosesOnlyTwoKeys(data: Json, show: Json -> string)
    requires data.JObject?
    ensures forall k :: k in data.fields && k != "detail" && k != "message" ==>
      k in FormatErrorDetails(data, show).fields && FormatErrorDetails(data, show).fields[k] == data.fields[k]
  {
  }

  /** The body `custom_exception_handler` puts on a response. */
  function Envelope(status: int, data: Json, show: Json -> string): (r: Json)
    ensures r.JObject? && r.fields.Keys == {"error"}
    ensures r.fields["error"].JObject?
    ensures r.fields["error"].fields.Keys == {"code", "message", "details"}
    ensures r.fields["error"].fields["code"] == JStr(ErrorCode(status))
    ensures r.fields["error"].fields["message"] == JStr(ErrorMessage(status, data, show))
    ensures r.fields["error"].fields["details"] == FormatErrorDetails(data, show)
  {
    JObject(map["error" := JObject(map[
      "code" := JStr(ErrorCode(status)),
      "message" := JStr(ErrorMessage(status, data, show)),
      "details" := FormatErrorDetails(data, show)])])
  }

  /** A DRF validation response (400 with field errors) keeps every field
      error in the details. */
  lemma ValidationEnvelope(fields: map<string, Json>, show: Json -> string)
    requires "detail" !in fields && "message" !in fields
    ensures Envelope(400, JObject(fields), show).fields["error"].fields["code"] == JStr("validation_error")
    ensures Envelope(400, JObject(fields), show).fields["error"].fields["details"] == JObject(fields)
  {
    ErrorCodeExamples();
    assert fields - {"detail", "message"} == fields;
  }
}

=== FILE: coffee_tags.dfy ===
/** The pure template helpers of core/templatetags/coffee_tags.py. Money is
    an integer number of cents: `format_currency` rounds to two decimals, and
    that rounding is left out (see README). */
module CoffeeTags {
  import opened Wrappers
  import opened Text

  // ---------------------------------------------------------------------
  // Percentages and defaults

  /** `percentage_of`: the share of `total` that `value` is, capped at 100;
      0 for a non-positive total. */
  function PercentageOf(value: real, total: real): (r: real)
    ensures r <= 100.0
    ensures total <= 0.0 ==> r == 0.0
    ensures total > 0.0 ==> (r == 100.0 <==> value >= total)
    ensures total > 0.0 && value < total ==> r * total == value * 100.0
    ensures value >= 0.0 ==> r >= 0.0
  {
    if total > 0.0 then
      var p := (value / total) * 100.0;
      assert p * total == value * 100.0;
      assert value >= total <==> p >= 100.0 by {
        assert value / total >= 1.0 <==> value >= total;
      }
      if p < 100.0 then p else 100.0
    else 0.0
  }

  /** A larger part never gets a smaller percentage of the same total. */
  lemma PercentageOfMonotone(a: real, b: real, total: real)
    requires a <= b
    ensures PercentageOf(a, total) <= PercentageOf(b, total)
  {
    if total > 0.0 {
      assert a / total <= b / total;
    }
  }

  /** `default_if_none_or_zero`. */
  function DefaultIfNoneOrZero(value: Option<real>, default: real): (r: real)
    ensures value.None? || value.value == 0.0 ==> r == default
    ensures value.Some? && value.value != 0.0 ==> r == value.value
  {
    if value.None? || value.value == 0.0 then default else value.value
  }

  /** Feeding the result back in with the same default changes nothing. */
  lemma DefaultIfNoneOrZeroIdempotent(value: Option<real>, default: real)
    ensures DefaultIfNoneOrZero(Some(DefaultIfNoneOrZero(value, default)), default)
      == DefaultIfNoneOrZero(value, default)
  {
  }

  // ---------------------------------------------------------------------
  // Status colours

  /** The statuses `color_by_status` has a palette for. */
  const KnownStatuses: set<string> := {"active", "inactive", "pending", "completed", "cancelled", "in_progress"}

  /** The colour family of each status; unknown ones take pending's. */
  function Hue(status: string): (r: string)
    ensures status !in KnownStatuses ==> r == "yellow"
  {
    match status
    case "active" => "green"
    case "inactive" => "red"
    case "pending" => "yellow"
    case "completed" => "blue"
    case "cancelled" => "gray"
    case "in_progress" => "purple"
    case _ => "yellow"
  }

  /** `color_by_status`: "text-<hue>-600", "bg-<hue>-100" or
      "border-<hue>-200"; any other type gives "". */
  function ColorByStatus(status: string, kind: string): (r: string)
    ensures kind != "text" && kind != "bg" && kind != "border" ==> r == ""
    ensures kind == "text" ==> |r| > 5 && r[..5] == "text-"
    ensures kind == "bg" ==> |r| > 3 && r[..3] == "bg-"
    ensures kind == "border" ==> |r| > 7 && r[..7] == "border-"
  {
    var hue := Hue(status);
    if kind == "text" then "text-" + hue + "-600"
    else if kind == "bg" then "bg-" + hue + "-100"
    else if kind == "border" then "border-" + hue + "-200"
    else ""
  }

  /** An unknown status is coloured exactly as "pending". */
  lemma UnknownStatusIsPending(status: string, kind: string)
    requires status !in KnownStatuses
    ensures ColorByStatus(status, kind) == ColorByStatus("pending", kind)
  {
  }

  lemma ColorExamples()
    ensures ColorByStatus("active", "text") == "text-green-600"
    ensures ColorByStatus("cancelled", "bg") == "bg-gray-100"
    ensures ColorByStatus("in_progress", "border") == "border-purple-200"
    ensures ColorByStatus("active", "icon") == ""
  {
  }

  // ---------------------------------------------------------------------
  // Decimal rendering

  function DigitChar(d: nat): (r: char)
    requires d < 10
    ensures IsDigit(r)
  {
    ('0' as int + d) as char
  }

  /** The value of a string of digits. */
  function ValueOf(s: string): nat
    requires AllDigits(s)
  {
    if |s| == 0 then 0
    else ValueOf(s[..|s| - 1]) * 10 + (s[|s| - 1] as int - '0' as int)
  }

  /** `str(n)` for a natural number. */
  function DigitString(n: nat): (r: string)
    ensures AllDigits(r) && |r| >= 1
    ensures |r| > 1 ==> r[0] != '0'
  {
    if n < 10 then [DigitChar(n)]
    else DigitString(n / 10) + [DigitChar(n % 10)]
  }

  lemma ValueOfSnoc(s: string, c: char)
    requires AllDigits(s) && IsDigit(c)
    ensures ValueOf(s + [c]) == ValueOf(s) * 10 + (c as int - '0' as int)
  {
    assert (s + [c])[..|s|] == s;
  }

  /** Reading back a rendered number gives the number. */
  lemma {:induction false} ValueOfDigitString(n: nat)
    ensures ValueOf(DigitString(n)) == n
    decreases n
  {
    if n < 10 {
      assert ValueOf([DigitChar(n)]) == ValueOf([]) * 10 + n by {
        assert [DigitChar(n)][..0] == [];
      }
    } else {
      ValueOfDigitString(n / 10);
      ValueOfSnoc(DigitString(n / 10), DigitChar(n % 10));
    }
  }

  /** The two-digit fraction of a cents amount. */
  function Cents(r: nat): (s: string)
    requires r < 100
    ensures |s| == 2 && AllDigits(s)
  {
    [DigitChar(r / 10), DigitChar(r % 10)]
  }

  lemma ValueOfCentsAppend(a: string, r: nat)
    requires AllDigits(a) && r < 100
    ensures AllDigits(a + Cents(r))
    ensures ValueOf(a + Cents(r)) == ValueOf(a) * 100 + r
  {
    var c := Cents(r);
    assert a + c == (a + [c[0]]) + [c[1]];
    ValueOfSnoc(a, c[0]);
    ValueOfSnoc(a + [c[0]], c[1]);
    var v := ValueOf(a);
    assert ValueOf(a + c) == (v * 10 + r / 10) * 10 + r % 10;
    assert (v * 10 + r / 10) * 10 == v * 100 + (r / 10) * 10;
  }

  /** `f'{n:,}'`-style grouping: `sep` between every three digits from the
      right. */
  function Group(ds: string, sep: char): (r: string)
    ensures |ds| <= 3 ==> r == ds
    ensures |ds| > 0 ==> |r| > 0 && r[0] == ds[0]
    decreases |ds|
  {
    if |ds| <= 3 then ds
    else Group(ds[..|ds| - 3], sep) + [sep] + ds[|ds| - 3..]
  }

  /** Grouping only inserts the separator: the digits are untouched. */
  lemma {:induction false} GroupDigits(ds: string, sep: char)
    requires AllDigits(ds) && !IsDigit(sep)
    ensures Digits(Group(ds, sep)) == ds
    decreases |ds|
  {
    if |ds| > 3 {
      var head, tail := ds[..|ds| - 3], ds[|ds| - 3..];
      GroupDigits(head, sep);
      DigitsAroundSep(Group(head, sep), sep, tail);
      assert head + tail == ds;
    }
  }

  /** The separator sits exactly at every fourth place counting from the
      right (after each run of three digits), and nowhere else; so the
      result is the digits plus one separator per full group above the
      first. */
  lemma {:induction false} GroupSeparators(ds: string, sep: char)
    requires AllDigits(ds) && !IsDigit(sep)
    ensures |Group(ds, sep)| == |ds| + (if |ds| == 0 then 0 else (|ds| - 1) / 3)
    ensures SepEveryFourth(Group(ds, sep), sep)
    decreases |ds|
  {
    if |ds| <= 3 {
      var g := Group(ds, sep);
      forall i | 0 <= i < |g|
        ensures g[i] == sep <==> (|g| - i) % 4 == 0
      {
        assert IsDigit(ds[i]);
      }
    } else {
      var head, tail := ds[..|ds| - 3], ds[|ds| - 3..];
      GroupSeparators(head, sep);
      assert Group(ds, sep) == Group(head, sep) + [sep] + tail;
      SepEveryFourthExtend(Group(head, sep), sep, tail);
    }
  }

  /** `sep` stands at exactly the places a multiple of four from the end. */
  predicate SepEveryFourth(g: string, sep: char) {
    forall i :: 0 <= i < |g| ==> (g[i] == sep <==> (|g| - i) % 4 == 0)
  }

  /** One more group of three digits behind a separator keeps the layout. */
  lemma SepEveryFourthExtend(h: string, sep: char, tail: string)
    requires SepEveryFourth(h, sep) && !IsDigit(sep)
    requires |tail| == 3 && AllDigits(tail)
    ensures SepEveryFourth(h + [sep] + tail, sep)
  {
    var g := h + [sep] + tail;
    forall i | 0 <= i < |g|
      ensures g[i] == sep <==> (|g| - i) % 4 == 0
    {
      if i < |h| {
        assert g[i] == h[i];
        assert |g| - i == (|h| - i) + 4;
      } else if i > |h| {
        assert g[i] == tail[i - |h| - 1];
        assert IsDigit(g[i]);
      }
    }
  }

  lemma DigitsAroundSep(g: string, sep: char, tail: string)
    requires !IsDigit(sep) && AllDigits(tail)
    ensures Digits(g + [sep] + tail) == Digits(g) + tail
  {
    DigitsDropSep(g, sep);
    DigitsKeepTail(g + [sep], tail);
  }

  lemma DigitsDropSep(g: string, sep: char)
    requires !IsDigit(sep)
    ensures Digits(g + [sep]) == Digits(g)
  {
    DigitsAppend(g, [sep]);
    assert [sep][1..] == [];
    assert Digits([sep]) == [];
  }

  lemma DigitsKeepTail(x: string, tail: string)
    requires AllDigits(tail)
    ensures Digits(x + tail) == Digits(x) + tail
  {
    DigitsAppend(x, tail);
  }

  /** Python's `s.replace(a, b)` for single characters. */
  function ReplaceChar(s: string, a: char, b: char): (r: string)
    ensures |r| == |s|
    ensures forall i :: 0 <= i < |s| ==> r[i] == (if s[i] == a then b else s[i])
  {
    seq(|s|, i requires 0 <= i < |s| => if s[i] == a then b else s[i])
  }

  /** Exchanging two characters one for the other. */
  function Swap(s: string, a: char, b: char): (r: string)
    ensures |r| == |s|
  {
    seq(|s|, i requires 0 <= i < |s| => if s[i] == a then b else if s[i] == b then a else s[i])
  }

  /** The three-replace trick through 'X' swaps ',' and '.' as long as the
      text holds no 'X'. */
  lemma ReplaceThroughX(s: string)
    requires 'X' !in s
    ensures ReplaceChar(ReplaceChar(ReplaceChar(s, ',', 'X'), '.', ','), 'X', '.') == Swap(s, ',', '.')
  {
    var t := ReplaceChar(ReplaceChar(ReplaceChar(s, ',', 'X'), '.', ','), 'X', '.');
    forall i | 0 <= i < |s|
      ensures t[i] == Swap(s, ',', '.')[i]
    {
      assert s[i] != 'X';
    }
  }

  /** The unsigned part of `f'{value:,.2f}'` for `a` cents: grouped units,
      '.', two decimals. */
  function UnsignedAmount(a: nat): (r: string)
    ensures 'X' !in r && '-' !in r
    ensures |r| >= 4 && r[|r| - 3] == '.' && IsDigit(r[0])
  {
    var ds := DigitString(a / 100);
    GroupChars(ds, ',');
    Group(ds, ',') + "." + Cents(a % 100)
  }

  /** `f'{value:,.2f}'` of a number of cents: a '-' for negatives, then the
      unsigned amount. */
  function PlainAmount(cents: int): (r: string)
    ensures 'X' !in r
    ensures |r| >= 4 && r[|r| - 3] == '.'
    ensures |r| > 0 && (r[0] == '-' <==> cents < 0)
  {
    if cents < 0 then "-" + UnsignedAmount(-cents) else UnsignedAmount(cents)
  }

  lemma {:induction false} GroupChars(ds: string, sep: char)
    requires AllDigits(ds) && sep != 'X' && sep != '-'
    ensures 'X' !in Group(ds, sep) && '-' !in Group(ds, sep)
    decreases |ds|
  {
    if |ds| > 3 {
      GroupChars(ds[..|ds| - 3], sep);
      assert forall i :: |ds| - 3 <= i < |ds| ==> IsDigit(ds[i]);
    } else {
      assert forall i :: 0 <= i < |ds| ==> IsDigit(ds[i]);
    }
  }

  /** `format_currency`: `None` is "R$ 0,00" whatever the currency; BRL
      swaps the separators and adds "R$ "; other currencies are plain. */
  function FormatCurrency(value: Option<int>, currency: string): (r: string)
    ensures value.None? ==> r == "R$ 0,00"
    ensures value.Some? && currency == "BRL" ==> (|r| >= 3 && r[..3] == "R$ "
      && r[3..] == Swap(PlainAmount(value.value), ',', '.'))
    ensures value.Some? && currency != "BRL" ==> r == PlainAmount(value.value)
  {
    match value
    case None => "R$ 0,00"
    case Some(cents) =>
      var plain := PlainAmount(cents);
      if currency == "BRL" then
        ReplaceThroughX(plain);
        "R$ " + ReplaceChar(ReplaceChar(ReplaceChar(plain, ',', 'X'), '.', ','), 'X', '.')
      else plain
  }

  /** Reads an amount back: an optional '-', then every digit, separators
      ignored, as cents. */
  function ParseAmount(s: string): (r: int)
  {
    if |s| > 0 && s[0] == '-' then 0 - ValueOf(Digits(s[1..])) else ValueOf(Digits(s))
  }

  /** The digits of an unsigned amount spell its number of cents. */
  lemma UnsignedAmountValue(a: nat)
    ensures AllDigits(Digits(UnsignedAmount(a)))
    ensures ValueOf(Digits(UnsignedAmount(a))) == a
  {
    var ds := DigitString(a / 100);
    var units := Group(ds, ',');
    GroupDigits(ds, ',');
    DigitsAppend(units + ".", Cents(a % 100));
    DigitsAppend(units, ".");
    assert Digits(".") == [] by {
      assert "."[1..] == [];
    }
    assert Digits(UnsignedAmount(a)) == ds + Cents(a % 100);
    ValueOfCentsAppend(ds, a % 100);
    ValueOfDigitString(a / 100);
  }

  lemma PlainAmountParses(cents: int)
    ensures ParseAmount(PlainAmount(cents)) == cents
  {
    if cents < 0 {
      UnsignedAmountValue(-cents);
      assert ("-" + UnsignedAmount(-cents))[1..] == UnsignedAmount(-cents);
    } else {
      UnsignedAmountValue(cents);
    }
  }

  /** The layout of an unsigned amount: a ',' every fourth place leftwards
      from the '.', digits everywhere else. */
  lemma UnsignedAmountLayout(a: nat)
    ensures var r := UnsignedAmount(a);
      forall i :: 0 <= i < |r| - 3 ==> (r[i] == ',' <==> (|r| - 3 - i) % 4 == 0)
    ensures var r := UnsignedAmount(a);
      forall i :: 0 <= i < |r| - 3 ==> (r[i] != ',' ==> IsDigit(r[i]))
  {
    var ds := DigitString(a / 100);
    var g := Group(ds, ',');
    GroupSeparators(ds, ',');
    GroupDigits(ds, ',');
    var r := UnsignedAmount(a);
    assert r == g + "." + Cents(a % 100);
    forall i | 0 <= i < |r| - 3
      ensures r[i] == ',' <==> (|r| - 3 - i) % 4 == 0
      ensures r[i] != ',' ==> IsDigit(r[i])
    {
      assert r[i] == g[i];
      if g[i] != ',' {
        GroupOnlyDigitsAndSep(ds, ',', i);
      }
    }
  }

  /** Every character of a grouping is a digit or the separator. */
  lemma {:induction false} GroupOnlyDigitsAndSep(ds: string, sep: char, i: int)
    requires AllDigits(ds) && 0 <= i < |Group(ds, sep)|
    ensures Group(ds, sep)[i] == sep || IsDigit(Group(ds, sep)[i])
    decreases |ds|
  {
    if |ds| <= 3 {
      assert IsDigit(ds[i]);
    } else {
      var head, tail := ds[..|ds| - 3], ds[|ds| - 3..];
      var h := Group(head, sep);
      assert Group(ds, sep) == h + [sep] + tail;
      if i < |h| {
        GroupOnlyDigitsAndSep(head, sep, i);
      } else if i > |h| {
        assert IsDigit(ds[|ds| - 3 + (i - |h| - 1)]);
      }
    }
  }

  /** Exchanging two non-digits keeps the digits. */
  lemma {:induction false} DigitsSwap(s: string, a: char, b: char)
    requires !IsDigit(a) && !IsDigit(b)
    ensures Digits(Swap(s, a, b)) == Digits(s)
    decreases |s|
  {
    if |s| > 0 {
      assert Swap(s, a, b)[1..] == Swap(s[1..], a, b);
      DigitsSwap(s[1..], a, b);
    }
  }

  /** Exchanging the separators does not change the amount read back. */
  lemma ParseAmountSwap(s: string)
    ensures ParseAmount(Swap(s, ',', '.')) == ParseAmount(s)
  {
    var t := Swap(s, ',', '.');
    DigitsSwap(s, ',', '.');
    if |s| > 0 {
      assert t[1..] == Swap(s[1..], ',', '.');
      DigitsSwap(s[1..], ',', '.');
    }
  }

  /** Every formatted amount reads back as the amount it came from: the
      BRL separators are only exchanged, never lost or duplicated. */
  lemma FormatCurrencyRoundTrip(cents: int, currency: string)
    ensures currency != "BRL" ==> ParseAmount(FormatCurrency(Some(cents), currency)) == cents
    ensures currency == "BRL" ==> ParseAmount(FormatCurrency(Some(cents), currency)[3..]) == cents
  {
    PlainAmountParses(cents);
    if currency == "BRL" {
      ParseAmountSwap(PlainAmount(cents));
    }
  }

  /** The BRL rendering keeps the decimal comma three from the end. */
  lemma BrlDecimalComma(cents: int)
    ensures var r := FormatCurrency(Some(cents), "BRL"); |r| >= 7 && r[|r| - 3] == ','
  {
    var plain := PlainAmount(cents);
    assert Swap(plain, ',', '.')[|plain| - 3] == ',';
  }

  lemma PlainAmountExample()
    ensures PlainAmount(123456) == "1,234.56"
  {
    assert 123456 / 100 == 1234 && 123456 % 100 == 56;
    assert DigitString(1234) == "1234" by {
      assert DigitString(1) == "1";
      assert DigitString(12) == "12";
      assert DigitString(123) == "123";
    }
    assert Group("1234", ',') == "1,234" by {
      assert "1234"[..1] == "1" && "1234"[1..] == "234";
    }
    assert Cents(56) == "56" by {
      assert DigitChar(5) == '5' && DigitChar(6) == '6';
    }
    assert UnsignedAmount(123456) == "1,234" + "." + "56";
  }

  lemma SwapExample()
    ensures Swap("1,234.56", ',', '.') == "1.234,56"
  {
    var q := Swap("1,234.56", ',', '.');
    assert q[0] == '1' && q[1] == '.' && q[2] == '2' && q[3] == '3';
    assert q[4] == '4' && q[5] == ',' && q[6] == '5' && q[7] == '6';
  }

  lemma FormatCurrencyExamples()
    ensures FormatCurrency(Some(123456), "BRL") == "R$ 1.234,56"
    ensures FormatCurrency(Some(123456), "USD") == "1,234.56"
    ensures FormatCurrency(None, "USD") == "R$ 0,00"
  {
    PlainAmountExample();
    SwapExample();
    var r := FormatCurrency(Some(123456), "BRL");
    assert r == r[..3] + r[3..];
  }
}

=== FILE: core_models.dfy ===
/** The abstract base models every entity inherits (core/models.py):
    `BaseModel` (UUID key, `is_active` flag, `__str__`) and `AuditModel`
    (who created and who last updated a record). Users are identified by
    their primary key. */
module CoreModels {
  import opened Wrappers

  type UserId = nat
  type Uuid = nat

  /** The fields `BaseModel` adds to every record. `adding` is Django's
      "not yet written to the database" state flag. */
  datatype BaseFields = BaseFields(id: Uuid, isActive: bool, adding: bool)

  /** A freshly constructed record: the UUID default is drawn at
      construction time and the record starts active. */
  function NewBase(id: Uuid): (r: BaseFields)
    ensures r.isActive && r.adding && r.id == id
  {
    BaseFields(id, true, true)
  }

  /** `BaseModel.__str__`: "ClassName (id)", with the UUID already rendered. */
  function BaseLabel(className: string, renderedId: string): (r: string)
    ensures |r| == |className| + |renderedId| + 3
    ensures r[..|className|] == className
    ensures r[|className|..] == " (" + renderedId + ")"
  {
    var tail := " (" + renderedId + ")";
    assert (className + tail)[..|className|] == className;
    assert (className + tail)[|className|..] == tail;
    className + tail
  }

  /** The audit part of a record. `pk` is the primary key as `save` sees it. */
  datatype AuditFields = AuditFields(
    pk: Option<Uuid>,
    adding: bool,
    createdBy: Option<UserId>,
    updatedBy: Option<UserId>)

  /** `AuditModel.save(user=...)` as written: with a user, a record without
      a primary key gets it as creator, and every record gets it as last
      updater; without a user nothing changes. */
  function AuditSave(a: AuditFields, user: Option<UserId>): (r: AuditFields)
    ensures user.None? ==> r == a
    ensures user.Some? && a.pk.None? ==> r.createdBy == user && r.updatedBy == user
    ensures user.Some? && a.pk.Some? ==> r.createdBy == a.createdBy && r.updatedBy == user
    ensures r.pk == a.pk && r.adding == a.adding
  {
    match user
    case None => a
    case Some(_) =>
      var created := if a.pk.None? then user else a.createdBy;
      a.(createdBy := created, updatedBy := user)
  }

  /** The audit fields of a record built with the UUID default. */
  function NewAudit(id: Uuid): (r: AuditFields)
    ensures r.pk.Some? && r.adding
    ensures r.createdBy.None? && r.updatedBy.None?
  {
    AuditFields(Some(id), true, None, None)
  }

  /** Every `AuditModel` draws its UUID key at construction, so the "no
      primary key" branch never runs: saving a brand-new record with a user
      leaves it without a creator. */
  lemma NewRecordNeverGetsCreator(id: Uuid, user: UserId)
    ensures AuditSave(NewAudit(id), Some(user)).createdBy == None
    ensures AuditSave(NewAudit(id), Some(user)).updatedBy == Some(user)
  {
  }

  /** The rule with "new" read from the database state rather than from the
      key: the first save with a user records it as creator. */
  function AuditSaveCorrected(a: AuditFields, user: Option<UserId>): (r: AuditFields)
    ensures user.None? ==> r == a
    ensures user.Some? && a.adding ==> r.createdBy == user && r.updatedBy == user
    ensures user.Some? && !a.adding ==> r.createdBy == a.createdBy && r.updatedBy == user
    ensures r.pk == a.pk && r.adding == a.adding
  {
    match user
    case None => a
    case Some(_) =>
      var created := if a.adding then user else a.createdBy;
      a.(createdBy := created, updatedBy := user)
  }

  /** Once written, a record is no longer being added. */
  function Persisted(a: AuditFields): (r: AuditFields)
    ensures !r.adding && r.pk == a.pk
    ensures r.createdBy == a.createdBy && r.updatedBy == a.updatedBy
  {
    a.(adding := false)
  }

  /** With the corrected rule a new record saved by `u` has `u` as creator,
      and later saves by others only move the last updater. */
  lemma CorrectedCreatorIsFirstSaver(id: Uuid, u: UserId, later: Option<UserId>)
    ensures AuditSaveCorrected(NewAudit(id), Some(u)).createdBy == Some(u)
    ensures AuditSaveCorrected(Persisted(AuditSaveCorrected(NewAudit(id), Some(u))), later).createdBy == Some(u)
  {
  }

  /** Saving twice with the same user gives the same audit fields as saving
      once, for the rule as written. */
  lemma AuditSaveIdempotent(a: AuditFields, user: Option<UserId>)
    ensures AuditSave(AuditSave(a, user), user) == AuditSave(a, user)
  {
  }
}

=== FILE: financial.dfy ===
/** Receivables, payables and payroll arithmetic (financial/models.py).
    `AccountsReceivable` and `AccountsPayable` share every modelled member
    word for word, so one `Account` stands for both. Dates are day numbers;
    `today` is passed in. */
module Financial {
  import opened Wrappers

  /** `STATUS_CHOICES` of receivables and payables. */
  datatype AccountStatus = Pending | PartiallyPaid | Paid | Overdue | WrittenOff | Cancelled

  datatype Account = Account(
    originalAmount: real,
    paidAmount: real,
    discountAmount: real,
    interestAmount: real,
    fineAmount: real,
    dueDate: int,
    paymentDate: Option<int>,
    status: AccountStatus,
    paymentMethod: string,
    referenceNumber: string,
    updatedBy: Option<nat>)

  /** The payment record `make_payment` creates: the columns of
      `AccountsReceivablePayment` / `AccountsPayablePayment` it fills. */
  datatype Payment = Payment(
    amount: real,
    paymentDate: int,
    paymentMethod: string,
    referenceNumber: string)

  /** `balance`: what is left of the original amount; interest, fine and
      discount play no part, and it is never negative. */
  function Balance(a: Account): (r: real)
    ensures r >= 0.0
    ensures r >= a.originalAmount - a.paidAmount
    ensures r == 0.0 || r == a.originalAmount - a.paidAmount
  {
    if a.originalAmount - a.paidAmount > 0.0 then a.originalAmount - a.paidAmount else 0.0
  }

  /** `total_amount`: the amount due with interest and fine, less discount. */
  function TotalAmount(a: Account): (r: real)
    ensures r - a.originalAmount == a.interestAmount + a.fineAmount - a.discountAmount
  {
    a.originalAmount + a.interestAmount + a.fineAmount - a.discountAmount
  }

  /** Interest and fine raise the total by exactly their amount and a
      discount lowers it by exactly its amount, while the balance ignores
      all three. */
  lemma TotalAmountAdjustments(a: Account, x: real)
    ensures TotalAmount(a.(interestAmount := a.interestAmount + x)) == TotalAmount(a) + x
    ensures TotalAmount(a.(fineAmount := a.fineAmount + x)) == TotalAmount(a) + x
    ensures TotalAmount(a.(discountAmount := a.discountAmount + x)) == TotalAmount(a) - x
    ensures Balance(a.(interestAmount := a.interestAmount + x)) == Balance(a)
    ensures Balance(a.(fineAmount := a.fineAmount + x)) == Balance(a)
    ensures Balance(a.(discountAmount := a.discountAmount + x)) == Balance(a)
  {
  }

  /** Without interest, fine or discount the total is the original amount,
      and the balance is what remains of it. */
  lemma PlainAccountTotal(a: Account)
    requires a.interestAmount == 0.0 && a.fineAmount == 0.0 && a.discountAmount == 0.0
    requires a.paidAmount <= a.originalAmount
    ensures TotalAmount(a) == a.originalAmount
    ensures Balance(a) == TotalAmount(a) - a.paidAmount
  {
  }

  /** `is_overdue`: past the due date while still pending or part paid. */
  predicate IsOverdue(a: Account, today: int) {
    today > a.dueDate && (a.status == Pending || a.status == PartiallyPaid)
  }

  /** Lateness starts the day after the due date and lasts while the account
      stays open. Only 'pending' and 'partially_paid' count, so an account
      whose stored status is 'overdue' is not overdue by this test. */
  lemma OverdueWindow(a: Account, today: int, later: int)
    ensures today <= a.dueDate ==> !IsOverdue(a, today)
    ensures a.status !in {Pending, PartiallyPaid} ==> !IsOverdue(a, today)
    ensures a.status == Overdue ==> !IsOverdue(a, today)
    ensures IsOverdue(a, today) && today <= later ==> IsOverdue(a, later)
    ensures (a.status == Pending || a.status == PartiallyPaid) ==> (IsOverdue(a, today) <==> a.dueDate < today)
  {
  }

  /** A payment that reaches the total leaves the account not overdue on
      any day. */
  lemma SettlingPaymentEndsOverdue(a: Account, amount: real, paymentMethod: string, referenceNumber: string,
                                   paymentDate: Option<int>, today: int, day: int)
    requires MakePaymentCorrected(a, amount, paymentMethod, referenceNumber, paymentDate, today).Ok?
    requires a.paidAmount + amount >= TotalAmount(a)
    ensures !IsOverdue(MakePaymentCorrected(a, amount, paymentMethod, referenceNumber, paymentDate, today).value.0, day)
  {
  }

  /** `days_overdue`: whole days past due for an overdue account, else 0. */
  function DaysOverdue(a: Account, today: int): (r: nat)
    ensures r > 0 <==> IsOverdue(a, today)
    ensures r > 0 ==> a.dueDate + r == today
  {
    if IsOverdue(a, today) then today - a.dueDate else 0
  }

  /** The `TypeError` Django's model constructor raises on a keyword that
      names no field. */
  const CreatedByRejected := TypeError("unexpected keyword argument 'created_by'")

  /** `make_payment(amount, payment_method, reference_number, payment_date)`
      as written: after the two guards it creates the payment row with
      `created_by=self.updated_by`, but the payment models are plain
      `BaseModel`s with no such field, so the insert raises before the
      paid amount or the status is touched. */
  function MakePayment(a: Account, amount: real, paymentMethod: string, referenceNumber: string,
                       paymentDate: Option<int>, today: int): (r: Result<(Account, Payment)>)
    ensures amount <= 0.0 ==> r == Err(ValueError("Payment amount must be positive"))
    ensures amount > 0.0 && a.paidAmount + amount > TotalAmount(a)
      ==> r == Err(ValueError("Payment amount exceeds total amount"))
    ensures amount > 0.0 && a.paidAmount + amount <= TotalAmount(a) ==> r == Err(CreatedByRejected)
  {
    if amount <= 0.0 then Err(ValueError("Payment amount must be positive"))
    else if a.paidAmount + amount > TotalAmount(a) then Err(ValueError("Payment amount exceeds total amount"))
    else Err(CreatedByRejected)
  }

  /** As written, no payment ever goes through: exactly the payments the
      corrected method accepts raise the `TypeError`, and every refusal is
      the corrected method's own. */
  lemma PaymentNeverSucceeds(a: Account, amount: real, paymentMethod: string, referenceNumber: string,
                             paymentDate: Option<int>, today: int)
    ensures MakePayment(a, amount, paymentMethod, referenceNumber, paymentDate, today).Err?
    ensures MakePayment(a, amount, paymentMethod, referenceNumber, paymentDate, today) == Err(CreatedByRejected)
      <==> MakePaymentCorrected(a, amount, paymentMethod, referenceNumber, paymentDate, today).Ok?
    ensures MakePaymentCorrected(a, amount, paymentMethod, referenceNumber, paymentDate, today).Err?
      ==> MakePayment(a, amount, paymentMethod, referenceNumber, paymentDate, today)
          == MakePaymentCorrected(a, amount, paymentMethod, referenceNumber, paymentDate, today)
  {
  }

  /** `make_payment` as evidently intended, with the payment row created
      from the columns the payment models have: a non-positive amount or
      one that would take the paid amount past the total is refused;
      otherwise the payment is recorded, the paid amount grows by it and
      the status follows. */
  function MakePaymentCorrected(a: Account, amount: real, paymentMethod: string, referenceNumber: string,
                                paymentDate: Option<int>, today: int): (r: Result<(Account, Payment)>)
    ensures amount <= 0.0 ==> r == Err(ValueError("Payment amount must be positive"))
    ensures amount > 0.0 && a.paidAmount + amount > TotalAmount(a)
      ==> r == Err(ValueError("Payment amount exceeds total amount"))
    ensures r.Ok? <==> amount > 0.0 && a.paidAmount + amount <= TotalAmount(a)
    ensures r.Ok? ==> r.value.0.paidAmount == a.paidAmount + amount
    ensures r.Ok? ==> r.value.0.paidAmount <= TotalAmount(r.value.0)
    ensures r.Ok? ==> TotalAmount(r.value.0) == TotalAmount(a)
    ensures r.Ok? ==> (r.value.0.status == Paid <==> r.value.0.paidAmount >= TotalAmount(a) || (a.status == Paid && r.value.0.paidAmount <= 0.0))
    ensures r.Ok? && r.value.0.paidAmount >= TotalAmount(a)
      ==> r.value.0.status == Paid && r.value.0.paymentDate == Some(paymentDate.GetOr(today))
    ensures r.Ok? && 0.0 < r.value.0.paidAmount < TotalAmount(a)
      ==> r.value.0.status == PartiallyPaid && r.value.0.paymentDate == a.paymentDate
    ensures r.Ok? ==> r.value.0.paymentMethod == paymentMethod
    ensures r.Ok? ==> r.value.0.referenceNumber == (if referenceNumber != "" then referenceNumber else a.referenceNumber)
    ensures r.Ok? ==> r.value.1 == Payment(amount, paymentDate.GetOr(today), paymentMethod, referenceNumber)
    ensures r.Ok? ==> r.value.0 == a.(paidAmount := r.value.0.paidAmount, status := r.value.0.status,
      paymentDate := r.value.0.paymentDate, paymentMethod := paymentMethod, referenceNumber := r.value.0.referenceNumber)
  {
    var date := paymentDate.GetOr(today);
    if amount <= 0.0 then Err(ValueError("Payment amount must be positive"))
    else if a.paidAmount + amount > TotalAmount(a) then Err(ValueError("Payment amount exceeds total amount"))
    else
      var payment := Payment(amount, date, paymentMethod, referenceNumber);
      var paid := a.paidAmount + amount;
      var settled :=
        if paid >= TotalAmount(a) then a.(paidAmount := paid, status := Paid, paymentDate := Some(date))
        else if paid > 0.0 then a.(paidAmount := paid, status := PartiallyPaid)
        else a.(paidAmount := paid);
      var reference := if referenceNumber != "" then referenceNumber else a.referenceNumber;
      Ok((settled.(paymentMethod := paymentMethod, referenceNumber := reference), payment))
  }

  /** Paying exactly the outstanding total settles the account. */
  lemma PayInFull(a: Account, payMethod: string, reference: string, today: int)
    requires a.paidAmount < TotalAmount(a)
    ensures var r := MakePaymentCorrected(a, TotalAmount(a) - a.paidAmount, payMethod, reference, None, today);
      r.Ok? && r.value.0.status == Paid && r.value.0.paidAmount == TotalAmount(a)
      && r.value.0.paymentDate == Some(today)
  {
  }

  /** A run of payments: each accepted one is applied in turn; the first
      refusal stops the run. */
  function PayAll(a: Account, amounts: seq<real>, today: int): (r: Result<Account>)
    ensures r.Ok? ==> TotalAmount(r.value) == TotalAmount(a)
    ensures r.Ok? && |amounts| > 0 ==> r.value.paidAmount <= TotalAmount(a)
    decreases |amounts|
  {
    if |amounts| == 0 then Ok(a)
    else
      var step :- MakePaymentCorrected(a, amounts[0], "", "", None, today);
      PayAll(step.0, amounts[1..], today)
  }

  function Sum(xs: seq<real>): real {
    if |xs| == 0 then 0.0 else xs[0] + Sum(xs[1..])
  }

  /** Accepted payments add up: the paid amount grows by the sum of the run,
      and so never overshoots the total. */
  lemma {:induction false} PayAllAccumulates(a: Account, amounts: seq<real>, today: int)
    requires PayAll(a, amounts, today).Ok?
    ensures PayAll(a, amounts, today).value.paidAmount == a.paidAmount + Sum(amounts)
    ensures |amounts| > 0 ==> a.paidAmount + Sum(amounts) <= TotalAmount(a)
    decreases |amounts|
  {
    if |amounts| > 0 {
      var step := MakePaymentCorrected(a, amounts[0], "", "", None, today).value;
      PayAllAccumulates(step.0, amounts[1..], today);
    }
  }

  // ---------------------------------------------------------------------
  // Payroll

  /** The money fields of a payroll; nullable ones count as 0 (`x or 0`). */
  datatype Payroll = Payroll(
    baseSalary: Option<real>,
    overtimeHours: real,
    overtimeAmount: Option<real>,
    bonusAmount: Option<real>,
    commissionAmount: Option<real>,
    otherEarnings: Option<real>,
    inssAmount: Option<real>,
    irrfAmount: Option<real>,
    healthInsurance: Option<real>,
    dentalInsurance: Option<real>,
    mealVoucherDiscount: Option<real>,
    transportVoucherDiscount: Option<real>,
    unionDues: Option<real>,
    otherDeductions: Option<real>,
    grossSalary: real,
    totalDeductions: real,
    netSalary: real)

  function OrZero(x: Option<real>): (r: real)
    ensures x.None? ==> r == 0.0
    ensures x.Some? ==> r == x.value
  {
    x.GetOr(0.0)
  }

  /** The five earnings, unset ones as 0. */
  function EarningsSum(p: Payroll): real {
    OrZero(p.baseSalary) + OrZero(p.overtimeAmount) + OrZero(p.bonusAmount)
    + OrZero(p.commissionAmount) + OrZero(p.otherEarnings)
  }

  /** The eight deductions, unset ones as 0. */
  function DeductionsSum(p: Payroll): real {
    OrZero(p.inssAmount) + OrZero(p.irrfAmount) + OrZero(p.healthInsurance)
    + OrZero(p.dentalInsurance) + OrZero(p.mealVoucherDiscount)
    + OrZero(p.transportVoucherDiscount) + OrZero(p.unionDues) + OrZero(p.otherDeductions)
  }

  /** `calculate_gross_salary`: stores and returns the sum of the earnings. */
  function CalculateGrossSalary(p: Payroll): (r: (Payroll, real))
    ensures r.0 == p.(grossSalary := r.1)
    ensures r.1 == OrZero(p.baseSalary) + OrZero(p.overtimeAmount) + OrZero(p.bonusAmount)
      + OrZero(p.commissionAmount) + OrZero(p.otherEarnings)
  {
    (p.(grossSalary := EarningsSum(p)), EarningsSum(p))
  }

  /** `calculate_deductions`: stores and returns the sum of the deductions. */
  function CalculateDeductions(p: Payroll): (r: (Payroll, real))
    ensures r.0 == p.(totalDeductions := r.1)
    ensures r.1 == OrZero(p.inssAmount) + OrZero(p.irrfAmount) + OrZero(p.healthInsurance)
      + OrZero(p.dentalInsurance) + OrZero(p.mealVoucherDiscount)
      + OrZero(p.transportVoucherDiscount) + OrZero(p.unionDues) + OrZero(p.otherDeductions)
  {
    (p.(totalDeductions := DeductionsSum(p)), DeductionsSum(p))
  }

  /** Each earning counts once, at face value: setting it to `x` raises
      the gross salary by `x` over leaving it unset. */
  lemma GrossSalaryPerEarning(p: Payroll, x: real)
    ensures CalculateGrossSalary(p.(baseSalary := Some(x))).1 == CalculateGrossSalary(p.(baseSalary := None)).1 + x
    ensures CalculateGrossSalary(p.(overtimeAmount := Some(x))).1 == CalculateGrossSalary(p.(overtimeAmount := None)).1 + x
    ensures CalculateGrossSalary(p.(bonusAmount := Some(x))).1 == CalculateGrossSalary(p.(bonusAmount := None)).1 + x
    ensures CalculateGrossSalary(p.(commissionAmount := Some(x))).1 == CalculateGrossSalary(p.(commissionAmount := None)).1 + x
    ensures CalculateGrossSalary(p.(otherEarnings := Some(x))).1 == CalculateGrossSalary(p.(otherEarnings := None)).1 + x
  {
  }

  /** Deductions play no part in the gross salary, and a payroll with no
      earnings set grosses 0. */
  lemma GrossSalaryIgnoresDeductions(p: Payroll, q: Payroll)
    requires p.baseSalary == q.baseSalary && p.overtimeAmount == q.overtimeAmount
    requires p.bonusAmount == q.bonusAmount && p.commissionAmount == q.commissionAmount
    requires p.otherEarnings == q.otherEarnings
    ensures CalculateGrossSalary(p).1 == CalculateGrossSalary(q).1
    ensures (p.baseSalary.None? && p.overtimeAmount.None? && p.bonusAmount.None?
             && p.commissionAmount.None? && p.otherEarnings.None?)
            ==> CalculateGrossSalary(p).1 == 0.0
  {
  }

  /** Each deduction counts once, at face value: setting it to `x` raises
      the total deductions by `x` over leaving it unset. */
  lemma DeductionsPerItem(p: Payroll, x: real)
    ensures CalculateDeductions(p.(inssAmount := Some(x))).1 == CalculateDeductions(p.(inssAmount := None)).1 + x
    ensures CalculateDeductions(p.(irrfAmount := Some(x))).1 == CalculateDeductions(p.(irrfAmount := None)).1 + x
    ensures CalculateDeductions(p.(healthInsurance := Some(x))).1 == CalculateDeductions(p.(healthInsurance := None)).1 + x
    ensures CalculateDeductions(p.(dentalInsurance := Some(x))).1 == CalculateDeductions(p.(dentalInsurance := None)).1 + x
    ensures CalculateDeductions(p.(mealVoucherDiscount := Some(x))).1 == CalculateDeductions(p.(mealVoucherDiscount := None)).1 + x
    ensures CalculateDeductions(p.(transportVoucherDiscount := Some(x))).1 == CalculateDeductions(p.(transportVoucherDiscount := None)).1 + x
    ensures CalculateDeductions(p.(unionDues := Some(x))).1 == CalculateDeductions(p.(unionDues := None)).1 + x
    ensures CalculateDeductions(p.(otherDeductions := Some(x))).1 == CalculateDeductions(p.(otherDeductions := None)).1 + x
  {
  }

  /** Earnings play no part in the deductions, and a payroll with no
      deduction set deducts 0. */
  lemma DeductionsIgnoreEarnings(p: Payroll, q: Payroll)
    requires p.inssAmount == q.inssAmount && p.irrfAmount == q.irrfAmount
    requires p.healthInsurance == q.healthInsurance && p.dentalInsurance == q.dentalInsurance
    requires p.mealVoucherDiscount == q.mealVoucherDiscount
    requires p.transportVoucherDiscount == q.transportVoucherDiscount
    requires p.unionDues == q.unionDues && p.otherDeductions == q.otherDeductions
    ensures CalculateDeductions(p).1 == CalculateDeductions(q).1
    ensures (p.inssAmount.None? && p.irrfAmount.None? && p.healthInsurance.None?
             && p.dentalInsurance.None? && p.mealVoucherDiscount.None?
             && p.transportVoucherDiscount.None? && p.unionDues.None? && p.otherDeductions.None?)
            ==> CalculateDeductions(p).1 == 0.0
  {
  }

  /** A bonus raises the net salary by its amount; a union due lowers it by
      its amount. */
  lemma NetSalaryMoves(p: Payroll, x: real)
    ensures CalculateNetSalary(p.(bonusAmount := Some(x))).1 == CalculateNetSalary(p.(bonusAmount := None)).1 + x
    ensures CalculateNetSalary(p.(unionDues := Some(x))).1 == CalculateNetSalary(p.(unionDues := None)).1 - x
  {
  }

  /** `calculate_net_salary`: recomputes gross and deductions, then stores
      and returns their difference. */
  function CalculateNetSalary(p: Payroll): (r: (Payroll, real))
    ensures r.0.grossSalary == CalculateGrossSalary(p).1
    ensures r.0.totalDeductions == CalculateDeductions(p).1
    ensures r.1 == r.0.grossSalary - r.0.totalDeductions && r.0.netSalary == r.1
    ensures r.0 == p.(grossSalary := r.0.grossSalary, totalDeductions := r.0.totalDeductions, netSalary := r.1)
  {
    var (p1, g) := CalculateGrossSalary(p);
    var (p2, d) := CalculateDeductions(p1);
    (p2.(netSalary := g - d), g - d)
  }

  /** Unset amounts weigh exactly like explicit zeros. */
  lemma NetSalaryTreatsNoneAsZero(p: Payroll)
    ensures CalculateNetSalary(p).1 == CalculateNetSalary(p.(
      baseSalary := Some(OrZero(p.baseSalary)), overtimeAmount := Some(OrZero(p.overtimeAmount)),
      bonusAmount := Some(OrZero(p.bonusAmount)), commissionAmount := Some(OrZero(p.commissionAmount)),
      otherEarnings := Some(OrZero(p.otherEarnings)), inssAmount := Some(OrZero(p.inssAmount)),
      irrfAmount := Some(OrZero(p.irrfAmount)), healthInsurance := Some(OrZero(p.healthInsurance)),
      dentalInsurance := Some(OrZero(p.dentalInsurance)),
      mealVoucherDiscount := Some(OrZero(p.mealVoucherDiscount)),
      transportVoucherDiscount := Some(OrZero(p.transportVoucherDiscount)),
      unionDues := Some(OrZero(p.unionDues)), otherDeductions := Some(OrZero(p.otherDeductions)))).1
  {
  }

  /** Recomputing the net salary of a recomputed payroll changes nothing. */
  lemma NetSalaryIdempotent(p: Payroll)
    ensures CalculateNetSalary(CalculateNetSalary(p).0) == CalculateNetSalary(p)
  {
  }

  /** Working hours per month assumed by `calculate_overtime` (8 x 22). */
  const MonthlyHours: real := 220.0

  /** The default `overtime_multiplier`. */
  const DefaultOvertimeMultiplier: real := 1.5

  predicate Truthy(x: Option<real>) {
    x.Some? && x.value != 0.0
  }

  /** Hours times hourly rate times multiplier. */
  function OvertimePay(hours: real, rate: real, multiplier: real): real {
    hours * rate * multiplier
  }

  /** `calculate_overtime(hourly_rate, overtime_multiplier)`: without a
      (non-zero) rate, a positive base salary gives base / 220; with a rate and
      positive overtime hours the amount is hours x rate x multiplier,
      otherwise the stored amount is kept. Comparing an unset base salary
      with 0 raises. */
  function CalculateOvertime(p: Payroll, hourlyRate: Option<real>, multiplier: real): (r: Result<(Payroll, Option<real>)>)
    ensures r.Err? <==> !Truthy(hourlyRate) && p.baseSalary.None?
    ensures r.Ok? ==> r.value.1 == r.value.0.overtimeAmount
    ensures r.Ok? ==> r.value.0 == p.(overtimeAmount := r.value.1)
    ensures r.Ok? && Truthy(hourlyRate) && p.overtimeHours > 0.0
      ==> r.value.1 == Some(OvertimePay(p.overtimeHours, hourlyRate.value, multiplier))
    ensures r.Ok? && !Truthy(hourlyRate) && p.baseSalary.value > 0.0 && p.overtimeHours > 0.0
      ==> r.value.1 == Some(OvertimePay(p.overtimeHours, p.baseSalary.value / MonthlyHours, multiplier))
    ensures r.Ok? && (p.overtimeHours <= 0.0 || (!Truthy(hourlyRate) && p.baseSalary.value <= 0.0))
      ==> r.value.1 == p.overtimeAmount
  {
    if !Truthy(hourlyRate) && p.baseSalary.None? then
      Err(TypeError("'>' not supported between instances of 'NoneType' and 'int'"))
    else
      var rate: real := if Truthy(hourlyRate) then hourlyRate.value
        else if p.baseSalary.value > 0.0 then p.baseSalary.value / MonthlyHours
        else 0.0;
      if rate != 0.0 && p.overtimeHours > 0.0 then
        var amount := Some(OvertimePay(p.overtimeHours, rate, multiplier));
        Ok((p.(overtimeAmount := amount), amount))
      else
        Ok((p, p.overtimeAmount))
  }

  /** With the default multiplier and rate, overtime pays time and a half of
      the base salary's hourly share. */
  lemma DefaultOvertime(p: Payroll)
    requires p.baseSalary.Some? && p.baseSalary.value > 0.0 && p.overtimeHours > 0.0
    ensures CalculateOvertime(p, None, DefaultOvertimeMultiplier).Ok?
    ensures CalculateOvertime(p, None, DefaultOvertimeMultiplier).value.1.value * MonthlyHours
      == p.overtimeHours * p.baseSalary.value * 1.5
  {
    var b := p.baseSalary.value;
    assert OvertimePay(p.overtimeHours, b / MonthlyHours, 1.5) * MonthlyHours == p.overtimeHours * b * 1.5;
  }
}

=== FILE: forms_core.dfy ===
/** The reusable form cleaners of core/forms.py: search queries, date
    ranges, dynamic choice lists, comma-separated id lists and file uploads.
    The sales and supplier forms repeat several of these with their own
    messages; they are instances of the helpers defined here. */
module CoreForms {
  import opened Wrappers
  import opened Text

  // ---------------------------------------------------------------------
  // Search queries

  /** A `clean_query`: the stripped query, refused when it is non-empty but
      shorter than two characters. */
  function CleanQuery(query: string): (r: Result<string>)
    ensures r.Ok? <==> |Strip(query)| != 1
    ensures r.Ok? ==> r.value == Strip(query) && IsStripped(r.value)
    ensures r.Err? ==> r.error == FieldError("query", "A busca deve ter pelo menos 2 caracteres.")
  {
    StripSpec(query);
    var q := Strip(query);
    if |q| < 2 && q != "" then Err(FieldError("query", "A busca deve ter pelo menos 2 caracteres."))
    else Ok(q)
  }

  /** Cleaning a cleaned query gives it back. */
  lemma CleanQueryIdempotent(query: string)
    requires CleanQuery(query).Ok?
    ensures CleanQuery(CleanQuery(query).value) == CleanQuery(query)
  {
    StripIdempotent(query);
  }

  // ---------------------------------------------------------------------
  // Date ranges (dates are day numbers; absent ones are None)

  /** The shared rule of the report and search forms: with both dates
      present, an end before the start is refused; equal dates pass. */
  function EndNotBeforeStart(start: Option<int>, end: Option<int>, error: Error): (r: Outcome)
    ensures r.Fail? <==> start.Some? && end.Some? && end.value < start.value
    ensures r.Fail? ==> r.error == error
  {
    if start.Some? && end.Some? && end.value < start.value then Fail(error) else Pass
  }

  /** `DateRangeForm.clean`: with both dates present, the start may not be
      after the end, and the end may not be after today. */
  function DateRangeClean(start: Option<int>, end: Option<int>, today: int): (r: Outcome)
    ensures start.None? || end.None? ==> r == Pass
    ensures r == Pass <==> start.None? || end.None? || (start.value <= end.value && end.value <= today)
    ensures start.Some? && end.Some? && start.value > end.value
      ==> r == Fail(NonFieldError("A data inicial deve ser anterior à data final."))
    ensures start.Some? && end.Some? && start.value <= end.value && end.value > today
      ==> r == Fail(NonFieldError("A data final não pode ser no futuro."))
  {
    if start.Some? && end.Some? then
      if start.value > end.value then Fail(NonFieldError("A data inicial deve ser anterior à data final."))
      else if end.value > today then Fail(NonFieldError("A data final não pode ser no futuro."))
      else Pass
    else Pass
  }

  // ---------------------------------------------------------------------
  // Choice lists

  datatype Choice = Choice(value: string, display: string)

  const DefaultStatusChoices: seq<Choice> :=
    [Choice("", "Todos"), Choice("active", "Ativo"), Choice("inactive", "Inativo")]

  const DefaultActionChoices: seq<Choice> :=
    [Choice("activate", "Ativar"), Choice("deactivate", "Desativar"), Choice("delete", "Excluir")]

  /** `FilterForm(status_choices=...)`: a non-empty list of choices is offered
      after an "all" entry; otherwise the default choices stay. */
  function FilterStatusChoices(statusChoices: Option<seq<Choice>>): (r: seq<Choice>)
    ensures statusChoices.Some? && |statusChoices.value| > 0
      ==> |r| == |statusChoices.value| + 1 && r[0] == Choice("", "Todos") && r[1..] == statusChoices.value
    ensures statusChoices.None? || |statusChoices.value| == 0 ==> r == DefaultStatusChoices
    ensures r[0] == Choice("", "Todos")
  {
    if statusChoices.Some? && |statusChoices.value| > 0 then [Choice("", "Todos")] + statusChoices.value
    else DefaultStatusChoices
  }

  /** `BulkActionForm(action_choices=...)`: a non-empty list replaces the
      default actions. */
  function BulkActionChoices(actionChoices: Option<seq<Choice>>): (r: seq<Choice>)
    ensures actionChoices.Some? && |actionChoices.value| > 0 ==> r == actionChoices.value
    ensures actionChoices.None? || |actionChoices.value| == 0 ==> r == DefaultActionChoices
    ensures |r| > 0
  {
    if actionChoices.Some? && |actionChoices.value| > 0 then actionChoices.value else DefaultActionChoices
  }

  // ---------------------------------------------------------------------
  // Comma-separated id lists

  /** The ids of a comma-separated list: each piece stripped, blank ones
      dropped. */
  function ParseIds(s: string): (r: seq<string>)
    ensures forall i :: 0 <= i < |r| ==> r[i] != "" && IsStripped(r[i])
  {
    NonBlank(Split(s, ','))
  }

  /** An empty field holds no ids. */
  lemma ParseIdsEmpty()
    ensures ParseIds("") == []
  {
    var pieces := Split("", ',');
    assert pieces == [""];
    assert TrimStart("") == "" && TrimEnd("") == "";
    assert Strip(pieces[0]) == "";
    assert pieces[1..] == [];
    assert NonBlank(pieces[1..]) == [];
  }

  /** A field without commas is one piece: its stripped text is the single id
      unless it is blank. */
  lemma ParseIdsOnePiece(t: string)
    requires ',' !in t
    ensures ParseIds(t) == (if Strip(t) != "" then [Strip(t)] else [])
  {
    SplitNonBlankSnoc("", t, ',');
  }

  /** A further comma-separated piece appends its stripped text when that is
      not blank and changes none of the ids before it. With `ParseIdsOnePiece`
      this fixes the ids of every field, in order. */
  lemma ParseIdsPieces(s: string, t: string)
    requires ',' !in t
    ensures ParseIds(s + "," + t) == ParseIds(s) + (if Strip(t) != "" then [Strip(t)] else [])
  {
    assert s + "," + t == s + [','] + t;
    SplitNonBlankSnoc(s, t, ',');
  }

  /** Two ids around a blank piece, as in `"1, ,2"`: the blank piece is
      dropped and the ids are kept, in order. */
  lemma ParseIdsDropsBlank(a: string, blank: string, b: string)
    requires a != "" && IsStripped(a) && ',' !in a
    requires b != "" && IsStripped(b) && ',' !in b
    requires AllSpace(blank) && ',' !in blank
    ensures ParseIds(a + "," + blank + "," + b) == [a, b]
  {
    var first := a + "," + blank;
    assert ParseIds(a) == [a] by {
      StripStripped(a);
      ParseIdsOnePiece(a);
    }
    assert ParseIds(first) == [a] by {
      TrimStartEmpty(blank);
      assert Strip(blank) == "";
      ParseIdsPieces(a, blank);
    }
    assert ParseIds(first + "," + b) == [a] + [b] by {
      StripStripped(b);
      ParseIdsPieces(first, b);
    }
  }

  /** The shape of `clean_selected_items` and `clean_selected_orders`: an
      empty field is refused with `emptyMessage`; a field with no id in it
      raises the same error inside the `try`, which the blanket `except`
      turns into `invalidMessage`. */
  function SelectedIds(field: string, s: string, emptyMessage: string, invalidMessage: string): (r: Result<seq<string>>)
    ensures s == "" ==> r == Err(FieldError(field, emptyMessage))
    ensures s != "" && ParseIds(s) == [] ==> r == Err(FieldError(field, invalidMessage))
    ensures r.Ok? <==> s != "" && ParseIds(s) != []
    ensures r.Ok? ==> r.value == ParseIds(s)
  {
    if s == "" then Err(FieldError(field, emptyMessage))
    else
      var ids := ParseIds(s);
      if ids == [] then Err(FieldError(field, invalidMessage)) else Ok(ids)
  }

  /** `BulkActionForm.clean_selected_items`. */
  function CleanSelectedItems(s: string): (r: Result<seq<string>>)
    ensures r.Ok? <==> s != "" && ParseIds(s) != []
    ensures r.Ok? ==> |r.value| > 0 && r.value == ParseIds(s)
    ensures s == "" ==> r == Err(FieldError("selected_items", "Selecione pelo menos um item."))
    ensures s != "" && r.Err? ==> r == Err(FieldError("selected_items", "IDs dos itens selecionados são inválidos."))
  {
    SelectedIds("selected_items", s, "Selecione pelo menos um item.", "IDs dos itens selecionados são inválidos.")
  }

  /** Joining ids with commas and cleaning the result gives the ids back. */
  lemma SelectedIdsRoundTrip(ids: seq<string>)
    requires |ids| > 0
    requires forall i :: 0 <= i < |ids| ==> ids[i] != "" && IsStripped(ids[i]) && ',' !in ids[i]
    ensures CleanSelectedItems(Join(ids, ",")) == Ok(ids)
  {
    NonBlankRoundTrip(ids, ',');
  }

  /** A field holding only commas and blanks is non-empty yet holds no id:
      it gets the "invalid" message, not the "select one" message. */
  lemma OnlySeparatorsAreInvalid()
    ensures CleanSelectedItems(" , ") == Err(FieldError("selected_items", "IDs dos itens selecionados são inválidos."))
  {
    assert " , " == " " + [','] + " ";
    SplitCons(" ", " ", ',');
    SplitNoSep(" ", ',');
    assert Split(" , ", ',') == [" ", " "];
    assert TrimStart(" ") == "";
    assert Strip(" ") == "";
    assert NonBlank([" "]) == [];
  }

  // ---------------------------------------------------------------------
  // Uploaded files

  /** An uploaded file: a Django `File` is truthy exactly when it has a name. */
  datatype Upload = Upload(name: string, size: int)

  const MaxUploadBytes: int := 5 * 1024 * 1024

  const AllowedExtensions: seq<string> := [".csv", ".xlsx", ".xls"]

  /** `'.' + name.split('.')[-1].lower()`: the text after the last dot, or
      the whole name when it has no dot. */
  function Extension(name: string): (r: string)
    ensures |r| >= 1 && r[0] == '.'
  {
    "." + Lower(LastPiece(name, '.'))
  }

  /** The extension is the lower-cased text after the last dot, whatever
      comes before it, and a name without a dot is its own extension. */
  lemma ExtensionAfterLastDot(base: string, ext: string, name: string)
    requires '.' !in ext
    ensures Extension(base + "." + ext) == "." + Lower(ext)
    ensures '.' !in name ==> Extension(name) == "." + Lower(name)
  {
    assert base + "." + ext == base + ['.'] + ext;
    LastPieceAfterSep(base, ext, '.');
    if '.' !in name {
      SplitNoSep(name, '.');
    }
  }

  /** The `clean_file` of `ImportForm` and `SupplierImportForm`: an absent or
      unnamed file passes; otherwise the size limit is checked first, then
      the extension. */
  function CleanFile(file: Option<Upload>): (r: Result<Option<Upload>>)
    ensures r.Ok? ==> r.value == file
    ensures file.None? || file.value.name == "" ==> r.Ok?
    ensures file.Some? && file.value.name != "" ==>
      (r.Ok? <==> file.value.size <= MaxUploadBytes && Extension(file.value.name) in AllowedExtensions)
    ensures file.Some? && file.value.name != "" && file.value.size > MaxUploadBytes
      ==> r == Err(FieldError("file", "O arquivo deve ter no máximo 5MB."))
    ensures file.Some? && file.value.name != "" && file.value.size <= MaxUploadBytes
      && Extension(file.value.name) !in AllowedExtensions
      ==> r == Err(FieldError("file", "Formato de arquivo não suportado. Use: .csv, .xlsx, .xls"))
  {
    if file.Some? && file.value.name != "" then
      if file.value.size > MaxUploadBytes then Err(FieldError("file", "O arquivo deve ter no máximo 5MB."))
      else if Extension(file.value.name) !in AllowedExtensions then
        Err(FieldError("file", "Formato de arquivo não suportado. Use: .csv, .xlsx, .xls"))
      else Ok(file)
    else Ok(file)
  }

  /** Within the size limit, a named upload passes exactly when the
      lower-cased text after its last dot is csv, xlsx or xls. */
  lemma CleanFileByLastExtension(base: string, ext: string, size: int)
    requires '.' !in ext && size <= MaxUploadBytes
    ensures CleanFile(Some(Upload(base + "." + ext, size))).Ok? <==> "." + Lower(ext) in AllowedExtensions
  {
    ExtensionAfterLastDot(base, ext, ext);
    assert |base + "." + ext| > 0;
  }

  /** Any base name followed by ".csv" is accepted at up to 5 MiB. */
  lemma CsvAccepted(base: string, size: int)
    requires size <= MaxUploadBytes
    ensures CleanFile(Some(Upload(base + ".csv", size))) == Ok(Some(Upload(base + ".csv", size)))
  {
    assert base + ".csv" == base + ['.'] + "csv";
    LastPieceAfterSep(base, "csv", '.');
    LowerCsv();
    assert Extension(base + ".csv") == ".csv";
  }

  lemma LowerCsv()
    ensures Lower("csv") == "csv"
  {
    var l := Lower("csv");
    assert l[0] == 'c' && l[1] == 's' && l[2] == 'v';
  }

  /** Only the text after the last dot counts, and without a dot the whole
      name does: a file called just "csv" passes the extension check. */
  lemma DotlessNameTakenAsExtension()
    ensures Extension("csv") == ".csv"
    ensures CleanFile(Some(Upload("csv", 10))).Ok?
  {
    SplitNoSep("csv", '.');
    LowerCsv();
  }
}

=== FILE: forms_financial.dfy ===
/** The cleaners of financial/forms.py: three date-order checks, each
    attached to a field. */
module FinancialForms {
  import opened Wrappers
  import CoreForms

  /** `AccountsReceivableForm.clean`: the due date may not precede the issue date. */
  function ReceivableClean(issueDate: Option<int>, dueDate: Option<int>): (r: Outcome)
    ensures r.Fail? <==> issueDate.Some? && dueDate.Some? && dueDate.value < issueDate.value
    ensures r.Fail? ==> r.error == FieldError("due_date", "A data de vencimento deve ser posterior à data de emissão.")
  {
    CoreForms.EndNotBeforeStart(issueDate, dueDate,
      FieldError("due_date", "A data de vencimento deve ser posterior à data de emissão."))
  }

  /** `AccountsPayableForm.clean`: the due date may not precede the invoice date. */
  function PayableClean(invoiceDate: Option<int>, dueDate: Option<int>): (r: Outcome)
    ensures r.Fail? <==> invoiceDate.Some? && dueDate.Some? && dueDate.value < invoiceDate.value
    ensures r.Fail? ==> r.error == FieldError("due_date", "A data de vencimento deve ser posterior à data da fatura.")
  {
    CoreForms.EndNotBeforeStart(invoiceDate, dueDate,
      FieldError("due_date", "A data de vencimento deve ser posterior à data da fatura."))
  }

  /** `FinancialReportForm.clean`. */
  function FinancialReportClean(start: Option<int>, end: Option<int>): (r: Outcome)
    ensures r.Fail? <==> start.Some? && end.Some? && end.value < start.value
    ensures r.Fail? ==> r.error == FieldError("end_date", "A data final deve ser posterior à data inicial.")
  {
    CoreForms.EndNotBeforeStart(start, end, FieldError("end_date", "A data final deve ser posterior à data inicial."))
  }

  /** In all three forms equal dates pass and a missing date skips the check. */
  lemma FinancialFormsLenient(d: int, other: Option<int>)
    ensures ReceivableClean(Some(d), Some(d)) == Pass && PayableClean(Some(d), Some(d)) == Pass
    ensures FinancialReportClean(Some(d), Some(d)) == Pass
    ensures ReceivableClean(None, other) == Pass && ReceivableClean(other, None) == Pass
    ensures PayableClean(None, other) == Pass && PayableClean(other, None) == Pass
    ensures FinancialReportClean(None, other) == Pass && FinancialReportClean(other, None) == Pass
  {
  }
}

=== FILE: forms_inventory.dfy ===
/** The cleaners of inventory/forms.py. Categories are given by the stored
    parent links (`parents[c]` is the parent of category `c`); stock comes
    from the movement ledger. Numbers in messages are rendered by `show`,
    which stands for Python's `str()` of a decimal. */
module InventoryForms {
  import opened Wrappers
  import opened Text
  import Inventory
  import CoreForms

  type CategoryId = nat

  // ---------------------------------------------------------------------
  // CategoryForm

  /** The outcome of `CategoryForm.clean`. The parent walk follows stored
      links and never ends on a stored cycle that avoids the edited category;
      that outcome is `Diverges`. */
  datatype CategoryVerdict = Accepted | Rejected(error: Error) | Diverges

  /** The `n`-th category up the parent chain from `start` (`start` itself
      for `n == 0`); None once the chain has ended. */
  function Ancestor(parents: map<CategoryId, Option<CategoryId>>, start: Option<CategoryId>, n: nat): Option<CategoryId>
    decreases n
  {
    if n == 0 then start
    else if start.None? || start.value !in parents then None
    else Ancestor(parents, parents[start.value], n - 1)
  }

  lemma FewerUnvisited(keys: set<CategoryId>, visited: set<CategoryId>, c: CategoryId)
    requires c in keys && c !in visited
    ensures |keys - (visited + {c})| < |keys - visited|
  {
    assert keys - visited == (keys - (visited + {c})) + {c};
  }

  /** The `while current:` loop: CycleFound when it meets `instance`,
      Ended when the chain runs out, Loops when it comes back to a category
      it already passed. */
  datatype Walk = CycleFound | Ended | Loops

  function WalkUp(parents: map<CategoryId, Option<CategoryId>>, current: Option<CategoryId>,
                  instance: CategoryId, visited: set<CategoryId>): (r: Walk)
    decreases |parents.Keys - visited|
  {
    if current.None? then Ended
    else if current.value == instance then CycleFound
    else if current.value in visited then Loops
    else if current.value !in parents then Ended
    else
      FewerUnvisited(parents.Keys, visited, current.value);
      WalkUp(parents, parents[current.value], instance, visited + {current.value})
  }

  /** The walk reports a cycle only when the category really is an ancestor
      of the chosen parent, and ends quietly only when it is not one. */
  lemma {:induction false} WalkUpSound(parents: map<CategoryId, Option<CategoryId>>, current: Option<CategoryId>,
                                       instance: CategoryId, visited: set<CategoryId>)
    ensures WalkUp(parents, current, instance, visited) == CycleFound
      ==> exists n: nat :: Ancestor(parents, current, n) == Some(instance)
    ensures WalkUp(parents, current, instance, visited) == Ended
      ==> forall n: nat :: Ancestor(parents, current, n) != Some(instance)
    decreases |parents.Keys - visited|
  {
    if current.None? {
      forall n: nat ensures Ancestor(parents, current, n) != Some(instance) {
      }
    } else if current.value == instance {
      assert Ancestor(parents, current, 0) == Some(instance);
    } else if current.value in visited {
    } else if current.value !in parents {
      forall n: nat ensures Ancestor(parents, current, n) != Some(instance) {
      }
    } else {
      var next := parents[current.value];
      FewerUnvisited(parents.Keys, visited, current.value);
      WalkUpSound(parents, next, instance, visited + {current.value});
      if WalkUp(parents, current, instance, visited) == CycleFound {
        var n: nat :| Ancestor(parents, next, n) == Some(instance);
        assert Ancestor(parents, current, n + 1) == Some(instance);
      }
      if WalkUp(parents, current, instance, visited) == Ended {
        forall n: nat ensures Ancestor(parents, current, n) != Some(instance) {
          if n > 0 {
            assert Ancestor(parents, current, n) == Ancestor(parents, next, n - 1);
          }
        }
      }
    }
  }

  /** `CategoryForm.clean`: a category may not be its own parent, and the
      chosen parent's ancestry may not lead back to it. Every category has
      its key from creation on, so the walk always runs. */
  function CategoryClean(parents: map<CategoryId, Option<CategoryId>>, instance: CategoryId,
                         parent: Option<CategoryId>): (r: CategoryVerdict)
    ensures parent == Some(instance) ==> r == Rejected(NonFieldError("Uma categoria não pode ser pai de si mesma."))
    ensures parent.None? ==> r == Accepted
    ensures r.Rejected? && parent != Some(instance)
      ==> r.error == NonFieldError("Referência circular detectada na hierarquia de categorias.")
          && exists n: nat :: Ancestor(parents, parent, n) == Some(instance)
    ensures r == Accepted ==> forall n: nat :: Ancestor(parents, parent, n) != Some(instance)
  {
    if parent == Some(instance) then Rejected(NonFieldError("Uma categoria não pode ser pai de si mesma."))
    else if parent.Some? then
      WalkUpSound(parents, parent, instance, {});
      match WalkUp(parents, parent, instance, {})
      case CycleFound => Rejected(NonFieldError("Referência circular detectada na hierarquia de categorias."))
      case Ended => Accepted
      case Loops => Diverges
    else Accepted
  }

  /** A category chosen as parent of its own parent is caught. */
  lemma TwoCycleRejected(parents: map<CategoryId, Option<CategoryId>>, instance: CategoryId, parent: CategoryId)
    requires parent != instance && parent in parents && parents[parent] == Some(instance)
    ensures CategoryClean(parents, instance, Some(parent))
      == Rejected(NonFieldError("Referência circular detectada na hierarquia de categorias."))
  {
    assert WalkUp(parents, Some(instance), instance, {parent}) == CycleFound;
    assert WalkUp(parents, Some(parent), instance, {}) == CycleFound;
  }

  /** A parent whose own chain ends without meeting the category is
      accepted. */
  lemma RootParentAccepted(parents: map<CategoryId, Option<CategoryId>>, instance: CategoryId, parent: CategoryId)
    requires parent != instance && parent in parents && parents[parent].None?
    ensures CategoryClean(parents, instance, Some(parent)) == Accepted
  {
    assert WalkUp(parents, None, instance, {parent}) == Ended;
    assert WalkUp(parents, Some(parent), instance, {}) == Ended;
  }

  /** `CategoryForm.__init__`: the parent choices leave out the category
      itself and its direct children. */
  function ParentChoices(parents: map<CategoryId, Option<CategoryId>>, instance: CategoryId): (r: set<CategoryId>)
    ensures r <= parents.Keys
    ensures instance !in r && forall c :: c in r ==> parents[c] != Some(instance)
    ensures forall c :: c in parents.Keys && c != instance && parents[c] != Some(instance) ==> c in r
  {
    set c | c in parents.Keys && c != instance && parents[c] != Some(instance)
  }

  /** Any offered parent passes the self-parent check, and one that is not
      a descendant at all passes the whole clean. */
  lemma OfferedParentNotSelf(parents: map<CategoryId, Option<CategoryId>>, instance: CategoryId, c: CategoryId)
    requires c in ParentChoices(parents, instance)
    ensures CategoryClean(parents, instance, Some(c)) != Rejected(NonFieldError("Uma categoria não pode ser pai de si mesma."))
    ensures (forall n: nat :: Ancestor(parents, Some(c), n) != Some(instance))
      ==> CategoryClean(parents, instance, Some(c)) != Rejected(NonFieldError("Referência circular detectada na hierarquia de categorias."))
  {
  }

  // ---------------------------------------------------------------------
  // MaterialForm / ProductForm

  predicate Truthy(x: Option<real>) {
    x.Some? && x.value != 0.0
  }

  /** The stock-level rule shared by `MaterialForm.clean` and
      `ProductForm.clean`: when both levels are set and non-zero, the minimum
      must be strictly below the maximum. */
  function StockLevelsClean(minimumStock: Option<real>, maximumStock: Option<real>): (r: Outcome)
    ensures r.Fail? <==> Truthy(minimumStock) && Truthy(maximumStock) && minimumStock.value >= maximumStock.value
    ensures r.Fail? ==> r.error == FieldError("minimum_stock", "O estoque mínimo deve ser menor que o estoque máximo.")
  {
    if Truthy(minimumStock) && Truthy(maximumStock) && minimumStock.value >= maximumStock.value then
      Fail(FieldError("minimum_stock", "O estoque mínimo deve ser menor que o estoque máximo."))
    else Pass
  }

  /** A zero minimum skips the comparison, even against a negative maximum. */
  lemma ZeroMinimumSkipsCheck(maximumStock: real)
    ensures StockLevelsClean(Some(0.0), Some(maximumStock)) == Pass
  {
  }

  // ---------------------------------------------------------------------
  // StockMovementForm

  function StockOf(ledger: seq<Inventory.StockMovement>, material: Option<Inventory.Id>, product: Option<Inventory.Id>): real {
    if material.Some? then Inventory.CurrentStock(ledger, Inventory.MaterialItem(material.value))
    else if product.Some? then Inventory.CurrentStock(ledger, Inventory.ProductItem(product.value))
    else 0.0
  }

  /** `StockMovementForm.clean` as written: exactly one of material and
      product, then a stock check for movements of type 'exit' with a
      non-zero quantity. */
  function StockMovementFormClean(ledger: seq<Inventory.StockMovement>, material: Option<Inventory.Id>,
                                  product: Option<Inventory.Id>, movementType: string, quantity: Option<real>,
                                  show: real -> string): (r: Outcome)
    ensures material.None? && product.None? ==> r == Fail(NonFieldError("Selecione um material ou produto."))
    ensures material.Some? && product.Some?
      ==> r == Fail(NonFieldError("Selecione apenas um material ou produto, não ambos."))
    ensures r.Pass? ==> material.Some? != product.Some?
    ensures r.Fail? && material.Some? != product.Some?
      ==> movementType == "exit" && Truthy(quantity) && quantity.value > StockOf(ledger, material, product)
  {
    if material.None? && product.None? then Fail(NonFieldError("Selecione um material ou produto."))
    else if material.Some? && product.Some? then Fail(NonFieldError("Selecione apenas um material ou produto, não ambos."))
    else if movementType == "exit" && Truthy(quantity) then
      var stock := StockOf(ledger, material, product);
      if quantity.value > stock then
        Fail(FieldError("quantity", "Quantidade insuficiente em estoque. Disponível: " + show(stock)))
      else Pass
    else Pass
  }

  /** No movement type is called 'exit', so for every type the form can
      post the stock check never runs: any quantity of any item passes. */
  lemma StockCheckNeverFires(ledger: seq<Inventory.StockMovement>, material: Option<Inventory.Id>,
                             product: Option<Inventory.Id>, t: Inventory.MovementType, quantity: Option<real>,
                             show: real -> string)
    requires material.Some? != product.Some?
    ensures StockMovementFormClean(ledger, material, product, t.Code(), quantity, show) == Pass
  {
  }

  /** The same clean checking outgoing movements, whose type is 'out'. */
  function StockMovementFormCleanCorrected(ledger: seq<Inventory.StockMovement>, material: Option<Inventory.Id>,
                                           product: Option<Inventory.Id>, movementType: string, quantity: Option<real>,
                                           show: real -> string): (r: Outcome)
    ensures material.None? && product.None? ==> r == Fail(NonFieldError("Selecione um material ou produto."))
    ensures material.Some? && product.Some?
      ==> r == Fail(NonFieldError("Selecione apenas um material ou produto, não ambos."))
    ensures r.Pass? ==> material.Some? != product.Some?
    ensures material.Some? != product.Some? && movementType == Inventory.MovementType.Out.Code() && Truthy(quantity)
      ==> (r.Pass? <==> quantity.value <= StockOf(ledger, material, product))
  {
    if material.None? && product.None? then Fail(NonFieldError("Selecione um material ou produto."))
    else if material.Some? && product.Some? then Fail(NonFieldError("Selecione apenas um material ou produto, não ambos."))
    else if movementType == Inventory.MovementType.Out.Code() && Truthy(quantity) then
      var stock := StockOf(ledger, material, product);
      if quantity.value > stock then
        Fail(FieldError("quantity", "Quantidade insuficiente em estoque. Disponível: " + show(stock)))
      else Pass
    else Pass
  }

  /** With the corrected check, an accepted outgoing material movement,
      once saved and recorded, leaves the material's stock non-negative. */
  lemma CorrectedOutKeepsStock(ledger: seq<Inventory.StockMovement>, m: Inventory.StockMovement, show: real -> string)
    requires m.material.Some? && m.product.None? && m.movementType == Inventory.Out && m.quantity > 0.0
    requires StockMovementFormCleanCorrected(ledger, m.material, None, "out", Some(m.quantity), show).Pass?
    ensures Inventory.Save(m).Ok?
    ensures Inventory.CurrentStock(ledger + [Inventory.Save(m).value], Inventory.MaterialItem(m.material.value)) >= 0.0
  {
    Inventory.RecordMovement(ledger, Inventory.Save(m).value, Inventory.MaterialItem(m.material.value));
  }

  // ---------------------------------------------------------------------
  // StockAdjustmentForm, InventoryReportForm, MaterialTransferForm

  /** `StockAdjustmentForm.clean`: a 'decrease' may not exceed the
      material's stock ('increase' and 'set' are not checked). Comparing a
      missing quantity raises. */
  function StockAdjustmentClean(ledger: seq<Inventory.StockMovement>, material: Option<Inventory.Id>,
                                adjustmentType: string, quantity: Option<real>, show: real -> string): (r: Outcome)
    ensures material.None? || adjustmentType != "decrease" ==> r == Pass
    ensures material.Some? && adjustmentType == "decrease" && quantity.Some?
      ==> (r.Pass? <==> quantity.value <= Inventory.CurrentStock(ledger, Inventory.MaterialItem(material.value)))
    ensures material.Some? && adjustmentType == "decrease" && quantity.None? ==> r.Fail? && r.error.TypeError?
  {
    if material.Some? && adjustmentType == "decrease" then
      var stock := Inventory.CurrentStock(ledger, Inventory.MaterialItem(material.value));
      if quantity.None? then Fail(TypeError("'>' not supported between instances of 'NoneType' and 'Decimal'"))
      else if quantity.value > stock then
        Fail(NonFieldError("Não é possível diminuir " + show(quantity.value) + " unidades. Estoque atual: " + show(stock)))
      else Pass
    else Pass
  }

  /** `InventoryReportForm.clean`. */
  function InventoryReportClean(start: Option<int>, end: Option<int>): (r: Outcome)
    ensures r.Fail? <==> start.Some? && end.Some? && end.value < start.value
    ensures r.Fail? ==> r.error == NonFieldError("A data final deve ser posterior à data inicial.")
  {
    CoreForms.EndNotBeforeStart(start, end, NonFieldError("A data final deve ser posterior à data inicial."))
  }

  /** `MaterialTransferForm.clean`: origin and destination, when both given,
      must differ ignoring case. */
  function MaterialTransferClean(fromLocation: string, toLocation: string): (r: Outcome)
    ensures r.Fail? <==> fromLocation != "" && toLocation != "" && Lower(fromLocation) == Lower(toLocation)
    ensures r.Fail? ==> r.error == NonFieldError("As localizações de origem e destino devem ser diferentes.")
  {
    if fromLocation != "" && toLocation != "" && Lower(fromLocation) == Lower(toLocation) then
      Fail(NonFieldError("As localizações de origem e destino devem ser diferentes."))
    else Pass
  }

  /** The transfer check is symmetric, refuses any non-empty location sent
      to itself, and ignores case. */
  lemma MaterialTransferProperties(a: string, b: string)
    ensures MaterialTransferClean(a, b) == MaterialTransferClean(b, a)
    ensures a != "" ==> MaterialTransferClean(a, a).Fail?
    ensures a != "" ==> MaterialTransferClean(a, Upper(a)).Fail?
  {
    if a != "" {
      assert Lower(Upper(a)) == Lower(a) by {
        forall i | 0 <= i < |a| ensures Lower(Upper(a))[i] == Lower(a)[i] {
        }
      }
    }
  }
}

=== FILE: forms_production.dfy ===
/** The cleaners of production/forms.py. Date-times are instants and `now`
    is passed in. */
module ProductionForms {
  import opened Wrappers
  import CoreModels
  import CoreForms

  /** `ProductionOrderForm.clean` as written: with both dates present, the
      start may not be after the end, and a record without a primary key
      may not start in the past. */
  function ProductionOrderClean(start: Option<int>, end: Option<int>, pk: Option<CoreModels.Uuid>, now: int): (r: Outcome)
    ensures start.None? || end.None? ==> r == Pass
    ensures start.Some? && end.Some? && start.value > end.value
      ==> r == Fail(FieldError("planned_end_date", "A data de fim deve ser posterior à data de início."))
    ensures start.Some? && end.Some? && start.value <= end.value
      ==> (r.Fail? <==> pk.None? && start.value < now)
    ensures r.Fail? && start.value <= end.value
      ==> r.error == FieldError("planned_start_date", "A data de início não pode ser no passado.")
  {
    if start.Some? && end.Some? then
      if start.value > end.value then
        Fail(FieldError("planned_end_date", "A data de fim deve ser posterior à data de início."))
      else if pk.None? && start.value < now then
        Fail(FieldError("planned_start_date", "A data de início não pode ser no passado."))
      else Pass
    else Pass
  }

  /** A form for a new order builds a fresh model instance, whose UUID key is
      drawn at construction: the key is present, so a start in the past is
      accepted for a brand-new order. */
  lemma NewOrderPastStartAccepted(id: CoreModels.Uuid, start: int, end: int, now: int)
    requires start <= end && start < now
    ensures ProductionOrderClean(Some(start), Some(end), Some(CoreModels.NewBase(id).id), now) == Pass
  {
  }

  /** The clean with "new" read from the instance's database state. */
  function ProductionOrderCleanCorrected(start: Option<int>, end: Option<int>, instance: CoreModels.BaseFields, now: int): (r: Outcome)
    ensures start.None? || end.None? ==> r == Pass
    ensures start.Some? && end.Some? && start.value > end.value
      ==> r == Fail(FieldError("planned_end_date", "A data de fim deve ser posterior à data de início."))
    ensures start.Some? && end.Some? && start.value <= end.value
      ==> (r.Fail? <==> instance.adding && start.value < now)
    ensures r.Fail? && start.value <= end.value
      ==> r.error == FieldError("planned_start_date", "A data de início não pode ser no passado.")
  {
    if start.Some? && end.Some? then
      if start.value > end.value then
        Fail(FieldError("planned_end_date", "A data de fim deve ser posterior à data de início."))
      else if instance.adding && start.value < now then
        Fail(FieldError("planned_start_date", "A data de início não pode ser no passado."))
      else Pass
    else Pass
  }

  /** With the corrected rule a new order may not start in the past, while
      an existing one may keep a past start. */
  lemma CorrectedRejectsPastStart(id: CoreModels.Uuid, start: int, end: int, now: int)
    requires start <= end && start < now
    ensures ProductionOrderCleanCorrected(Some(start), Some(end), CoreModels.NewBase(id), now).Fail?
    ensures ProductionOrderCleanCorrected(Some(start), Some(end), CoreModels.NewBase(id).(adding := false), now) == Pass
  {
  }

  /** `ProductionReportForm.clean`. */
  function ProductionReportClean(start: Option<int>, end: Option<int>): (r: Outcome)
    ensures r.Fail? <==> start.Some? && end.Some? && end.value < start.value
    ensures r.Fail? ==> r.error == NonFieldError("A data final deve ser posterior à data inicial.")
  {
    CoreForms.EndNotBeforeStart(start, end, NonFieldError("A data final deve ser posterior à data inicial."))
  }

  /** The declared bounds of `BulkProductionOrderForm`. `min_value=0.001`
      is a Python float, so the validator compares against the binary
      double nearest to 0.001, which lies just above 1/1000. */
  const MinQuantityPerOrder: real := 0.001
  const MinQuantityPerOrderFloat: real := 0.001000000000000000020816681711721685132943093776702880859375
  const MinNumberOfOrders: int := 1
  const MaxNumberOfOrders: int := 50
  const MinIntervalHours: int := 1
  const MaxIntervalHours: int := 168

  /** The field errors of the bulk form for a given quantity bound: each
      field out of its declared range gets Django's bound error (by code),
      and a start in the past gets the `clean_start_date` error. */
  function BulkErrors(minQuantity: real, quantityPerOrder: real, numberOfOrders: int, startDate: int,
                      intervalHours: int, now: int): (r: seq<Error>)
    ensures r == [] <==> (quantityPerOrder >= minQuantity
                          && MinNumberOfOrders <= numberOfOrders <= MaxNumberOfOrders
                          && startDate >= now
                          && MinIntervalHours <= intervalHours <= MaxIntervalHours)
    ensures FieldError("quantity_per_order", "min_value") in r <==> quantityPerOrder < minQuantity
    ensures FieldError("start_date", "A data de início não pode ser no passado.") in r <==> startDate < now
    ensures |r| <= 4
  {
    (if quantityPerOrder < minQuantity then [FieldError("quantity_per_order", "min_value")] else [])
    + (if numberOfOrders < MinNumberOfOrders then [FieldError("number_of_orders", "min_value")]
       else if numberOfOrders > MaxNumberOfOrders then [FieldError("number_of_orders", "max_value")]
       else [])
    + (if startDate < now then [FieldError("start_date", "A data de início não pode ser no passado.")] else [])
    + (if intervalHours < MinIntervalHours then [FieldError("interval_hours", "min_value")]
       else if intervalHours > MaxIntervalHours then [FieldError("interval_hours", "max_value")]
       else [])
  }

  /** `BulkProductionOrderForm` as written: `MinValueValidator(0.001)` runs
      `value < 0.001` with a `Decimal` on the left and the float on the
      right, an exact comparison, so 0.001 itself is below the bound. */
  function BulkProductionOrderErrors(quantityPerOrder: real, numberOfOrders: int, startDate: int,
                                     intervalHours: int, now: int): (r: seq<Error>)
    ensures r == [] <==> (quantityPerOrder > MinQuantityPerOrder
                          && quantityPerOrder >= MinQuantityPerOrderFloat
                          && MinNumberOfOrders <= numberOfOrders <= MaxNumberOfOrders
                          && startDate >= now
                          && MinIntervalHours <= intervalHours <= MaxIntervalHours)
    ensures FieldError("quantity_per_order", "min_value") in r <==> quantityPerOrder < MinQuantityPerOrderFloat
    ensures FieldError("start_date", "A data de início não pode ser no passado.") in r <==> startDate < now
    ensures |r| <= 4
  {
    BulkErrors(MinQuantityPerOrderFloat, quantityPerOrder, numberOfOrders, startDate, intervalHours, now)
  }

  /** As written, the declared minimum 0.001 is itself refused, and among
      quantities in thousandths (the field's three decimal places) the
      smallest accepted one is 0.002. */
  lemma SmallestQuantityRejected(k: int, now: int)
    ensures BulkProductionOrderErrors(MinQuantityPerOrder, 1, now, 24, now) == [FieldError("quantity_per_order", "min_value")]
    ensures BulkProductionOrderErrors(k as real / 1000.0, 1, now, 24, now) == [] <==> k >= 2
  {
  }

  /** The bulk form with the bound read as the decimal 0.001 it is written
      as, matching the widget's `min` attribute: 0.001 is accepted. */
  function BulkProductionOrderErrorsCorrected(quantityPerOrder: real, numberOfOrders: int, startDate: int,
                                              intervalHours: int, now: int): (r: seq<Error>)
    ensures r == [] <==> (quantityPerOrder >= MinQuantityPerOrder
                          && MinNumberOfOrders <= numberOfOrders <= MaxNumberOfOrders
                          && startDate >= now
                          && MinIntervalHours <= intervalHours <= MaxIntervalHours)
    ensures FieldError("quantity_per_order", "min_value") in r <==> quantityPerOrder < MinQuantityPerOrder
    ensures FieldError("start_date", "A data de início não pode ser no passado.") in r <==> startDate < now
    ensures |r| <= 4
  {
    BulkErrors(MinQuantityPerOrder, quantityPerOrder, numberOfOrders, startDate, intervalHours, now)
  }

  /** The corrected form accepts exactly the thousandths from 0.001 up, and
      differs from the form as written only on quantities between the
      decimal 0.001 and the float 0.001. */
  lemma CorrectedAcceptsMinimumQuantity(k: int, q: real, n: int, start: int, hours: int, now: int)
    ensures BulkProductionOrderErrorsCorrected(MinQuantityPerOrder, 1, now, 24, now) == []
    ensures BulkProductionOrderErrorsCorrected(k as real / 1000.0, 1, now, 24, now) == [] <==> k >= 1
    ensures BulkProductionOrderErrorsCorrected(q, n, start, hours, now) != BulkProductionOrderErrors(q, n, start, hours, now)
      ==> MinQuantityPerOrder <= q < MinQuantityPerOrderFloat
  {
  }

  /** `RecipeComparisonForm.clean`: two chosen recipes must differ. */
  function RecipeComparisonClean(recipe1: Option<nat>, recipe2: Option<nat>): (r: Outcome)
    ensures r.Fail? <==> recipe1.Some? && recipe1 == recipe2
    ensures r.Fail? ==> r.error == NonFieldError("Selecione receitas diferentes para comparação.")
  {
    if recipe1.Some? && recipe2.Some? && recipe1 == recipe2 then
      Fail(NonFieldError("Selecione receitas diferentes para comparação."))
    else Pass
  }
}

=== FILE: forms_sales.dfy ===
/** The cleaners of sales/forms.py. The search forms' `clean_query` is
    `CoreForms.CleanQuery`. */
module SalesForms {
  import opened Wrappers
  import opened Text
  import CoreForms

  /** `CustomerForm.clean_cnpj_cpf`: a non-empty document is reduced to its
      digits, which must number 11 for an individual and 14 for a company
      (other types have no rule); an empty one falls through to `None`. */
  function CustomerCleanCnpjCpf(cnpjCpf: string, customerType: string): (r: Result<Option<string>>)
    ensures cnpjCpf == "" ==> r == Ok(None)
    ensures r.Ok? && r.value.Some? ==> r.value.value == Digits(cnpjCpf) && AllDigits(r.value.value)
    ensures cnpjCpf != "" && customerType == "individual"
      ==> (r.Ok? <==> |Digits(cnpjCpf)| == 11)
    ensures cnpjCpf != "" && customerType == "company"
      ==> (r.Ok? <==> |Digits(cnpjCpf)| == 14)
    ensures customerType != "individual" && customerType != "company" ==> r.Ok?
    ensures r.Err? ==> r.error == FieldError("cnpj_cpf",
      if customerType == "individual" then "CPF deve ter 11 dígitos." else "CNPJ deve ter 14 dígitos.")
  {
    if cnpjCpf != "" then
      var d := Digits(cnpjCpf);
      if customerType == "individual" && |d| != 11 then Err(FieldError("cnpj_cpf", "CPF deve ter 11 dígitos."))
      else if customerType == "company" && |d| != 14 then Err(FieldError("cnpj_cpf", "CNPJ deve ter 14 dígitos."))
      else Ok(Some(d))
    else Ok(None)
  }

  /** A cleaned document cleans to itself. */
  lemma CustomerCleanCnpjCpfIdempotent(cnpjCpf: string, customerType: string)
    requires CustomerCleanCnpjCpf(cnpjCpf, customerType).Ok?
    requires CustomerCleanCnpjCpf(cnpjCpf, customerType).value.Some?
    requires Digits(cnpjCpf) != ""
    ensures CustomerCleanCnpjCpf(CustomerCleanCnpjCpf(cnpjCpf, customerType).value.value, customerType)
      == CustomerCleanCnpjCpf(cnpjCpf, customerType)
  {
  }

  /** `SalesOrderForm.clean`: a delivery date before today is refused;
      today itself is fine. */
  function SalesOrderClean(deliveryDate: Option<int>, today: int): (r: Outcome)
    ensures r.Fail? <==> deliveryDate.Some? && deliveryDate.value < today
    ensures r.Fail? ==> r.error == FieldError("delivery_date", "A data de entrega não pode ser no passado.")
  {
    if deliveryDate.Some? && deliveryDate.value < today then
      Fail(FieldError("delivery_date", "A data de entrega não pode ser no passado."))
    else Pass
  }

  /** `SalesReportForm.clean` and `SalesOrderSearchForm.clean`. */
  function SalesDateRangeClean(start: Option<int>, end: Option<int>): (r: Outcome)
    ensures r.Fail? <==> start.Some? && end.Some? && end.value < start.value
    ensures r.Fail? ==> r.error == NonFieldError("A data final deve ser posterior à data inicial.")
  {
    CoreForms.EndNotBeforeStart(start, end, NonFieldError("A data final deve ser posterior à data inicial."))
  }

  /** `BulkOrderStatusForm.clean_selected_orders`. */
  function CleanSelectedOrders(s: string): (r: Result<seq<string>>)
    ensures r.Ok? <==> s != "" && CoreForms.ParseIds(s) != []
    ensures r.Ok? ==> |r.value| > 0 && r.value == CoreForms.ParseIds(s)
    ensures s == "" ==> r == Err(FieldError("selected_orders", "Selecione pelo menos um pedido."))
    ensures s != "" && r.Err? ==> r == Err(FieldError("selected_orders", "IDs dos pedidos selecionados são inválidos."))
  {
    CoreForms.SelectedIds("selected_orders", s, "Selecione pelo menos um pedido.", "IDs dos pedidos selecionados são inválidos.")
  }

  /** Joining order ids with commas and cleaning the result gives the ids
      back. */
  lemma SelectedOrdersRoundTrip(ids: seq<string>)
    requires |ids| > 0
    requires forall i :: 0 <= i < |ids| ==> ids[i] != "" && IsStripped(ids[i]) && ',' !in ids[i]
    ensures CleanSelectedOrders(Join(ids, ",")) == Ok(ids)
  {
    NonBlankRoundTrip(ids, ',');
  }

  /** `CustomerSearchForm.clean_state`: the stripped, upper-cased state,
      which must be two characters when given. */
  function CleanState(state: string): (r: Result<string>)
    ensures r.Ok? <==> |Strip(state)| == 0 || |Strip(state)| == 2
    ensures r.Ok? ==> r.value == Upper(Strip(state)) && (|r.value| == 0 || |r.value| == 2)
    ensures r.Err? ==> r.error == FieldError("state", "O estado deve ter 2 caracteres.")
  {
    var s := Upper(Strip(state));
    if s != "" && |s| != 2 then Err(FieldError("state", "O estado deve ter 2 caracteres.")) else Ok(s)
  }

  lemma UpperIdempotent(s: string)
    ensures Upper(Upper(s)) == Upper(s)
  {
    assert forall i :: 0 <= i < |s| ==> Upper(Upper(s))[i] == Upper(s)[i];
  }

  lemma UpperKeepsStripped(s: string)
    requires IsStripped(s)
    ensures IsStripped(Upper(s))
  {
    if |s| > 0 {
      assert Upper(s)[0] == UpperChar(s[0]);
      assert Upper(s)[|s| - 1] == UpperChar(s[|s| - 1]);
    }
  }

  /** A cleaned state cleans to itself. */
  lemma CleanStateIdempotent(state: string)
    requires CleanState(state).Ok?
    ensures CleanState(CleanState(state).value) == CleanState(state)
  {
    var s := Strip(state);
    StripSpec(state);
    UpperKeepsStripped(s);
    StripStripped(Upper(s));
    UpperIdempotent(s);
  }
}

=== FILE: forms_suppliers.dfy ===
/** The cleaners of suppliers/forms.py. `SupplierSearchForm.clean_query` is
    `CoreForms.CleanQuery` and `SupplierImportForm.clean_file` is
    `CoreForms.CleanFile`. */
module SupplierForms {
  import opened Wrappers
  import opened Text

  /** `SupplierForm.clean_cnpj_cpf`, without the uniqueness lookup: the
      stripped document, whose digits must number 14 for a company and 11 for
      an individual; formatting is kept in the result. */
  function SupplierCleanCnpjCpf(cnpjCpf: string, supplierType: string): (r: Result<string>)
    ensures r.Ok? ==> r.value == Strip(cnpjCpf)
    ensures Strip(cnpjCpf) == "" ==> r.Ok?
    ensures Strip(cnpjCpf) != "" && supplierType == "company"
      ==> (r.Ok? <==> |Digits(Strip(cnpjCpf))| == 14)
    ensures Strip(cnpjCpf) != "" && supplierType == "individual"
      ==> (r.Ok? <==> |Digits(Strip(cnpjCpf))| == 11)
    ensures supplierType != "company" && supplierType != "individual" ==> r.Ok?
    ensures r.Err? ==> r.error == FieldError("cnpj_cpf",
      if supplierType == "company" then "CNPJ deve ter 14 dígitos." else "CPF deve ter 11 dígitos.")
  {
    var v := Strip(cnpjCpf);
    if v != "" then
      var d := Digits(v);
      if supplierType == "company" && |d| != 14 then Err(FieldError("cnpj_cpf", "CNPJ deve ter 14 dígitos."))
      else if supplierType == "individual" && |d| != 11 then Err(FieldError("cnpj_cpf", "CPF deve ter 11 dígitos."))
      else Ok(v)
    else Ok(v)
  }

  /** "DDDDD-DDD" from eight digits. */
  function FormatCep(d: string): (r: string)
    requires |d| == 8
    ensures |r| == 9 && r[5] == '-' && r[..5] == d[..5] && r[6..] == d[5..]
  {
    d[..5] + "-" + d[5..]
  }

  /** `SupplierForm.clean_postal_code`: a non-blank postal code must carry
      exactly eight digits and comes back as "DDDDD-DDD"; a blank one comes
      back stripped (empty). */
  function CleanPostalCode(postalCode: string): (r: Result<string>)
    ensures Strip(postalCode) == "" ==> r == Ok("")
    ensures Strip(postalCode) != "" ==> (r.Ok? <==> |Digits(Strip(postalCode))| == 8)
    ensures r.Ok? && r.value != "" ==> |r.value| == 9 && Digits(r.value) == Digits(Strip(postalCode))
    ensures r.Err? ==> r.error == FieldError("postal_code", "CEP deve ter 8 dígitos.")
  {
    var p := Strip(postalCode);
    if p != "" then
      var d := Digits(p);
      if |d| != 8 then Err(FieldError("postal_code", "CEP deve ter 8 dígitos."))
      else
        FormatCepDigits(d);
        Ok(FormatCep(d))
    else Ok(p)
  }

  /** The digits of a formatted CEP are the digits it was made from. */
  lemma FormatCepDigits(d: string)
    requires |d| == 8 && AllDigits(d)
    ensures Digits(FormatCep(d)) == d
  {
    DigitsAppend(d[..5] + "-", d[5..]);
    DigitsAppend(d[..5], "-");
    assert d[..5] + d[5..] == d;
  }

  /** A formatted CEP cleans to itself. */
  lemma CleanPostalCodeIdempotent(postalCode: string)
    requires CleanPostalCode(postalCode).Ok?
    ensures CleanPostalCode(CleanPostalCode(postalCode).value) == CleanPostalCode(postalCode)
  {
    var r := CleanPostalCode(postalCode).value;
    if r == "" {
      assert TrimStart(r) == r;
      assert TrimEnd(r) == r;
    } else {
      var d := Digits(Strip(postalCode));
      assert r == FormatCep(d);
      assert IsDigit(r[0]) && IsDigit(r[8]) by {
        assert r[0] == d[0] && r[8] == d[7];
      }
      StripStripped(r);
      FormatCepDigits(d);
    }
  }

  /** The phone rule shared by `clean_phone`, `clean_mobile` and both
      `clean_contact_phone`s: a non-blank number must carry 10 or 11 digits;
      the stripped input is returned with its formatting. */
  function CleanPhoneField(field: string, message: string, phone: string): (r: Result<string>)
    ensures r.Ok? <==> Strip(phone) == "" || 10 <= |Digits(Strip(phone))| <= 11
    ensures r.Ok? ==> r.value == Strip(phone)
    ensures r.Err? ==> r.error == FieldError(field, message)
  {
    var p := Strip(phone);
    if p != "" then
      var d := Digits(p);
      if |d| < 10 || |d| > 11 then Err(FieldError(field, message)) else Ok(p)
    else Ok(p)
  }

  function CleanPhone(phone: string): (r: Result<string>)
    ensures r.Ok? <==> Strip(phone) == "" || 10 <= |Digits(Strip(phone))| <= 11
    ensures r.Ok? ==> r.value == Strip(phone)
    ensures r.Err? ==> r.error == FieldError("phone", "Telefone deve ter 10 ou 11 dígitos.")
  {
    CleanPhoneField("phone", "Telefone deve ter 10 ou 11 dígitos.", phone)
  }

  function CleanMobile(mobile: string): (r: Result<string>)
    ensures r.Ok? <==> Strip(mobile) == "" || 10 <= |Digits(Strip(mobile))| <= 11
    ensures r.Ok? ==> r.value == Strip(mobile)
    ensures r.Err? ==> r.error == FieldError("mobile", "Celular deve ter 10 ou 11 dígitos.")
  {
    CleanPhoneField("mobile", "Celular deve ter 10 ou 11 dígitos.", mobile)
  }

  /** `SupplierForm.clean_contact_phone`. */
  function CleanContactPhone(contactPhone: string): (r: Result<string>)
    ensures r.Ok? <==> Strip(contactPhone) == "" || 10 <= |Digits(Strip(contactPhone))| <= 11
    ensures r.Ok? ==> r.value == Strip(contactPhone)
    ensures r.Err? ==> r.error == FieldError("contact_phone", "Telefone do contato deve ter 10 ou 11 dígitos.")
  {
    CleanPhoneField("contact_phone", "Telefone do contato deve ter 10 ou 11 dígitos.", contactPhone)
  }

  /** `SupplierContactForm.clean_contact_phone`: the same rule, another message. */
  function CleanContactFormPhone(contactPhone: string): (r: Result<string>)
    ensures r.Ok? <==> Strip(contactPhone) == "" || 10 <= |Digits(Strip(contactPhone))| <= 11
    ensures r.Ok? ==> r.value == Strip(contactPhone)
    ensures r.Err? ==> r.error == FieldError("contact_phone", "Telefone deve ter 10 ou 11 dígitos.")
  {
    CleanPhoneField("contact_phone", "Telefone deve ter 10 ou 11 dígitos.", contactPhone)
  }

  /** A cleaned phone number cleans to itself. */
  lemma CleanPhoneFieldIdempotent(field: string, message: string, phone: string)
    requires CleanPhoneField(field, message, phone).Ok?
    ensures CleanPhoneField(field, message, CleanPhoneField(field, message, phone).value)
      == CleanPhoneField(field, message, phone)
  {
    StripIdempotent(phone);
  }

  /** `SupplierForm.clean_credit_limit`: only a negative limit is refused;
      none and zero pass. */
  function CleanCreditLimit(creditLimit: Option<real>): (r: Result<Option<real>>)
    ensures r.Ok? <==> creditLimit.None? || creditLimit.value >= 0.0
    ensures r.Ok? ==> r.value == creditLimit
    ensures r.Err? ==> r.error == FieldError("credit_limit", "O limite de crédito não pode ser negativo.")
  {
    if creditLimit.Some? && creditLimit.value < 0.0 then
      Err(FieldError("credit_limit", "O limite de crédito não pode ser negativo."))
    else Ok(creditLimit)
  }
}

=== FILE: inventory.dfy ===
/** The stock ledger (inventory/models.py): materials and products hold no
    stock field; their stock is the signed sum of the quantities of the
    stock movements that point at them. The whole ledger is one sequence of
    movements, in the order they were written. */
module Inventory {
  import opened Wrappers

  type Id = nat

  datatype Material = Material(
    id: Id,
    code: string,
    name: string,
    costPerUnit: real,
    minimumStock: real)

  datatype Product = Product(
    id: Id,
    code: string,
    name: string,
    costPerUnit: real,
    salePrice: real,
    minimumStock: real)

  /** The stocked thing a movement refers to. */
  datatype ItemRef = MaterialItem(id: Id) | ProductItem(id: Id)

  /** `MOVEMENT_TYPE_CHOICES`. */
  datatype MovementType = In | Out | Adjustment | Transfer
  {
    /** The value stored in the database and posted by forms. */
    function Code(): (r: string)
      ensures r in {"in", "out", "adjustment", "transfer"}
    {
      match this
      case In => "in"
      case Out => "out"
      case Adjustment => "adjustment"
      case Transfer => "transfer"
    }
  }

  /** `REASON_CHOICES`. */
  datatype Reason =
    | Purchase | Production | Sale | Loss | Damaged | Expired
    | InventoryAdjustment | Return | TransferReason | Initial

  datatype StockMovement = StockMovement(
    material: Option<Id>,
    product: Option<Id>,
    movementType: MovementType,
    reason: Reason,
    quantity: real,
    unitCost: Option<real>,
    totalCost: Option<real>,
    documentNumber: string,
    notes: string,
    productionOrder: Option<Id>,
    createdBy: Option<Id>)

  /** Python truthiness of a nullable decimal: set and non-zero. */
  predicate Truthy(x: Option<real>) {
    x.Some? && x.value != 0.0
  }

  function Abs(x: real): (r: real)
    ensures r >= 0.0 && (r == x || r == -x)
  {
    if x < 0.0 then -x else x
  }

  /** Whether movement `m` is one of `item`'s `stock_movements`. */
  predicate Concerns(m: StockMovement, item: ItemRef) {
    match item
    case MaterialItem(id) => m.material == Some(id)
    case ProductItem(id) => m.product == Some(id)
  }

  // ---------------------------------------------------------------------
  // Stock

  /** `current_stock`: the sum of the quantities of `item`'s movements, 0 when
      there are none. */
  function CurrentStock(ledger: seq<StockMovement>, item: ItemRef): (r: real)
    ensures (forall i :: 0 <= i < |ledger| ==> !Concerns(ledger[i], item)) ==> r == 0.0
    ensures (forall i :: 0 <= i < |ledger| && Concerns(ledger[i], item) ==> ledger[i].quantity >= 0.0) ==> r >= 0.0
    ensures (forall i :: 0 <= i < |ledger| && Concerns(ledger[i], item) ==> ledger[i].quantity <= 0.0) ==> r <= 0.0
  {
    if |ledger| == 0 then 0.0
    else
      var last := ledger[|ledger| - 1];
      CurrentStock(ledger[..|ledger| - 1], item) + (if Concerns(last, item) then last.quantity else 0.0)
  }

  /** The stock over two stretches of the ledger is the sum of the stocks. */
  lemma {:induction false} CurrentStockAppend(a: seq<StockMovement>, b: seq<StockMovement>, item: ItemRef)
    ensures CurrentStock(a + b, item) == CurrentStock(a, item) + CurrentStock(b, item)
    decreases |b|
  {
    if |b| == 0 {
      assert a + b == a;
    } else {
      var ab := a + b;
      var init, last := b[..|b| - 1], b[|b| - 1];
      var delta := if Concerns(last, item) then last.quantity else 0.0;
      assert ab[..|ab| - 1] == a + init;
      assert ab[|ab| - 1] == last;
      assert CurrentStock(ab, item) == CurrentStock(a + init, item) + delta;
      assert CurrentStock(b, item) == CurrentStock(init, item) + delta;
      CurrentStockAppend(a, init, item);
    }
  }

  /** Writing one movement moves its item's stock by exactly its quantity and
      leaves every other item's stock alone. */
  lemma RecordMovement(ledger: seq<StockMovement>, m: StockMovement, item: ItemRef)
    ensures Concerns(m, item) ==> CurrentStock(ledger + [m], item) == CurrentStock(ledger, item) + m.quantity
    ensures !Concerns(m, item) ==> CurrentStock(ledger + [m], item) == CurrentStock(ledger, item)
  {
    assert (ledger + [m])[..|ledger|] == ledger;
  }

  /** `stock_value` of a material or product: stock times unit cost. */
  function StockValue(ledger: seq<StockMovement>, item: ItemRef, costPerUnit: real): (r: real)
    ensures costPerUnit == 0.0 ==> r == 0.0
    ensures CurrentStock(ledger, item) >= 0.0 && costPerUnit >= 0.0 ==> r >= 0.0
    ensures CurrentStock(ledger, item) == 0.0 ==> r == 0.0
    ensures CurrentStock(ledger, item) != 0.0 ==> r / CurrentStock(ledger, item) == costPerUnit
    ensures costPerUnit == 1.0 ==> r == CurrentStock(ledger, item)
  {
    var stock := CurrentStock(ledger, item);
    PricePerUnit(stock, costPerUnit);
    stock * costPerUnit
  }

  lemma PricePerUnit(quantity: real, unitCost: real)
    ensures quantity != 0.0 ==> quantity * unitCost / quantity == unitCost
    ensures quantity == 0.0 || unitCost == 0.0 ==> quantity * unitCost == 0.0
    ensures quantity >= 0.0 && unitCost >= 0.0 ==> quantity * unitCost >= 0.0
  {
  }

  function MaterialStockValue(ledger: seq<StockMovement>, m: Material): (r: real)
    ensures m.costPerUnit >= 0.0 && CurrentStock(ledger, MaterialItem(m.id)) >= 0.0 ==> r >= 0.0
    ensures CurrentStock(ledger, MaterialItem(m.id)) == 0.0 ==> r == 0.0
    ensures CurrentStock(ledger, MaterialItem(m.id)) != 0.0 ==> r / CurrentStock(ledger, MaterialItem(m.id)) == m.costPerUnit
  {
    StockValue(ledger, MaterialItem(m.id), m.costPerUnit)
  }

  function ProductStockValue(ledger: seq<StockMovement>, p: Product): (r: real)
    ensures p.costPerUnit >= 0.0 && CurrentStock(ledger, ProductItem(p.id)) >= 0.0 ==> r >= 0.0
    ensures CurrentStock(ledger, ProductItem(p.id)) == 0.0 ==> r == 0.0
    ensures CurrentStock(ledger, ProductItem(p.id)) != 0.0 ==> r / CurrentStock(ledger, ProductItem(p.id)) == p.costPerUnit
  {
    StockValue(ledger, ProductItem(p.id), p.costPerUnit)
  }

  /** `Product.stock_sale_value`: stock at sale price. */
  function ProductStockSaleValue(ledger: seq<StockMovement>, p: Product): (r: real)
    ensures p.salePrice >= 0.0 && CurrentStock(ledger, ProductItem(p.id)) >= 0.0 ==> r >= 0.0
    ensures CurrentStock(ledger, ProductItem(p.id)) == 0.0 ==> r == 0.0
    ensures CurrentStock(ledger, ProductItem(p.id)) != 0.0 ==> r / CurrentStock(ledger, ProductItem(p.id)) == p.salePrice
  {
    StockValue(ledger, ProductItem(p.id), p.salePrice)
  }

  /** A product's sale value exceeds its cost value by the stock times the
      unit margin. */
  lemma {:induction false} SaleValueMargin(ledger: seq<StockMovement>, p: Product)
    ensures ProductStockSaleValue(ledger, p) - ProductStockValue(ledger, p)
      == CurrentStock(ledger, ProductItem(p.id)) * (p.salePrice - p.costPerUnit)
  {
    PriceGap(CurrentStock(ledger, ProductItem(p.id)), p.salePrice, p.costPerUnit);
  }

  lemma PriceGap(stock: real, high: real, low: real)
    ensures stock * high - stock * low == stock * (high - low)
  {
  }

  /** `is_low_stock`: at or below the minimum (the bound is inclusive). */
  predicate IsLowStock(ledger: seq<StockMovement>, item: ItemRef, minimumStock: real) {
    CurrentStock(ledger, item) <= minimumStock
  }

  /** An outgoing movement never lifts an item out of low stock, and an
      item sitting exactly at its minimum counts as low. */
  lemma LowStockStaysLow(ledger: seq<StockMovement>, m: StockMovement, item: ItemRef, minimumStock: real)
    requires IsLowStock(ledger, item, minimumStock)
    requires m.quantity <= 0.0
    ensures IsLowStock(ledger + [m], item, minimumStock)
  {
    RecordMovement(ledger, m, item);
  }

  /** Whether an item is low after a movement depends only on its stock
      before and the movement's quantity, if the movement is the item's. */
  lemma LowStockAfterMovement(ledger: seq<StockMovement>, m: StockMovement, item: ItemRef, minimumStock: real)
    ensures Concerns(m, item) ==>
      (IsLowStock(ledger + [m], item, minimumStock) <==> CurrentStock(ledger, item) + m.quantity <= minimumStock)
    ensures !Concerns(m, item) ==>
      (IsLowStock(ledger + [m], item, minimumStock) <==> IsLowStock(ledger, item, minimumStock))
    ensures IsLowStock([], item, minimumStock) <==> minimumStock >= 0.0
  {
    RecordMovement(ledger, m, item);
  }

  /** `Product.profit_margin`: the mark-up over cost in percent, 0 when the
      cost is not positive. */
  function ProfitMargin(p: Product): (r: real)
    ensures p.costPerUnit > 0.0 ==> p.costPerUnit + p.costPerUnit * r / 100.0 == p.salePrice
    ensures p.costPerUnit > 0.0 ==> (r > 0.0 <==> p.salePrice > p.costPerUnit)
    ensures p.costPerUnit <= 0.0 ==> r == 0.0
  {
    if p.costPerUnit > 0.0 then (p.salePrice - p.costPerUnit) / p.costPerUnit * 100.0 else 0.0
  }

  // ---------------------------------------------------------------------
  // Movements

  /** `StockMovement.clean`: exactly one of material and product, then the
      sign of the quantity forced by the movement type. */
  function Clean(m: StockMovement): (r: Result<StockMovement>)
    ensures r.Ok? <==> (m.material.Some? != m.product.Some?)
    ensures m.material.None? && m.product.None?
      ==> r == Err(NonFieldError("Deve ser especificado um material ou produto."))
    ensures m.material.Some? && m.product.Some?
      ==> r == Err(NonFieldError("Não é possível especificar material e produto ao mesmo tempo."))
    ensures r.Ok? ==> r.value == m.(quantity := r.value.quantity)
    ensures r.Ok? ==> Abs(r.value.quantity) == Abs(m.quantity)
    ensures r.Ok? && m.movementType == Out ==> r.value.quantity <= 0.0
    ensures r.Ok? && m.movementType == In ==> r.value.quantity >= 0.0
    ensures r.Ok? && (m.movementType == Adjustment || m.movementType == Transfer) ==> r.value == m
  {
    if m.material.None? && m.product.None? then
      Err(NonFieldError("Deve ser especificado um material ou produto."))
    else if m.material.Some? && m.product.Some? then
      Err(NonFieldError("Não é possível especificar material e produto ao mesmo tempo."))
    else if m.movementType == Out && m.quantity > 0.0 then
      Ok(m.(quantity := -m.quantity))
    else if m.movementType == In && m.quantity < 0.0 then
      Ok(m.(quantity := -m.quantity))
    else
      Ok(m)
  }

  /** Cleaning an already clean movement changes nothing. */
  lemma CleanIdempotent(m: StockMovement)
    requires Clean(m).Ok?
    ensures Clean(Clean(m).value) == Clean(m)
  {
  }

  /** `StockMovement.save`: clean, then fill in `total_cost` from a set,
      non-zero unit cost when no (non-zero) total is present yet. */
  function Save(m: StockMovement): (r: Result<StockMovement>)
    ensures r.Ok? <==> Clean(m).Ok?
    ensures r.Err? ==> r == Clean(m)
    ensures r.Ok? ==> r.value == Clean(m).value.(totalCost := r.value.totalCost)
    ensures r.Ok? && Truthy(m.totalCost) ==> r.value.totalCost == m.totalCost
    ensures r.Ok? && !Truthy(m.unitCost) ==> r.value.totalCost == m.totalCost
    ensures r.Ok? && Truthy(m.unitCost) && !Truthy(m.totalCost)
      ==> r.value.totalCost == Some(Abs(m.quantity) * m.unitCost.value)
  {
    var c :- Clean(m);
    if Truthy(c.unitCost) && !Truthy(c.totalCost) then
      var total := Abs(c.quantity) * c.unitCost.value;
      assert total == Abs(m.quantity) * m.unitCost.value by {
        assert c.unitCost == m.unitCost;
        assert Abs(c.quantity) == Abs(m.quantity);
      }
      Ok(c.(totalCost := Some(total)))
    else
      Ok(c)
  }

  /** A saved movement is one of exactly one item's movements, and it moves
      that item's stock by its signed quantity: down for an 'out', up for an
      'in'. */
  lemma SavedMovementEffect(ledger: seq<StockMovement>, m: StockMovement)
    requires Save(m).Ok?
    ensures Item(Save(m).value).Some?
    ensures var s := Save(m).value;
      CurrentStock(ledger + [s], Item(s).value) == CurrentStock(ledger, Item(s).value) + s.quantity
    ensures var s := Save(m).value;
      m.movementType == Out ==> CurrentStock(ledger + [s], Item(s).value) <= CurrentStock(ledger, Item(s).value)
    ensures var s := Save(m).value;
      m.movementType == In ==> CurrentStock(ledger + [s], Item(s).value) >= CurrentStock(ledger, Item(s).value)
  {
    var s := Save(m).value;
    RecordMovement(ledger, s, Item(s).value);
  }

  /** `StockMovement.item`: the material when set, else the product. */
  function Item(m: StockMovement): (r: Option<ItemRef>)
    ensures r.Some? ==> Concerns(m, r.value)
    ensures r.None? <==> m.material.None? && m.product.None?
    ensures m.material.Some? ==> r == Some(MaterialItem(m.material.value))
  {
    if m.material.Some? then Some(MaterialItem(m.material.value))
    else if m.product.Some? then Some(ProductItem(m.product.value))
    else None
  }

  /** `StockMovement.item_type`. */
  function ItemType(m: StockMovement): (r: string)
    ensures r == "material" <==> m.material.Some?
    ensures r == "material" || r == "product"
  {
    if m.material.Some? then "material" else "product"
  }

  /** For a clean movement, the item and its type agree. */
  lemma ItemTypeAgrees(m: StockMovement)
    requires Clean(m).Ok?
    ensures Item(m).Some?
    ensures ItemType(m) == "material" <==> Item(m).value.MaterialItem?
    ensures ItemType(m) == "product" <==> Item(m).value.ProductItem?
  {
  }
}

=== FILE: party.dfy ===
/** Display helpers shared by `Supplier` and `Customer`: both models carry
    the same address fields, the same `get_display_name` and the same
    "code - name" label, written out twice in the source
    (suppliers/models.py and sales/models.py). */
module Party {
  import opened Text

  datatype Address = Address(
    street: string,
    number: string,
    complement: string,
    neighborhood: string,
    city: string,
    state: string,
    postalCode: string)

  /** The street line: street, then ", number" and " - complement" when set. */
  function StreetLine(a: Address): string
  {
    a.street
    + (if a.number != "" then ", " + a.number else "")
    + (if a.complement != "" then " - " + a.complement else "")
  }

  /** "city/state", or the city alone; a state without a city is dropped. */
  function CityPart(a: Address): seq<string>
  {
    if a.city != "" && a.state != "" then [a.city + "/" + a.state]
    else if a.city != "" then [a.city]
    else []
  }

  /** The non-empty address parts, in display order. */
  function AddressParts(a: Address): (r: seq<string>)
    ensures forall i :: 0 <= i < |r| ==> r[i] != ""
    ensures |r| == 0 <==> a.street == "" && a.neighborhood == "" && a.city == "" && a.postalCode == ""
  {
    (if a.street != "" then [StreetLine(a)] else [])
    + (if a.neighborhood != "" then [a.neighborhood] else [])
    + CityPart(a)
    + (if a.postalCode != "" then ["CEP: " + a.postalCode] else [])
  }

  /** `full_address`: the parts joined with " - ", or "" when there are none.
      The rendering leads with the first present part, and a lone part
      stands alone with no separator. */
  function FullAddress(a: Address): (r: string)
    ensures AddressParts(a) == [] ==> r == ""
    ensures |AddressParts(a)| > 0 ==>
      |AddressParts(a)[0]| <= |r| && r[..|AddressParts(a)[0]|] == AddressParts(a)[0]
    ensures |AddressParts(a)| == 1 ==> r == AddressParts(a)[0]
    ensures a.street != "" ==> |StreetLine(a)| <= |r| && r[..|StreetLine(a)|] == StreetLine(a)
  {
    var parts := AddressParts(a);
    if |parts| > 0 then
      JoinLeads(parts, " - ");
      Join(parts, " - ")
    else ""
  }

  /** A join starts with its first part. */
  lemma JoinLeads(parts: seq<string>, sep: string)
    requires |parts| > 0
    ensures |parts[0]| <= |Join(parts, sep)| && Join(parts, sep)[..|parts[0]|] == parts[0]
  {
    if |parts| > 1 {
      assert Join(parts, sep) == parts[0] + (sep + Join(parts[1..], sep));
    }
  }

  lemma JoinNonEmpty(parts: seq<string>, sep: string)
    requires |parts| > 0 && parts[0] != ""
    ensures Join(parts, sep) != ""
  {
    JoinLeads(parts, sep);
  }

  /** The address renders empty exactly when street, neighbourhood, city and
      postal code are all blank: number, complement and a lone state never
      show up on their own. */
  lemma FullAddressEmpty(a: Address)
    ensures FullAddress(a) == "" <==> a.street == "" && a.neighborhood == "" && a.city == "" && a.postalCode == ""
  {
    var parts := AddressParts(a);
    if |parts| > 0 {
      JoinNonEmpty(parts, " - ");
    }
  }

  /** Number and complement only decorate a present street. */
  lemma NumberNeedsStreet(a: Address, number: string, complement: string)
    requires a.street == ""
    ensures FullAddress(a.(number := number, complement := complement)) == FullAddress(a)
  {
    assert AddressParts(a.(number := number, complement := complement)) == AddressParts(a);
  }

  /** Without a city the state is ignored. */
  lemma StateNeedsCity(a: Address, state: string)
    requires a.city == ""
    ensures FullAddress(a.(state := state)) == FullAddress(a)
  {
    assert AddressParts(a.(state := state)) == AddressParts(a);
  }

  /** A fully filled address renders every part in order. */
  lemma FullAddressComplete(a: Address)
    requires a.street != "" && a.number != "" && a.complement != ""
    requires a.neighborhood != "" && a.city != "" && a.state != "" && a.postalCode != ""
    ensures FullAddress(a)
      == a.street + ", " + a.number + " - " + a.complement
         + " - " + a.neighborhood
         + " - " + a.city + "/" + a.state
         + " - " + "CEP: " + a.postalCode
  {
    var parts := AddressParts(a);
    var s, n, c, p := StreetLine(a), a.neighborhood, a.city + "/" + a.state, "CEP: " + a.postalCode;
    assert parts == [s, n, c, p];
    assert parts[1..] == [n, c, p];
    assert parts[1..][1..] == [c, p];
    assert parts[1..][1..][1..] == [p];
    assert Join([c, p], " - ") == c + " - " + p;
    assert Join([n, c, p], " - ") == n + " - " + (c + " - " + p);
    assert Join(parts, " - ") == s + " - " + (n + " - " + (c + " - " + p));
    assert s == a.street + ", " + a.number + " - " + a.complement;
  }

  /** `get_display_name`: the trade name when set, else the legal name. */
  function DisplayName(name: string, tradeName: string): (r: string)
    ensures tradeName != "" ==> r == tradeName
    ensures tradeName == "" ==> r == name
  {
    if tradeName != "" then tradeName else name
  }

  /** `__str__`: "code - display name". */
  function CodeLabel(code: string, name: string, tradeName: string): (r: string)
    ensures |r| >= |code| && r[..|code|] == code
    ensures r[|code|..] == " - " + DisplayName(name, tradeName)
  {
    code + " - " + DisplayName(name, tradeName)
  }
}

=== FILE: production.dfy ===
/** Recipes and production orders (production/models.py): bill-of-materials
    costing, scaling a recipe to an order's planned quantity, the start gate,
    and the stock movements written when materials are reserved and when
    production is completed. */
module Production {
  import opened Wrappers
  import opened Text
  import Inventory

  datatype RecipeItem = RecipeItem(material: Inventory.Material, quantity: real)

  datatype Recipe = Recipe(
    code: string,
    name: string,
    product: Inventory.Product,
    yieldQuantity: real,
    instructions: string,
    items: seq<RecipeItem>)

  /** `ProductionOrder.STATUS_CHOICES`. */
  datatype OrderStatus = Planned | Approved | InProgress | Completed | Cancelled | OnHold

  /** Dates are instants on one time line (`now` is passed in). */
  datatype ProductionOrder = ProductionOrder(
    id: nat,
    orderNumber: string,
    recipe: Recipe,
    plannedQuantity: real,
    producedQuantity: real,
    status: OrderStatus,
    plannedStartDate: int,
    plannedEndDate: int,
    actualStartDate: Option<int>,
    actualEndDate: Option<int>,
    createdBy: Option<nat>,
    updatedBy: Option<nat>)

  // ---------------------------------------------------------------------
  // Recipe costing

  /** `RecipeItem.total_cost` (and `RecipeItemSerializer.get_total_cost`):
      the quantity priced at the material's unit cost. */
  function ItemTotalCost(item: RecipeItem): (r: real)
    ensures item.quantity >= 0.0 && item.material.costPerUnit >= 0.0 ==> r >= 0.0
    ensures item.material.costPerUnit == 0.0 ==> r == 0.0
    ensures item.quantity == 0.0 ==> r == 0.0
    ensures item.quantity != 0.0 ==> r / item.quantity == item.material.costPerUnit
  {
    Inventory.PricePerUnit(item.quantity, item.material.costPerUnit);
    item.quantity * item.material.costPerUnit
  }

  predicate NonNegativeCosts(items: seq<RecipeItem>) {
    forall i :: 0 <= i < |items| ==> items[i].quantity >= 0.0 && items[i].material.costPerUnit >= 0.0
  }

  /** `Recipe.total_material_cost`: the sum of the items' costs. */
  function TotalMaterialCost(items: seq<RecipeItem>): (r: real)
    ensures |items| == 0 ==> r == 0.0
    ensures NonNegativeCosts(items) ==> r >= 0.0
  {
    if |items| == 0 then 0.0
    else TotalMaterialCost(items[..|items| - 1]) + ItemTotalCost(items[|items| - 1])
  }

  /** Adding an item to a recipe adds exactly its cost. */
  lemma {:induction false} TotalMaterialCostAppend(a: seq<RecipeItem>, b: seq<RecipeItem>)
    ensures TotalMaterialCost(a + b) == TotalMaterialCost(a) + TotalMaterialCost(b)
    decreases |b|
  {
    if |b| == 0 {
      assert a + b == a;
    } else {
      assert (a + b)[..|a + b| - 1] == a + b[..|b| - 1];
      assert (a + b)[|a + b| - 1] == b[|b| - 1];
      TotalMaterialCostAppend(a, b[..|b| - 1]);
    }
  }

  /** An item's cost is linear in its quantity: one unit costs the
      material's unit cost, and `k` times the quantity costs `k` times as
      much. */
  lemma ItemCostScales(item: RecipeItem, k: real)
    ensures ItemTotalCost(item.(quantity := 1.0)) == item.material.costPerUnit
    ensures ItemTotalCost(item.(quantity := k * item.quantity)) == k * ItemTotalCost(item)
    ensures ItemTotalCost(item.(quantity := 0.0)) == 0.0
  {
  }

  /** Appending an item adds its quantity times its material's unit cost. */
  lemma {:induction false} TotalMaterialCostSnoc(items: seq<RecipeItem>, item: RecipeItem)
    ensures TotalMaterialCost(items + [item]) == TotalMaterialCost(items) + item.quantity * item.material.costPerUnit
  {
    var all := items + [item];
    assert all[..|all| - 1] == items;
    assert all[|all| - 1] == item;
    assert ItemTotalCost(item) == item.quantity * item.material.costPerUnit;
  }

  /** The cost is also the first item's cost plus the rest's: the sum does
      not depend on the order it is taken in. */
  lemma {:induction false} TotalMaterialCostCons(item: RecipeItem, items: seq<RecipeItem>)
    ensures TotalMaterialCost([item] + items) == item.quantity * item.material.costPerUnit + TotalMaterialCost(items)
  {
    TotalMaterialCostAppend([item], items);
    TotalMaterialCostSnoc([], item);
    assert [] + [item] == [item];
  }

  /** `Recipe.cost_per_unit`: the material cost of one unit of output, 0 for
      a non-positive yield. */
  function CostPerUnit(recipe: Recipe): (r: real)
    ensures recipe.yieldQuantity > 0.0 ==> r * recipe.yieldQuantity == TotalMaterialCost(recipe.items)
    ensures recipe.yieldQuantity <= 0.0 ==> r == 0.0
    ensures recipe.yieldQuantity > 0.0 && NonNegativeCosts(recipe.items) ==> r >= 0.0
  {
    if recipe.yieldQuantity > 0.0 then TotalMaterialCost(recipe.items) / recipe.yieldQuantity else 0.0
  }

  // ---------------------------------------------------------------------
  // Instructions

  /** `Recipe.instructions_list`: one step per non-blank line, stripped; no
      steps for empty instructions. */
  function InstructionsList(instructions: string): (r: seq<string>)
    ensures instructions == "" ==> r == []
    ensures forall i :: 0 <= i < |r| ==> r[i] != "" && IsStripped(r[i])
  {
    if instructions != "" then NonBlank(Split(instructions, '\n')) else []
  }

  /** The empty-text guard changes nothing: split-strip-filter of "" is
      empty anyway. */
  lemma InstructionsAreNonBlankLines(text: string)
    ensures InstructionsList(text) == NonBlank(Split(text, '\n'))
  {
    if text == "" {
      var pieces := Split("", '\n');
      assert pieces == [""];
      assert TrimStart("") == "" && TrimEnd("") == "";
      assert Strip(pieces[0]) == "";
      assert pieces[1..] == [];
      assert NonBlank(pieces[1..]) == [];
    }
  }

  /** A text without line breaks is one line: it is the single step,
      stripped, unless it is blank. */
  lemma InstructionsOneLine(line: string)
    requires '\n' !in line
    ensures InstructionsList(line) == (if Strip(line) != "" then [Strip(line)] else [])
  {
    InstructionsAreNonBlankLines(line);
    SplitNonBlankSnoc("", line, '\n');
  }

  /** A further line appends its stripped text when that is not blank and
      changes none of the steps before it. With `InstructionsOneLine` this
      fixes the steps of every text, in order. */
  lemma InstructionsLines(text: string, line: string)
    requires '\n' !in line
    ensures InstructionsList(text + "\n" + line) == InstructionsList(text) + (if Strip(line) != "" then [Strip(line)] else [])
  {
    var joined := text + "\n" + line;
    InstructionsAreNonBlankLines(text);
    InstructionsAreNonBlankLines(joined);
    assert joined == text + ['\n'] + line;
    SplitNonBlankSnoc(text, line, '\n');
  }

  /** Writing steps one per line and reading them back gives the same steps. */
  lemma InstructionsRoundTrip(steps: seq<string>)
    requires forall i :: 0 <= i < |steps| ==> steps[i] != "" && IsStripped(steps[i]) && '\n' !in steps[i]
    ensures InstructionsList(Join(steps, "\n")) == steps
  {
    NonBlankRoundTrip(steps, '\n');
  }

  // ---------------------------------------------------------------------
  // Production orders

  /** `completion_percentage`: produced over planned, in percent, capped at
      100; 0 when nothing positive is planned. */
  function CompletionPercentage(o: ProductionOrder): (r: real)
    ensures r <= 100.0
    ensures o.plannedQuantity <= 0.0 ==> r == 0.0
    ensures o.plannedQuantity > 0.0 && o.producedQuantity >= 0.0 ==> r >= 0.0
    ensures o.plannedQuantity > 0.0 && o.producedQuantity <= o.plannedQuantity
      ==> r * o.plannedQuantity == o.producedQuantity * 100.0
    ensures o.plannedQuantity > 0.0 && o.producedQuantity >= o.plannedQuantity ==> r == 100.0
  {
    if o.plannedQuantity > 0.0 then
      var p := o.producedQuantity / o.plannedQuantity * 100.0;
      if p < 100.0 then p else 100.0
    else 0.0
  }

  /** `ProductionOrder.is_overdue`: still open and past its planned end. */
  predicate IsOverdue(o: ProductionOrder, now: int) {
    o.status != Completed && o.status != Cancelled && now > o.plannedEndDate
  }

  /** The per-material line of `materials_needed`. */
  datatype MaterialNeed = MaterialNeed(
    material: Inventory.Material,
    quantityNeeded: real,
    availableStock: real,
    shortage: real)

  /** `planned_quantity / recipe.yield_quantity`; a zero yield makes the
      decimal division raise. */
  function Multiplier(o: ProductionOrder): (r: Result<real>)
    ensures r.Err? <==> o.recipe.yieldQuantity == 0.0
    ensures r.Ok? ==> r.value * o.recipe.yieldQuantity == o.plannedQuantity
  {
    if o.recipe.yieldQuantity == 0.0 then Err(ArithmeticError("division by zero"))
    else Ok(o.plannedQuantity / o.recipe.yieldQuantity)
  }

  function Stock(ledger: seq<Inventory.StockMovement>, m: Inventory.Material): real {
    Inventory.CurrentStock(ledger, Inventory.MaterialItem(m.id))
  }

  function Need(item: RecipeItem, multiplier: real, ledger: seq<Inventory.StockMovement>): (r: MaterialNeed)
    ensures r.material == item.material && r.quantityNeeded == item.quantity * multiplier
    ensures r.availableStock == Stock(ledger, item.material)
    ensures r.shortage >= 0.0
    ensures r.shortage == 0.0 <==> r.quantityNeeded <= r.availableStock
    ensures r.shortage > 0.0 ==> r.availableStock + r.shortage == r.quantityNeeded
  {
    var needed := item.quantity * multiplier;
    var stock := Stock(ledger, item.material);
    MaterialNeed(item.material, needed, stock, if needed - stock > 0.0 then needed - stock else 0.0)
  }

  /** `materials_needed`: one line per recipe item, the item quantity scaled
      by planned / yield, against the material's current stock. */
  function MaterialsNeeded(o: ProductionOrder, ledger: seq<Inventory.StockMovement>): (r: Result<seq<MaterialNeed>>)
    ensures r.Err? <==> o.recipe.yieldQuantity == 0.0
    ensures r.Ok? ==> |r.value| == |o.recipe.items|
    ensures r.Ok? ==> forall i :: 0 <= i < |r.value| ==>
      r.value[i].material == o.recipe.items[i].material
      && r.value[i].quantityNeeded * o.recipe.yieldQuantity == o.recipe.items[i].quantity * o.plannedQuantity
      && r.value[i].shortage >= 0.0
    ensures r.Ok? ==> forall i :: 0 <= i < |r.value| ==>
      r.value[i] == Need(o.recipe.items[i], Multiplier(o).value, ledger)
    ensures r.Ok? ==> forall i :: 0 <= i < |r.value| ==>
      r.value[i].availableStock == Stock(ledger, o.recipe.items[i].material)
      && (r.value[i].shortage == 0.0 <==> r.value[i].quantityNeeded <= r.value[i].availableStock)
  {
    var m :- Multiplier(o);
    var items := o.recipe.items;
    Ok(seq(|items|, i requires 0 <= i < |items| => Need(items[i], m, ledger)))
  }

  /** `can_start_production`: no material is short. */
  function CanStartProduction(o: ProductionOrder, ledger: seq<Inventory.StockMovement>): (r: Result<bool>)
    ensures r.Err? <==> o.recipe.yieldQuantity == 0.0
    ensures r.Ok? ==> (r.value <==> forall i :: 0 <= i < |MaterialsNeeded(o, ledger).value| ==>
      MaterialsNeeded(o, ledger).value[i].quantityNeeded <= MaterialsNeeded(o, ledger).value[i].availableStock)
    ensures r.Ok? ==> (r.value <==> forall i :: 0 <= i < |o.recipe.items| ==>
      o.recipe.items[i].quantity * Multiplier(o).value <= Stock(ledger, o.recipe.items[i].material))
  {
    var needs :- MaterialsNeeded(o, ledger);
    NoShortageMeansCovered(o, ledger, needs);
    Ok(forall i :: 0 <= i < |needs| ==> needs[i].shortage == 0.0)
  }

  /** A line is free of shortage exactly when the material's current stock
      covers the scaled item quantity. */
  lemma NoShortageMeansCovered(o: ProductionOrder, ledger: seq<Inventory.StockMovement>, needs: seq<MaterialNeed>)
    requires MaterialsNeeded(o, ledger) == Ok(needs)
    ensures (forall i :: 0 <= i < |needs| ==> needs[i].shortage == 0.0)
      <==> (forall i :: 0 <= i < |needs| ==> needs[i].quantityNeeded <= needs[i].availableStock)
    ensures (forall i :: 0 <= i < |needs| ==> needs[i].shortage == 0.0)
      <==> (forall i :: 0 <= i < |o.recipe.items| ==>
             o.recipe.items[i].quantity * Multiplier(o).value <= Stock(ledger, o.recipe.items[i].material))
  {
    var m := Multiplier(o).value;
    assert forall i :: 0 <= i < |needs| ==> needs[i] == Need(o.recipe.items[i], m, ledger);
  }

  /** The movement `reserve_materials` writes for one recipe item, as saved. */
  function ReserveMovement(o: ProductionOrder, item: RecipeItem, multiplier: real): (r: Inventory.StockMovement)
    ensures Inventory.Save(Inventory.StockMovement(
      Some(item.material.id), None, Inventory.Out, Inventory.Production,
      -(item.quantity * multiplier), Some(item.material.costPerUnit), None,
      o.orderNumber, "Reserva para OP " + o.orderNumber, Some(o.id), o.createdBy)) == Ok(r)
    ensures Inventory.Concerns(r, Inventory.MaterialItem(item.material.id))
    ensures r.product.None? && r.movementType == Inventory.Out
    ensures r.quantity == -Inventory.Abs(item.quantity * multiplier)
  {
    var raw := Inventory.StockMovement(
      Some(item.material.id), None, Inventory.Out, Inventory.Production,
      -(item.quantity * multiplier), Some(item.material.costPerUnit), None,
      o.orderNumber, "Reserva para OP " + o.orderNumber, Some(o.id), o.createdBy);
    Inventory.Save(raw).value
  }

  /** `reserve_materials`: refuses when production cannot start, otherwise
      the saved 'out' movements, one per recipe item, in recipe order. */
  function ReserveMaterials(o: ProductionOrder, ledger: seq<Inventory.StockMovement>): (r: Result<seq<Inventory.StockMovement>>)
    ensures r.Ok? <==> CanStartProduction(o, ledger) == Ok(true)
    ensures CanStartProduction(o, ledger) == Ok(false)
      ==> r == Err(ValueError("Insufficient materials to start production"))
    ensures r.Ok? ==> |r.value| == |o.recipe.items|
    ensures r.Ok? ==> forall i :: 0 <= i < |r.value| ==>
      r.value[i] == ReserveMovement(o, o.recipe.items[i], Multiplier(o).value)
  {
    var ok :- CanStartProduction(o, ledger);
    if !ok then Err(ValueError("Insufficient materials to start production"))
    else
      var m := Multiplier(o).value;
      var items := o.recipe.items;
      Ok(seq(|items|, i requires 0 <= i < |items| => ReserveMovement(o, items[i], m)))
  }

  /** The stock of an item touched by exactly one movement of `ms` is that
      movement's quantity. */
  lemma {:induction false} StockOfSingle(ms: seq<Inventory.StockMovement>, item: Inventory.ItemRef, k: nat)
    requires k < |ms| && Inventory.Concerns(ms[k], item)
    requires forall i :: 0 <= i < |ms| && i != k ==> !Inventory.Concerns(ms[i], item)
    ensures Inventory.CurrentStock(ms, item) == ms[k].quantity
    decreases |ms|
  {
    var init := ms[..|ms| - 1];
    if k == |ms| - 1 {
      assert forall i :: 0 <= i < |init| ==> !Inventory.Concerns(init[i], item) by {
        forall i | 0 <= i < |init| ensures !Inventory.Concerns(init[i], item) {
          assert init[i] == ms[i];
        }
      }
    } else {
      assert init[k] == ms[k];
      assert forall i :: 0 <= i < |init| && i != k ==> !Inventory.Concerns(init[i], item) by {
        forall i | 0 <= i < |init| && i != k ensures !Inventory.Concerns(init[i], item) {
          assert init[i] == ms[i];
        }
      }
      StockOfSingle(init, item, k);
    }
  }

  /** A recipe lists each material once (unique per recipe and material). */
  predicate DistinctMaterials(items: seq<RecipeItem>) {
    forall i, j :: 0 <= i < j < |items| ==> items[i].material.id != items[j].material.id
  }

  /** Reserving takes exactly the scaled need of each recipe material out of
      its stock; because production could start, with non-negative needs no
      material's stock drops below zero. */
  lemma ReservationEffect(o: ProductionOrder, ledger: seq<Inventory.StockMovement>, k: nat)
    requires ReserveMaterials(o, ledger).Ok?
    requires DistinctMaterials(o.recipe.items)
    requires k < |o.recipe.items|
    ensures var mat := Inventory.MaterialItem(o.recipe.items[k].material.id);
      var need := MaterialsNeeded(o, ledger).value[k].quantityNeeded;
      Inventory.CurrentStock(ledger + ReserveMaterials(o, ledger).value, mat)
        == Inventory.CurrentStock(ledger, mat) - Inventory.Abs(need)
    ensures var mat := Inventory.MaterialItem(o.recipe.items[k].material.id);
      MaterialsNeeded(o, ledger).value[k].quantityNeeded >= 0.0
      ==> Inventory.CurrentStock(ledger + ReserveMaterials(o, ledger).value, mat) >= 0.0
  {
    var ms := ReserveMaterials(o, ledger).value;
    var mat := Inventory.MaterialItem(o.recipe.items[k].material.id);
    ReservedStock(o, ledger, k);
    Inventory.CurrentStockAppend(ledger, ms, mat);
    NeedCovered(o, ledger, k);
  }

  /** The reservation movements alone take `|need|` of item `k`'s material. */
  lemma ReservedStock(o: ProductionOrder, ledger: seq<Inventory.StockMovement>, k: nat)
    requires ReserveMaterials(o, ledger).Ok?
    requires DistinctMaterials(o.recipe.items)
    requires k < |o.recipe.items|
    ensures Inventory.CurrentStock(ReserveMaterials(o, ledger).value, Inventory.MaterialItem(o.recipe.items[k].material.id))
      == -Inventory.Abs(o.recipe.items[k].quantity * Multiplier(o).value)
  {
    var ms := ReserveMaterials(o, ledger).value;
    var items := o.recipe.items;
    var mat := Inventory.MaterialItem(items[k].material.id);
    forall i | 0 <= i < |ms| && i != k
      ensures !Inventory.Concerns(ms[i], mat)
    {
      assert ms[i].material == Some(items[i].material.id);
    }
    StockOfSingle(ms, mat, k);
  }

  /** When production can start, item `k`'s scaled need is covered by stock. */
  lemma NeedCovered(o: ProductionOrder, ledger: seq<Inventory.StockMovement>, k: nat)
    requires CanStartProduction(o, ledger) == Ok(true)
    requires k < |o.recipe.items|
    ensures MaterialsNeeded(o, ledger).value[k].quantityNeeded == o.recipe.items[k].quantity * Multiplier(o).value
    ensures MaterialsNeeded(o, ledger).value[k].quantityNeeded
      <= Inventory.CurrentStock(ledger, Inventory.MaterialItem(o.recipe.items[k].material.id))
  {
    var needs := MaterialsNeeded(o, ledger).value;
    assert needs[k] == Need(o.recipe.items[k], Multiplier(o).value, ledger);
  }

  /** `complete_production`: the order as completed, and the 'in' movement
      of the finished product as saved. */
  function CompleteProduction(o: ProductionOrder, actualQuantity: Option<real>, now: int)
    : (r: (ProductionOrder, Inventory.StockMovement))
    ensures r.0.producedQuantity == actualQuantity.GetOr(o.plannedQuantity)
    ensures r.0.status == Completed
    ensures o.actualEndDate.Some? ==> r.0.actualEndDate == o.actualEndDate
    ensures o.actualEndDate.None? ==> r.0.actualEndDate == Some(now)
    ensures r.0 == o.(producedQuantity := r.0.producedQuantity, status := Completed, actualEndDate := r.0.actualEndDate)
    ensures Inventory.Save(Inventory.StockMovement(
      None, Some(o.recipe.product.id), Inventory.In, Inventory.Production,
      r.0.producedQuantity, Some(CostPerUnit(o.recipe)), None,
      o.orderNumber, "Produção concluída - OP " + o.orderNumber, Some(o.id), o.updatedBy)) == Ok(r.1)
    ensures Inventory.Item(r.1) == Some(Inventory.ProductItem(o.recipe.product.id))
    ensures r.1.movementType == Inventory.In && r.1.quantity == Inventory.Abs(r.0.producedQuantity)
  {
    var produced := actualQuantity.GetOr(o.plannedQuantity);
    var endDate := if o.actualEndDate.Some? then o.actualEndDate else Some(now);
    var raw := Inventory.StockMovement(
      None, Some(o.recipe.product.id), Inventory.In, Inventory.Production,
      produced, Some(CostPerUnit(o.recipe)), None,
      o.orderNumber, "Produção concluída - OP " + o.orderNumber, Some(o.id), o.updatedBy);
    (o.(producedQuantity := produced, status := Completed, actualEndDate := endDate), Inventory.Save(raw).value)
  }

  /** Completing production adds the produced quantity to the product's
      stock, and a completed order is never overdue. */
  lemma CompletionEffect(o: ProductionOrder, actualQuantity: Option<real>, now: int, ledger: seq<Inventory.StockMovement>)
    ensures var (done, m) := CompleteProduction(o, actualQuantity, now);
      Inventory.CurrentStock(ledger + [m], Inventory.ProductItem(o.recipe.product.id))
        == Inventory.CurrentStock(ledger, Inventory.ProductItem(o.recipe.product.id)) + Inventory.Abs(done.producedQuantity)
    ensures forall t :: !IsOverdue(CompleteProduction(o, actualQuantity, now).0, t)
  {
    var (done, m) := CompleteProduction(o, actualQuantity, now);
    Inventory.RecordMovement(ledger, m, Inventory.ProductItem(o.recipe.product.id));
  }

  // ---------------------------------------------------------------------
  // Consumption tracking

  datatype ProductionOrderItem = ProductionOrderItem(
    material: Inventory.Material,
    plannedQuantity: real,
    consumedQuantity: real,
    unitCost: real)

  /** `total_planned_cost`: the planned quantity at the unit cost. */
  function TotalPlannedCost(i: ProductionOrderItem): (r: real)
    ensures i.plannedQuantity >= 0.0 && i.unitCost >= 0.0 ==> r >= 0.0
    ensures i.plannedQuantity == 0.0 ==> r == 0.0
    ensures i.plannedQuantity != 0.0 ==> r / i.plannedQuantity == i.unitCost
  {
    Inventory.PricePerUnit(i.plannedQuantity, i.unitCost);
    i.plannedQuantity * i.unitCost
  }

  /** `total_actual_cost`: the consumed quantity at the unit cost. */
  function TotalActualCost(i: ProductionOrderItem): (r: real)
    ensures i.consumedQuantity >= 0.0 && i.unitCost >= 0.0 ==> r >= 0.0
    ensures i.consumedQuantity == 0.0 ==> r == 0.0
    ensures i.consumedQuantity != 0.0 ==> r / i.consumedQuantity == i.unitCost
  {
    Inventory.PricePerUnit(i.consumedQuantity, i.unitCost);
    i.consumedQuantity * i.unitCost
  }

  /** Planned and actual cost price their quantities at the same unit cost:
      one unit costs the unit cost, consuming `k` times the plan costs `k`
      times the planned cost, and consuming exactly the plan costs exactly
      the planned cost. */
  lemma OrderItemCosts(i: ProductionOrderItem, k: real)
    ensures TotalPlannedCost(i.(plannedQuantity := 1.0)) == i.unitCost
    ensures TotalActualCost(i.(consumedQuantity := 1.0)) == i.unitCost
    ensures i.consumedQuantity == k * i.plannedQuantity ==> TotalActualCost(i) == k * TotalPlannedCost(i)
    ensures i.consumedQuantity == i.plannedQuantity ==> TotalActualCost(i) == TotalPlannedCost(i)
    ensures i.unitCost == 0.0 ==> TotalPlannedCost(i) == 0.0 && TotalActualCost(i) == 0.0
  {
  }

  /** `variance_quantity`: positive when more was consumed than planned. */
  function VarianceQuantity(i: ProductionOrderItem): (r: real)
    ensures r > 0.0 <==> i.consumedQuantity > i.plannedQuantity
    ensures i.plannedQuantity + r == i.consumedQuantity
  {
    i.consumedQuantity - i.plannedQuantity
  }

  /** `variance_cost`: actual minus planned cost, which is the unit cost times
      the quantity variance. */
  function VarianceCost(i: ProductionOrderItem): (r: real)
    ensures r == i.unitCost * VarianceQuantity(i)
    ensures i.unitCost > 0.0 ==> (r > 0.0 <==> i.consumedQuantity > i.plannedQuantity)
  {
    TotalActualCost(i) - TotalPlannedCost(i)
  }
}

=== FILE: sales.dfy ===
/** Sales orders, their line items and customers' credit (sales/models.py).
    An order carries its line items; a customer's debt is computed from the
    list of its orders. Dates are day numbers and `today` is passed in. */
module Sales {
  import opened Wrappers
  import Inventory
  import Party

  datatype SalesOrderItem = SalesOrderItem(
    product: Inventory.Id,
    quantity: real,
    unitPrice: real,
    discountPercentage: real,
    discountAmount: real,
    totalPrice: real,
    deliveredQuantity: real)

  /** `SalesOrder.STATUS_CHOICES`. */
  datatype OrderStatus = Draft | Confirmed | InProduction | Ready | Delivered | PartiallyPaid | Paid | Cancelled

  datatype SalesOrder = SalesOrder(
    status: OrderStatus,
    items: seq<SalesOrderItem>,
    subtotal: real,
    discountPercentage: real,
    discountAmount: real,
    taxPercentage: real,
    taxAmount: real,
    shippingCost: real,
    totalAmount: real,
    paidAmount: real,
    deliveryDate: int)

  datatype CustomerType = Individual | Company

  datatype Customer = Customer(
    code: string,
    name: string,
    tradeName: string,
    customerType: CustomerType,
    address: Party.Address,
    creditLimit: Option<real>)

  // ---------------------------------------------------------------------
  // Line items

  /** `SalesOrderItem.save`: the discount is recomputed from its percentage
      only when that is positive (else the stored discount stays), and the
      total is the gross amount less the discount. */
  function ItemSave(i: SalesOrderItem): (r: SalesOrderItem)
    ensures r == i.(discountAmount := r.discountAmount, totalPrice := r.totalPrice)
    ensures i.discountPercentage > 0.0 ==> r.discountAmount * 100.0 == i.quantity * i.unitPrice * i.discountPercentage
    ensures i.discountPercentage <= 0.0 ==> r.discountAmount == i.discountAmount
    ensures r.totalPrice + r.discountAmount == i.quantity * i.unitPrice
  {
    var discount :=
      if i.discountPercentage > 0.0 then i.quantity * i.unitPrice * i.discountPercentage / 100.0
      else i.discountAmount;
    i.(discountAmount := discount, totalPrice := i.quantity * i.unitPrice - discount)
  }

  /** Saving a saved item again changes nothing. */
  lemma ItemSaveIdempotent(i: SalesOrderItem)
    ensures ItemSave(ItemSave(i)) == ItemSave(i)
  {
  }

  /** A discount percentage within 0..100 keeps the total between 0 and
      the gross amount. */
  lemma ItemTotalWithinGross(i: SalesOrderItem)
    requires 0.0 < i.discountPercentage <= 100.0
    requires i.quantity >= 0.0 && i.unitPrice >= 0.0
    ensures 0.0 <= ItemSave(i).totalPrice <= i.quantity * i.unitPrice
  {
    var g := i.quantity * i.unitPrice;
    assert ItemSave(i).discountAmount == g * i.discountPercentage / 100.0;
    assert g * i.discountPercentage / 100.0 <= g;
  }

  /** Five units at 15.00 with no discount total 75.00. */
  lemma ItemSaveExample()
    ensures ItemSave(SalesOrderItem(0, 5.0, 15.0, 0.0, 0.0, 0.0, 0.0)).totalPrice == 75.0
  {
  }

  /** `pending_quantity`: what is still to be delivered, never negative. */
  function PendingQuantity(i: SalesOrderItem): (r: real)
    ensures r >= 0.0 && r >= i.quantity - i.deliveredQuantity
    ensures r == 0.0 || r == i.quantity - i.deliveredQuantity
  {
    if i.quantity - i.deliveredQuantity > 0.0 then i.quantity - i.deliveredQuantity else 0.0
  }

  // ---------------------------------------------------------------------
  // Orders

  /** The sum of the items' stored totals. */
  function SumTotalPrices(items: seq<SalesOrderItem>): (r: real)
    ensures |items| == 0 ==> r == 0.0
    ensures (forall k :: 0 <= k < |items| ==> items[k].totalPrice >= 0.0) ==> r >= 0.0
  {
    if |items| == 0 then 0.0
    else SumTotalPrices(items[..|items| - 1]) + items[|items| - 1].totalPrice
  }

  /** Adding a line adds exactly its total to the subtotal. */
  lemma {:induction false} SumTotalPricesAppend(a: seq<SalesOrderItem>, b: seq<SalesOrderItem>)
    ensures SumTotalPrices(a + b) == SumTotalPrices(a) + SumTotalPrices(b)
    decreases |b|
  {
    if |b| == 0 {
      assert a + b == a;
    } else {
      assert (a + b)[..|a + b| - 1] == a + b[..|b| - 1];
      assert (a + b)[|a + b| - 1] == b[|b| - 1];
      SumTotalPricesAppend(a, b[..|b| - 1]);
    }
  }

  /** `calculate_totals`: subtotal from the items, then the discount (only
      recomputed for a positive percentage), then tax on the discounted net
      (only recomputed for a positive percentage), then shipping. */
  function CalculateTotals(o: SalesOrder): (r: SalesOrder)
    ensures r == o.(subtotal := r.subtotal, discountAmount := r.discountAmount,
      taxAmount := r.taxAmount, totalAmount := r.totalAmount)
    ensures r.subtotal == SumTotalPrices(o.items)
    ensures o.discountPercentage > 0.0 ==> r.discountAmount * 100.0 == r.subtotal * o.discountPercentage
    ensures o.discountPercentage <= 0.0 ==> r.discountAmount == o.discountAmount
    ensures o.taxPercentage > 0.0 ==> r.taxAmount * 100.0 == (r.subtotal - r.discountAmount) * o.taxPercentage
    ensures o.taxPercentage <= 0.0 ==> r.taxAmount == o.taxAmount
    ensures r.totalAmount == (r.subtotal - r.discountAmount) + r.taxAmount + o.shippingCost
  {
    var subtotal := SumTotalPrices(o.items);
    var discount := if o.discountPercentage > 0.0 then subtotal * o.discountPercentage / 100.0 else o.discountAmount;
    var net := subtotal - discount;
    var tax := if o.taxPercentage > 0.0 then net * o.taxPercentage / 100.0 else o.taxAmount;
    o.(subtotal := subtotal, discountAmount := discount, taxAmount := tax, totalAmount := net + tax + o.shippingCost)
  }

  /** Recalculating recalculated totals changes nothing. */
  lemma CalculateTotalsIdempotent(o: SalesOrder)
    ensures CalculateTotals(CalculateTotals(o)) == CalculateTotals(o)
  {
  }

  /** With both percentages set, the total is the subtotal scaled by the
      discount and then by the tax, plus shipping: tax is charged on the
      discounted amount. */
  lemma TotalClosedForm(o: SalesOrder)
    requires o.discountPercentage > 0.0 && o.taxPercentage > 0.0
    ensures CalculateTotals(o).totalAmount
      == SumTotalPrices(o.items) * (1.0 - o.discountPercentage / 100.0) * (1.0 + o.taxPercentage / 100.0)
         + o.shippingCost
  {
    var s := SumTotalPrices(o.items);
    var net := s - s * o.discountPercentage / 100.0;
    assert net == s * (1.0 - o.discountPercentage / 100.0);
    assert net + net * o.taxPercentage / 100.0 == net * (1.0 + o.taxPercentage / 100.0);
  }

  /** Saving a line item re-runs the order's totals: its subtotal is then
      the other lines' totals plus the saved line's total. */
  lemma SaveLineThenTotals(o: SalesOrder, i: SalesOrderItem)
    ensures CalculateTotals(o.(items := o.items + [ItemSave(i)])).subtotal
      == SumTotalPrices(o.items) + i.quantity * i.unitPrice - ItemSave(i).discountAmount
  {
    SumTotalPricesAppend(o.items, [ItemSave(i)]);
    assert [ItemSave(i)][..0] == [];
  }

  /** `pending_amount`: the unpaid part of the total, never negative. */
  function PendingAmount(o: SalesOrder): (r: real)
    ensures r >= 0.0 && r >= o.totalAmount - o.paidAmount
    ensures r == 0.0 || r == o.totalAmount - o.paidAmount
  {
    if o.totalAmount - o.paidAmount > 0.0 then o.totalAmount - o.paidAmount else 0.0
  }

  /** `SalesOrder.is_overdue`: not yet delivered, paid or cancelled, and past
      its delivery date. */
  predicate IsOverdue(o: SalesOrder, today: int) {
    o.status != Delivered && o.status != Paid && o.status != Cancelled && today > o.deliveryDate
  }

  /** A finished order is never overdue, whatever the date. */
  lemma FinishedNeverOverdue(o: SalesOrder, today: int)
    requires o.status in {Delivered, Paid, Cancelled}
    ensures !IsOverdue(o, today)
  {
  }

  /** Whether the stock of every item's product covers its quantity. */
  predicate Covered(items: seq<SalesOrderItem>, ledger: seq<Inventory.StockMovement>) {
    forall k :: 0 <= k < |items| ==>
      Inventory.CurrentStock(ledger, Inventory.ProductItem(items[k].product)) >= items[k].quantity
  }

  /** `can_be_produced`: stops at the first item whose product's stock is
      below its quantity; true when there is none (in particular with no
      items). */
  method CanBeProduced(o: SalesOrder, ledger: seq<Inventory.StockMovement>) returns (r: bool)
    ensures r <==> Covered(o.items, ledger)
  {
    var k := 0;
    while k < |o.items|
      invariant 0 <= k <= |o.items|
      invariant forall j :: 0 <= j < k ==>
        Inventory.CurrentStock(ledger, Inventory.ProductItem(o.items[j].product)) >= o.items[j].quantity
    {
      var item := o.items[k];
      if Inventory.CurrentStock(ledger, Inventory.ProductItem(item.product)) < item.quantity {
        return false;
      }
      k := k + 1;
    }
    return true;
  }

  // ---------------------------------------------------------------------
  // Customers

  /** Whether an order counts towards its customer's debt. */
  predicate Owing(o: SalesOrder) {
    o.status == Confirmed || o.status == PartiallyPaid
  }

  /** `current_debt`: the summed totals of the customer's confirmed and
      partially paid orders, 0 when there are none. */
  function CurrentDebt(orders: seq<SalesOrder>): (r: real)
    ensures (forall k :: 0 <= k < |orders| ==> !Owing(orders[k])) ==> r == 0.0
    ensures (forall k :: 0 <= k < |orders| && Owing(orders[k]) ==> orders[k].totalAmount >= 0.0) ==> r >= 0.0
  {
    if |orders| == 0 then 0.0
    else
      var last := orders[|orders| - 1];
      CurrentDebt(orders[..|orders| - 1]) + (if Owing(last) then last.totalAmount else 0.0)
  }

  /** A new order adds its total to the debt when it is owing, else nothing. */
  lemma CurrentDebtAppend(orders: seq<SalesOrder>, o: SalesOrder)
    ensures CurrentDebt(orders + [o]) == CurrentDebt(orders) + (if Owing(o) then o.totalAmount else 0.0)
  {
    assert (orders + [o])[..|orders|] == orders;
  }

  /** `available_credit`: nothing without a (non-zero) limit, otherwise the
      limit less the debt, never negative. */
  function AvailableCredit(c: Customer, orders: seq<SalesOrder>): (r: real)
    ensures r >= 0.0
    ensures c.creditLimit.None? || c.creditLimit.value == 0.0 ==> r == 0.0
    ensures c.creditLimit.Some? && c.creditLimit.value != 0.0
      ==> (r >= c.creditLimit.value - CurrentDebt(orders)
           && (r == 0.0 || r == c.creditLimit.value - CurrentDebt(orders)))
  {
    if c.creditLimit.Some? && c.creditLimit.value != 0.0 then
      var left := c.creditLimit.value - CurrentDebt(orders);
      if left > 0.0 then left else 0.0
    else 0.0
  }

  /** A customer without orders has the whole (positive) limit available. */
  lemma FreshCustomerHasFullCredit(c: Customer)
    requires c.creditLimit.Some? && c.creditLimit.value > 0.0
    ensures AvailableCredit(c, []) == c.creditLimit.value
  {
  }

  /** Confirming an order with a non-negative total never raises the
      available credit. */
  lemma NewOrderNeverRaisesCredit(c: Customer, orders: seq<SalesOrder>, o: SalesOrder)
    requires o.totalAmount >= 0.0
    ensures AvailableCredit(c, orders + [o]) <= AvailableCredit(c, orders)
  {
    CurrentDebtAppend(orders, o);
  }

  /** `Customer.__str__`. */
  function CustomerLabel(c: Customer): (r: string)
    ensures |r| >= |c.code| && r[..|c.code|] == c.code
    ensures r[|c.code|..] == " - " + Party.DisplayName(c.name, c.tradeName)
  {
    Party.CodeLabel(c.code, c.name, c.tradeName)
  }

  /** `Customer.full_address`, the same rendering as a supplier's. */
  function CustomerFullAddress(c: Customer): (r: string)
    ensures r == "" <==> (c.address.street == "" && c.address.neighborhood == ""
                          && c.address.city == "" && c.address.postalCode == "")
  {
    Party.FullAddressEmpty(c.address);
    Party.FullAddress(c.address)
  }
}

=== FILE: serializers.dfy ===
/** The validators of api/serializers.py. A `validate_<field>` failure is a
    `FieldError` on that field; a failure of a serializer-wide `validate` is
    a `NonFieldError`. Values arrive already converted by their field, so a
    non-nullable decimal is a `real` and a nullable one an `Option<real>`. */
module Serializers {
  import opened Wrappers
  import Inventory
  import SupplierForms

  // ---------------------------------------------------------------------
  // Strictly positive amounts

  /** The fields whose `validate_<field>` demands a value greater than zero. */
  datatype PositiveField =
    | CostPerUnit     // MaterialSerializer
    | SalePrice       // ProductSerializer
    | Quantity        // StockMovement, RecipeItem, ProductionOrder and SalesOrderItem serializers
    | YieldQuantity   // RecipeSerializer
    | UnitPrice       // SalesOrderItemSerializer
    | OriginalAmount  // AccountsPayable and AccountsReceivable serializers
    | BaseSalary      // PayrollSerializer
  {
    function Name(): string {
      match this
      case CostPerUnit => "cost_per_unit"
      case SalePrice => "sale_price"
      case Quantity => "quantity"
      case YieldQuantity => "yield_quantity"
      case UnitPrice => "unit_price"
      case OriginalAmount => "original_amount"
      case BaseSalary => "base_salary"
    }

    function Message(): string {
      match this
      case CostPerUnit => "Cost per unit must be greater than zero."
      case SalePrice => "Sale price must be greater than zero."
      case Quantity => "Quantity must be greater than zero."
      case YieldQuantity => "Yield quantity must be greater than zero."
      case UnitPrice => "Unit price must be greater than zero."
      case OriginalAmount => "Original amount must be greater than zero."
      case BaseSalary => "Base salary must be greater than zero."
    }
  }

  /** `if value <= 0: raise ...; return value`. */
  function ValidatePositive(f: PositiveField, value: real): (r: Result<real>)
    ensures r.Ok? <==> value > 0.0
    ensures r.Ok? ==> r.value == value
    ensures r.Err? ==> r.error == FieldError(f.Name(), f.Message())
  {
    if value <= 0.0 then Err(FieldError(f.Name(), f.Message())) else Ok(value)
  }

  /** Every positive-field error names a distinct field, so the error alone
      tells which check failed. */
  lemma PositiveFieldNamesDistinct(f: PositiveField, g: PositiveField)
    ensures f.Name() == g.Name() <==> f == g
  {
  }

  // ---------------------------------------------------------------------
  // Non-negative amounts

  datatype NonNegativeField =
    | MinimumStock    // MaterialSerializer
    | OvertimeHours   // PayrollSerializer
  {
    function Name(): string {
      match this
      case MinimumStock => "minimum_stock"
      case OvertimeHours => "overtime_hours"
    }

    function Message(): string {
      match this
      case MinimumStock => "Minimum stock cannot be negative."
      case OvertimeHours => "Overtime hours cannot be negative."
    }
  }

  /** `if value < 0: raise ...; return value`: zero passes. */
  function ValidateNonNegative(f: NonNegativeField, value: real): (r: Result<real>)
    ensures r.Ok? <==> value >= 0.0
    ensures r.Ok? ==> r.value == value
    ensures r.Err? ==> r.error == FieldError(f.Name(), f.Message())
  {
    if value < 0.0 then Err(FieldError(f.Name(), f.Message())) else Ok(value)
  }

  /** Zero is exactly where the two kinds of check part ways. */
  lemma PositiveVersusNonNegative(f: PositiveField, g: NonNegativeField, value: real)
    ensures ValidatePositive(f, value).Ok? ==> ValidateNonNegative(g, value).Ok?
    ensures ValidateNonNegative(g, value).Ok? && ValidatePositive(f, value).Err? <==> value == 0.0
  {
  }

  // ---------------------------------------------------------------------
  // Nullable amounts guarded by truthiness

  /** `if value and value < 0: raise ...`: `None` and zero are falsy and
      pass, so only a negative value is refused. Used by
      `SupplierSerializer.validate_credit_limit` and
      `AccountsPayableSerializer.validate_paid_amount`. */
  function ValidateTruthyNonNegative(field: string, message: string, value: Option<real>): (r: Result<Option<real>>)
    ensures r.Ok? <==> value.None? || value.value >= 0.0
    ensures r.Ok? ==> r.value == value
    ensures r.Err? ==> r.error == FieldError(field, message)
  {
    if Inventory.Truthy(value) && value.value < 0.0 then Err(FieldError(field, message)) else Ok(value)
  }

  function SupplierValidateCreditLimit(value: Option<real>): (r: Result<Option<real>>)
    ensures r.Ok? <==> value.None? || value.value >= 0.0
    ensures r.Ok? ==> r.value == value
    ensures r.Err? ==> r.error == FieldError("credit_limit", "Credit limit cannot be negative.")
  {
    ValidateTruthyNonNegative("credit_limit", "Credit limit cannot be negative.", value)
  }

  function PayableValidatePaidAmount(value: Option<real>): (r: Result<Option<real>>)
    ensures r.Ok? <==> value.None? || value.value >= 0.0
    ensures r.Ok? ==> r.value == value
    ensures r.Err? ==> r.error == FieldError("paid_amount", "Paid amount cannot be negative.")
  {
    ValidateTruthyNonNegative("paid_amount", "Paid amount cannot be negative.", value)
  }

  /** The API and the supplier form accept the same credit limits. */
  lemma SupplierCreditLimitAgreesWithForm(value: Option<real>)
    ensures SupplierValidateCreditLimit(value).Ok? <==> SupplierForms.CleanCreditLimit(value).Ok?
    ensures SupplierValidateCreditLimit(value).Ok? ==> SupplierValidateCreditLimit(value).value == SupplierForms.CleanCreditLimit(value).value
  {
  }

  /** `CustomerSerializer.validate_credit_limit` as written: `value < 0`
      without a `None` guard, although the field is nullable, so an explicit
      null reaches the comparison and raises `TypeError`. */
  function CustomerValidateCreditLimit(value: Option<real>): (r: Result<Option<real>>)
    ensures value.None? ==> r.Err? && r.error.TypeError?
    ensures value.Some? ==> (r.Ok? <==> value.value >= 0.0)
    ensures r.Ok? ==> r.value == value
    ensures value.Some? && r.Err? ==> r.error == FieldError("credit_limit", "Credit limit cannot be negative.")
  {
    match value
    case None => Err(TypeError("'<' not supported between instances of 'NoneType' and 'int'"))
    case Some(v) =>
      if v < 0.0 then Err(FieldError("credit_limit", "Credit limit cannot be negative.")) else Ok(value)
  }

  /** A customer without a credit limit cannot be submitted with an explicit
      null, while the same payload is accepted for a supplier. */
  lemma NullCustomerCreditLimitRaises()
    ensures CustomerValidateCreditLimit(None).Err?
    ensures CustomerValidateCreditLimit(None).error.TypeError?
    ensures SupplierValidateCreditLimit(None) == Ok(None)
  {
  }

  /** The customer check with the guard the supplier check has. */
  function CustomerValidateCreditLimitCorrected(value: Option<real>): (r: Result<Option<real>>)
    ensures r.Ok? <==> value.None? || value.value >= 0.0
    ensures r.Ok? ==> r.value == value
    ensures r.Err? ==> r.error == FieldError("credit_limit", "Credit limit cannot be negative.")
  {
    if value.Some? && value.value < 0.0 then Err(FieldError("credit_limit", "Credit limit cannot be negative."))
    else Ok(value)
  }

  /** Corrected, the customer check agrees with the supplier check on every
      input, and with the as-written one wherever that does not raise. */
  lemma CorrectedCustomerCreditLimitAgrees(value: Option<real>)
    ensures CustomerValidateCreditLimitCorrected(value) == SupplierValidateCreditLimit(value)
    ensures value.Some? ==> CustomerValidateCreditLimitCorrected(value) == CustomerValidateCreditLimit(value)
    ensures CustomerValidateCreditLimitCorrected(None) == Ok(None)
  {
  }

  // ---------------------------------------------------------------------
  // Ranges and dates

  /** `SalesOrderSerializer.validate_discount_percentage`: 0..100 inclusive. */
  function ValidateDiscountPercentage(value: real): (r: Result<real>)
    ensures r.Ok? <==> 0.0 <= value <= 100.0
    ensures r.Ok? ==> r.value == value
    ensures r.Err? ==> r.error == FieldError("discount_percentage", "Discount percentage must be between 0 and 100.")
  {
    if value < 0.0 || value > 100.0 then
      Err(FieldError("discount_percentage", "Discount percentage must be between 0 and 100."))
    else Ok(value)
  }

  /** `SalesOrderSerializer.validate`: an order date after the delivery date
      is refused; equal dates or a missing one pass. */
  function SalesOrderValidate(orderDate: Option<int>, deliveryDate: Option<int>): (r: Outcome)
    ensures r.Fail? <==> orderDate.Some? && deliveryDate.Some? && orderDate.value > deliveryDate.value
    ensures r.Fail? ==> r.error == NonFieldError("Order date must be before delivery date.")
  {
    if orderDate.Some? && deliveryDate.Some? && orderDate.value > deliveryDate.value then
      Fail(NonFieldError("Order date must be before delivery date."))
    else Pass
  }

  datatype CalendarDate = CalendarDate(year: int, month: int, day: int)

  /** `PayrollSerializer.validate_reference_month`: only the first of a month. */
  function ValidateReferenceMonth(value: CalendarDate): (r: Result<CalendarDate>)
    ensures r.Ok? <==> value.day == 1
    ensures r.Ok? ==> r.value == value
    ensures r.Err? ==> r.error == FieldError("reference_month", "Reference month must be the first day of the month.")
  {
    if value.day != 1 then
      Err(FieldError("reference_month", "Reference month must be the first day of the month."))
    else Ok(value)
  }

  // ---------------------------------------------------------------------
  // Stock movements

  /** `StockMovementSerializer.validate`: exactly one of material and product. */
  function StockMovementValidate(material: Option<Inventory.Id>, product: Option<Inventory.Id>): (r: Outcome)
    ensures r.Pass? <==> material.Some? != product.Some?
    ensures material.None? && product.None? ==> r == Fail(NonFieldError("Either material or product must be specified."))
    ensures material.Some? && product.Some? ==> r == Fail(NonFieldError("Cannot specify both material and product."))
  {
    if material.None? && product.None? then Fail(NonFieldError("Either material or product must be specified."))
    else if material.Some? && product.Some? then Fail(NonFieldError("Cannot specify both material and product."))
    else Pass
  }

  /** The serializer accepts exactly the movements the model's own `clean`
      accepts, though with English messages. */
  lemma StockMovementValidateAgreesWithClean(m: Inventory.StockMovement)
    ensures StockMovementValidate(m.material, m.product).Pass? <==> Inventory.Clean(m).Ok?
  {
  }

  // ---------------------------------------------------------------------
  // Production orders (finding)

  /** The names of `ProductionOrderSerializer.Meta.fields`; validated data
      only ever holds keys from this set. */
  function ProductionOrderFields(): (r: set<string>)
    ensures "planned_start_date" in r && "planned_end_date" in r
    ensures "start_date" !in r && "end_date" !in r
  {
    {"id", "order_number", "recipe", "recipe_name", "product_name",
     "supervisor", "supervisor_name", "planned_quantity", "produced_quantity",
     "status", "priority", "planned_start_date", "planned_end_date",
     "actual_start_date", "actual_end_date", "estimated_cost", "actual_cost",
     "notes", "is_active", "created_at", "updated_at"}
  }

  /** The date order check on the two named keys of the validated data
      (datetimes as instants). */
  function DateOrderCheck(data: map<string, int>, startKey: string, endKey: string): (r: Outcome)
    ensures r.Fail? <==> startKey in data && endKey in data && data[startKey] > data[endKey]
    ensures r.Fail? ==> r.error == NonFieldError("Start date must be before end date.")
  {
    if startKey in data && endKey in data && data[startKey] > data[endKey] then
      Fail(NonFieldError("Start date must be before end date."))
    else Pass
  }

  /** `ProductionOrderSerializer.validate` as written: it reads `start_date`
      and `end_date`. */
  function ProductionOrderValidate(data: map<string, int>): (r: Outcome)
    ensures r.Fail? <==> "start_date" in data && "end_date" in data && data["start_date"] > data["end_date"]
  {
    DateOrderCheck(data, "start_date", "end_date")
  }

  /** No data the serializer can produce is ever refused: the keys it reads
      are not among its fields, so even a planned end before the planned
      start passes. */
  lemma ProductionOrderValidateNeverFails(data: map<string, int>)
    requires data.Keys <= ProductionOrderFields()
    ensures ProductionOrderValidate(data) == Pass
  {
    assert "start_date" !in data;
  }

  /** The check on the fields the serializer actually has. */
  function ProductionOrderValidateCorrected(data: map<string, int>): (r: Outcome)
    ensures r.Fail? <==> ("planned_start_date" in data && "planned_end_date" in data
      && data["planned_start_date"] > data["planned_end_date"])
  {
    DateOrderCheck(data, "planned_start_date", "planned_end_date")
  }

  /** Corrected, an inverted planned window is refused and an ordered one
      accepted, for data the serializer can produce. */
  lemma CorrectedProductionOrderValidate(start: int, end: int)
    ensures ProductionOrderValidateCorrected(map["planned_start_date" := start, "planned_end_date" := end]).Fail?
      <==> start > end
    ensures map["planned_start_date" := start, "planned_end_date" := end].Keys <= ProductionOrderFields()
  {
  }
}

=== FILE: suppliers.dfy ===
/** Suppliers (suppliers/models.py): the display members. */
module Suppliers {
  import opened Wrappers
  import Party

  datatype SupplierType = Individual | Company

  datatype Supplier = Supplier(
    code: string,
    name: string,
    tradeName: string,
    supplierType: SupplierType,
    address: Party.Address,
    creditLimit: Option<real>)

  /** `Supplier.get_display_name`. */
  function SupplierDisplayName(s: Supplier): (r: string)
    ensures s.tradeName != "" ==> r == s.tradeName
    ensures s.tradeName == "" ==> r == s.name
  {
    Party.DisplayName(s.name, s.tradeName)
  }

  /** `Supplier.__str__`: the code, " - ", then the display name. */
  function SupplierLabel(s: Supplier): (r: string)
    ensures |r| >= |s.code| && r[..|s.code|] == s.code
    ensures r[|s.code|..] == " - " + SupplierDisplayName(s)
  {
    Party.CodeLabel(s.code, s.name, s.tradeName)
  }

  /** `Supplier.full_address`. */
  function SupplierFullAddress(s: Supplier): (r: string)
    ensures r == "" <==> (s.address.street == "" && s.address.neighborhood == ""
                          && s.address.city == "" && s.address.postalCode == "")
  {
    Party.FullAddressEmpty(s.address);
    Party.FullAddress(s.address)
  }
}

=== FILE: text.dfy ===
/** The few Python string operations the modelled code uses:
    digit filtering (`re.sub(r'[^\d]', '', s)`), `str.strip()`,
    `str.upper()`/`str.lower()`, `str.split(sep)` and `sep.join(parts)`.

    Characters are Unicode code points; "digit" means an ASCII digit and the
    case mappings are ASCII-only (see README, "Left out"). */
module Text {

  predicate IsDigit(c: char) {
    '0' <= c <= '9'
  }

  predicate AllDigits(s: string) {
    forall i :: 0 <= i < |s| ==> IsDigit(s[i])
  }

  /** The whitespace `str.strip()` removes (ASCII whitespace, the
      information separators U+001C..U+001F, NEL and NO-BREAK SPACE). */
  predicate IsSpace(c: char) {
    || c == ' ' || c == '\t' || c == '\n' || c == '\r'
    || c == '\U{000B}' || c == '\U{000C}'
    || ('\U{001C}' <= c <= '\U{001F}')
    || c == '\U{0085}' || c == '\U{00A0}'
  }

  predicate AllSpace(s: string) {
    forall i :: 0 <= i < |s| ==> IsSpace(s[i])
  }

  // ---------------------------------------------------------------------
  // Digit filtering

  /** The digits of `s`, in order; every other character is dropped. */
  function Digits(s: string): (r: string)
    ensures AllDigits(r)
    ensures |r| <= |s|
    ensures AllDigits(s) ==> r == s
  {
    if |s| == 0 then ""
    else if IsDigit(s[0]) then [s[0]] + Digits(s[1..])
    else Digits(s[1..])
  }

  /** Filtering distributes over concatenation, so `Digits` keeps exactly the
      digits of its input, in their original order. */
  lemma {:induction false} DigitsAppend(a: string, b: string)
    ensures Digits(a + b) == Digits(a) + Digits(b)
    decreases |a|
  {
    if |a| == 0 {
      assert a + b == b;
    } else {
      assert (a + b)[1..] == a[1..] + b;
      DigitsAppend(a[1..], b);
    }
  }

  // ---------------------------------------------------------------------
  // Stripping

  /** `s` without its leading whitespace. */
  function TrimStart(s: string): (r: string)
    ensures |r| <= |s| && r == s[|s| - |r|..]
    ensures r == [] || !IsSpace(r[0])
    ensures forall i :: 0 <= i < |s| - |r| ==> IsSpace(s[i])
  {
    if |s| > 0 && IsSpace(s[0]) then TrimStart(s[1..]) else s
  }

  /** `s` without its trailing whitespace. */
  function TrimEnd(s: string): (r: string)
    ensures |r| <= |s| && r == s[..|r|]
    ensures r == [] || !IsSpace(r[|r| - 1])
    ensures forall i :: |r| <= i < |s| ==> IsSpace(s[i])
  {
    if |s| > 0 && IsSpace(s[|s| - 1]) then TrimEnd(s[..|s| - 1]) else s
  }

  /** Python's `s.strip()`. */
  function Strip(s: string): (r: string)
  {
    TrimEnd(TrimStart(s))
  }

  predicate IsStripped(s: string) {
    s == [] || (!IsSpace(s[0]) && !IsSpace(s[|s| - 1]))
  }

  /** Where `Strip(s)` starts inside `s`. */
  function StripOffset(s: string): nat
  {
    |s| - |TrimStart(s)|
  }

  /** `strip()` returns a contiguous slice of its input with no whitespace at
      either end. */
  lemma StripSpec(s: string)
    ensures IsStripped(Strip(s))
    ensures StripOffset(s) + |Strip(s)| <= |s|
    ensures Strip(s) == s[StripOffset(s)..StripOffset(s) + |Strip(s)|]
  {
    var t := TrimStart(s);
    var r := TrimEnd(t);
    var i := |s| - |t|;
    assert r == t[..|r|];
    assert t == s[i..];
    assert s[i..][..|r|] == s[i..i + |r|];
    if r != [] {
      assert r[0] == t[0];
    }
  }

  /** A string already without surrounding whitespace is left alone. */
  lemma StripStripped(s: string)
    requires IsStripped(s)
    ensures Strip(s) == s
  {
    if |s| == 0 {
      assert TrimStart(s) == s;
      assert TrimEnd(s) == s;
    } else {
      TrimStartNoop(s);
      TrimEndNoop(s);
    }
    assert Strip(s) == TrimEnd(TrimStart(s));
  }

  lemma TrimStartNoop(s: string)
    requires |s| > 0 && !IsSpace(s[0])
    ensures TrimStart(s) == s
  {
  }

  lemma TrimEndNoop(s: string)
    requires |s| > 0 && !IsSpace(s[|s| - 1])
    ensures TrimEnd(s) == s
  {
  }

  /** Stripping twice is stripping once. */
  lemma StripIdempotent(s: string)
    ensures Strip(Strip(s)) == Strip(s)
  {
    StripSpec(s);
    StripStripped(Strip(s));
  }

  /** Only an all-whitespace string loses everything to `TrimStart`. */
  lemma {:induction false} TrimStartEmpty(s: string)
    ensures TrimStart(s) == [] <==> AllSpace(s)
    decreases |s|
  {
    if |s| > 0 && IsSpace(s[0]) {
      TrimStartEmpty(s[1..]);
      assert AllSpace(s) <==> AllSpace(s[1..]) by {
        assert forall i :: 0 <= i < |s| - 1 ==> s[1..][i] == s[i + 1];
      }
    }
  }

  /** Only an all-whitespace string loses everything to `TrimEnd`. */
  lemma {:induction false} TrimEndEmpty(s: string)
    ensures TrimEnd(s) == [] <==> AllSpace(s)
    decreases |s|
  {
    if |s| > 0 && IsSpace(s[|s| - 1]) {
      var init := s[..|s| - 1];
      TrimEndEmpty(init);
      assert AllSpace(s) <==> AllSpace(init) by {
        assert forall i :: 0 <= i < |s| - 1 ==> init[i] == s[i];
      }
    }
  }

  lemma AllSpaceAppend(a: string, b: string)
    requires AllSpace(a) && AllSpace(b)
    ensures AllSpace(a + b)
  {
    forall i | 0 <= i < |a + b|
      ensures IsSpace((a + b)[i])
    {
      if i < |a| {
        assert (a + b)[i] == a[i];
      } else {
        assert (a + b)[i] == b[i - |a|];
      }
    }
  }

  /** `strip()` yields the empty string exactly for all-whitespace input. */
  lemma StripEmpty(s: string)
    ensures Strip(s) == [] <==> AllSpace(s)
  {
    var t := TrimStart(s);
    TrimStartEmpty(s);
    TrimEndEmpty(t);
  }

  // ---------------------------------------------------------------------
  // ASCII case mapping

  function UpperChar(c: char): char {
    if 'a' <= c <= 'z' then (c as int - 32) as char else c
  }

  function LowerChar(c: char): char {
    if 'A' <= c <= 'Z' then (c as int + 32) as char else c
  }

  /** Python's `s.upper()` on ASCII letters. */
  function Upper(s: string): (r: string)
    ensures |r| == |s|
  {
    seq(|s|, i requires 0 <= i < |s| => UpperChar(s[i]))
  }

  /** Python's `s.lower()` on ASCII letters. */
  function Lower(s: string): (r: string)
    ensures |r| == |s|
  {
    seq(|s|, i requires 0 <= i < |s| => LowerChar(s[i]))
  }

  // ---------------------------------------------------------------------
  // Splitting and joining

  /** Python's `s.split(sep)` for a one-character separator: always at least
      one piece, and no piece contains the separator. */
  function Split(s: string, sep: char): (r: seq<string>)
    ensures |r| >= 1
    ensures forall i :: 0 <= i < |r| ==> sep !in r[i]
  {
    if |s| == 0 then [""]
    else
      var rest := Split(s[1..], sep);
      if s[0] == sep then [""] + rest
      else [[s[0]] + rest[0]] + rest[1..]
  }

  /** Python's `sep.join(parts)`. */
  function Join(parts: seq<string>, sep: string): string
  {
    if |parts| == 0 then ""
    else if |parts| == 1 then parts[0]
    else parts[0] + sep + Join(parts[1..], sep)
  }

  /** Joining the pieces of a split with the separator gives the input back. */
  lemma {:induction false} JoinSplit(s: string, sep: char)
    ensures Join(Split(s, sep), [sep]) == s
    decreases |s|
  {
    if |s| > 0 {
      var rest := Split(s[1..], sep);
      JoinSplit(s[1..], sep);
      if s[0] == sep {
        assert Split(s, sep)[1..] == rest;
      } else {
        var r := Split(s, sep);
        assert r[0] == [s[0]] + rest[0];
        assert r[1..] == rest[1..];
        if |rest| == 1 {
          assert Join(r, [sep]) == [s[0]] + rest[0];
        } else {
          assert Join(r, [sep]) == [s[0]] + rest[0] + [sep] + Join(rest[1..], [sep]);
        }
        assert s == [s[0]] + s[1..];
      }
    }
  }

  /** A string without the separator is a single piece. */
  lemma {:induction false} SplitNoSep(a: string, sep: char)
    requires sep !in a
    ensures Split(a, sep) == [a]
    decreases |a|
  {
    if |a| > 0 {
      SplitNoSep(a[1..], sep);
      assert [a[0]] + a[1..] == a;
    }
  }

  /** Splitting `a + sep + b`, where `a` has no separator, yields `a` first. */
  lemma {:induction false} SplitCons(a: string, b: string, sep: char)
    requires sep !in a
    ensures Split(a + [sep] + b, sep) == [a] + Split(b, sep)
    decreases |a|
  {
    if |a| == 0 {
      assert a + [sep] + b == [sep] + b;
      assert ([sep] + b)[1..] == b;
    } else {
      var s := a + [sep] + b;
      assert s[1..] == a[1..] + [sep] + b;
      SplitCons(a[1..], b, sep);
      assert [a[0]] + a[1..] == a;
    }
  }

  /** Splitting `a + sep + b`, where `b` has no separator, yields the pieces
      of `a` followed by `b`. */
  lemma {:induction false} SplitSnoc(a: string, b: string, sep: char)
    requires sep !in b
    ensures Split(a + [sep] + b, sep) == Split(a, sep) + [b]
    decreases |a|
  {
    var s := a + [sep] + b;
    if |a| == 0 {
      assert s == [sep] + b;
      assert s[1..] == b;
      SplitNoSep(b, sep);
    } else {
      assert s[1..] == a[1..] + [sep] + b;
      assert s[0] == a[0];
      SplitSnoc(a[1..], b, sep);
      var ra := Split(a[1..], sep);
      var rest := Split(s[1..], sep);
      assert rest == ra + [b];
      if a[0] != sep {
        assert rest[0] == ra[0];
        assert rest[1..] == ra[1..] + [b];
      }
    }
  }

  /** Splitting a join of separator-free pieces gives the pieces back. */
  lemma {:induction false} SplitJoin(parts: seq<string>, sep: char)
    requires |parts| >= 1
    requires forall i :: 0 <= i < |parts| ==> sep !in parts[i]
    ensures Split(Join(parts, [sep]), sep) == parts
    decreases |parts|
  {
    if |parts| == 1 {
      SplitNoSep(parts[0], sep);
    } else {
      SplitJoin(parts[1..], sep);
      SplitCons(parts[0], Join(parts[1..], [sep]), sep);
      assert [parts[0]] + parts[1..] == parts;
    }
  }

  /** The last piece of `s.split(sep)`, i.e. `s.split(sep)[-1]`. */
  function LastPiece(s: string, sep: char): (r: string)
    ensures sep !in r
  {
    var pieces := Split(s, sep);
    pieces[|pieces| - 1]
  }

  // ---------------------------------------------------------------------
  // Lists of stripped, non-blank pieces

  /** `[p.strip() for p in pieces if p.strip()]`. */
  function NonBlank(pieces: seq<string>): (r: seq<string>)
    ensures |r| <= |pieces|
    ensures forall i :: 0 <= i < |r| ==> r[i] != "" && IsStripped(r[i])
  {
    if |pieces| == 0 then []
    else
      var p := Strip(pieces[0]);
      StripSpec(pieces[0]);
      if p != "" then [p] + NonBlank(pieces[1..]) else NonBlank(pieces[1..])
  }

  /** Pieces already stripped and non-blank are kept as they are. */
  lemma {:induction false} NonBlankKeeps(pieces: seq<string>)
    requires forall i :: 0 <= i < |pieces| ==> pieces[i] != "" && IsStripped(pieces[i])
    ensures NonBlank(pieces) == pieces
    decreases |pieces|
  {
    if |pieces| > 0 {
      StripStripped(pieces[0]);
      NonBlankKeeps(pieces[1..]);
      assert [pieces[0]] + pieces[1..] == pieces;
    }
  }

  /** Adding one more piece adds its stripped text at the end when that is
      not blank, and nothing otherwise; every earlier piece keeps its result
      and its place. */
  lemma {:induction false} NonBlankSnoc(pieces: seq<string>, p: string)
    ensures NonBlank(pieces + [p]) == NonBlank(pieces) + (if Strip(p) != "" then [Strip(p)] else [])
    decreases |pieces|
  {
    if |pieces| == 0 {
      assert pieces + [p] == [p];
      assert [p][1..] == [];
    } else {
      assert (pieces + [p])[0] == pieces[0];
      assert (pieces + [p])[1..] == pieces[1..] + [p];
      NonBlankSnoc(pieces[1..], p);
    }
  }

  /** Split-strip-filter, piece by piece: a string without the separator
      gives its stripped text unless blank, and one more separated piece
      appends its stripped text unless blank. */
  lemma SplitNonBlankSnoc(s: string, t: string, sep: char)
    requires sep !in t
    ensures NonBlank(Split(t, sep)) == (if Strip(t) != "" then [Strip(t)] else [])
    ensures NonBlank(Split(s + [sep] + t, sep)) == NonBlank(Split(s, sep)) + (if Strip(t) != "" then [Strip(t)] else [])
  {
    assert NonBlank(Split(t, sep)) == NonBlank([t]) by {
      SplitNoSep(t, sep);
    }
    assert NonBlank([t]) == (if Strip(t) != "" then [Strip(t)] else []) by {
      NonBlankSnoc([], t);
      assert [] + [t] == [t];
    }
    SplitSnoc(s, t, sep);
    NonBlankSnoc(Split(s, sep), t);
  }

  /** Stripped, non-blank, separator-free pieces joined with the separator
      come back unchanged from split-strip-filter; an empty list joins to "". */
  lemma NonBlankRoundTrip(parts: seq<string>, sep: char)
    requires forall i :: 0 <= i < |parts| ==> parts[i] != "" && IsStripped(parts[i]) && sep !in parts[i]
    ensures |parts| == 0 <==> Join(parts, [sep]) == ""
    ensures |parts| > 0 ==> NonBlank(Split(Join(parts, [sep]), sep)) == parts
  {
    if |parts| > 0 {
      if |parts| > 1 {
        assert Join(parts, [sep])[..|parts[0]|] == parts[0];
      }
      SplitJoin(parts, sep);
      NonBlankKeeps(parts);
    }
  }

  /** The piece after the last separator of `a + sep + b` is `b`, and there
      are at least two pieces. */
  lemma {:induction false} LastPieceAfterSep(a: string, b: string, sep: char)
    requires sep !in b
    ensures |Split(a + [sep] + b, sep)| >= 2
    ensures LastPiece(a + [sep] + b, sep) == b
    decreases |a|
  {
    var s := a + [sep] + b;
    if |a| == 0 {
      assert s == [sep] + b;
      assert s[1..] == b;
      SplitNoSep(b, sep);
    } else {
      assert s[1..] == a[1..] + [sep] + b;
      LastPieceAfterSep(a[1..], b, sep);
    }
  }
}

=== FILE: wrappers.dfy ===
/** Failure-compatible datatypes shared by every module of the model.

    The Python code signals failure by raising: `ValueError` from model
    methods, Django/DRF `ValidationError` from form and serializer cleaners,
    and the occasional uncaught `TypeError` or decimal error. Each raise
    becomes an `Err` carrying the exception kind and its message text. */
module Wrappers {

  datatype Option<+T> = None | Some(value: T)
  {
    /** Returns the wrapped value, or `default` for `None`. */
    function GetOr(default: T): T {
      match this
      case Some(v) => v
      case None => default
    }
  }

  /** The exceptions the modelled code raises. */
  datatype Error =
    | ValueError(message: string)
    | TypeError(message: string)
    | ArithmeticError(message: string)
      /** `ValidationError('...')`: attached to the whole form (non-field errors). */
    | NonFieldError(message: string)
      /** `ValidationError({'field': '...'})` or a `clean_<field>` failure. */
    | FieldError(field: string, message: string)

  datatype Result<+T> = Ok(value: T) | Err(error: Error)
  {
    predicate IsFailure() {
      Err?
    }

    function PropagateFailure<U>(): Result<U>
      requires Err?
    {
      Err(error)
    }

    function Extract(): T
      requires Ok?
    {
      value
    }
  }

  /** A check that either passes or fails with an error, for cleaners
      whose successful result is the unchanged input. */
  datatype Outcome = Pass | Fail(error: Error)
  {
    predicate IsFailure() {
      Fail?
    }

    function PropagateFailure<U>(): Result<U>
      requires Fail?
    {
      Err(error)
    }
  }

  function Need(condition: bool, error: Error): (r: Outcome)
    ensures r.Pass? <==> condition
    ensures r.Fail? ==> r.error == error
  {
    if condition then Pass else Fail(error)
  }
}
